=== FILE: README.md ===
# video-generator, modelled in Dafny

This project models the core of a tool that turns a narrative script into a
video. A **project** holds a script and a configuration. Splitting the script
with a language model produces ordered **scenes**, each with an image prompt.
Every scene gets generated **images** (one or more per image model) and, from
the selected image, animated **clips** (one per animation model). One image
and one clip per scene can be selected. Narration audio can be synthesised per
scene. The selected clips are assembled into a composition that cross-fades,
slides or wipes between them.

The model has four layers:

- `Store` (store.dfy): the database as immutable maps of projects, scenes,
  images and clips. It has next-id counters and a creation clock. `Valid` and
  `Consistent` are the invariants every route preserves: a scene's
  `selectedImageId`/`selectedClipId` back-reference agrees with the
  `isSelected` flags.
- The API routes, each a pure function from a store to a `Response` (the new
  store plus an `Ok` body or an HTTP error):
  - `Projects` (projects.ts);
  - `Scenes` (scenes.ts);
  - `Selection` (images.ts and clips.ts, one generic definition over the
    artifact kind);
  - `Narration` (narration.ts);
  - `Render` (render.ts).

  A background loop that runs after a route has answered is a separate
  function (`FinishSceneImages`, `FinishNarration`, …). It takes the
  generator's outcome for each record as a parameter and is applied to the
  store as it is when the loop runs. `Records` holds what those loops share:
  record creation (`Fill`), settling one record (`Settle`), and the loop
  itself (`RunBatch`). `Pipeline` names the project status each stage writes.
- The services:
  - `Fal` (fal.ts): request shaping, local download paths, upload MIME types.
    `Paths` holds the path joining, resolution and extension rules of
    Node's `path` module that the upload relies on.
  - `Objects`: property reads on the object literals both services use as
    tables. A name every object inherits (`constructor`, `toString`, …)
    reads a truthy built-in there, which passes the "unknown model" guards.
  - `Replicate` (replicate.ts): model aliases, prediction inputs, the bounded
    polling loop as a verified method.
  - `Llm` (llm.ts): text extraction, the JSON fence extraction, mock and live
    prompts.
  - `Composition` (Composition.tsx): metadata, frame arithmetic, transitions,
    Ken Burns motion, the assembled series.
- The web client's logic:
  - `Views`: SceneOverview, SceneDetail, SceneNavigation and ClipCard.
  - `Pages`: ProjectView, ProjectList and ProjectCreate.

  Rendering itself is not modelled. What is modelled is what each component
  decides: badge captions and colours, the truncated prompt, the progress
  value, the disabled arrows, the polling conditions, the scene label, the
  status label and colour, the create form's request.

Where the code and its design notes disagree, the model follows the code:

- A failed narration run falls back to `scenes_ready`, not `clips_ready`.
- JavaScript truthiness is written out. An `Option<string>` is truthy when it
  is present and non-empty. An id is truthy when it is non-zero.
- `??` falls back only on a missing value. An empty string is kept.

## Model

| member | source | states |
|---|---|---|
| Text.Trim | packages/api/src/services/llm.ts:128 | the result starts and ends with a non-space character |
| Text.TrimIdempotent | packages/web/src/pages/ProjectCreate.tsx:16-23 | trimming twice is trimming once |
| Text.TrimPadded | packages/api/src/services/llm.ts:85-88 | trimming all-space padding around a body that neither starts nor ends with a space gives back that body |
| Text.TrimOfTrimmed | packages/api/src/services/llm.ts:128 | a string that neither starts nor ends with a space is its own trim |
| Text.IndexOfFrom | packages/api/src/services/llm.ts:86 | the result is -1 or a position where the pattern occurs; no position between the start and the result is an occurrence |
| Text.LastIndexOf | packages/api/src/services/fal.ts:49 | the position of the last occurrence of the character, or -1; no later position holds it |
| Text.BeforeFirst | packages/api/src/services/fal.ts:49 | `split(c)[0]`: a prefix of the input free of `c`, followed in the input by `c` when shorter |
| Text.AfterLast | packages/api/src/services/fal.ts:49 | `split(c).pop()`: a suffix of the input free of `c`, preceded by `c` when shorter |
| Text.ReplaceAll | packages/web/src/pages/ProjectList.tsx:74 | `replace(/_/g, " ")`: same length, and each `from` character becomes `to` while every other character is kept |
| Text.ReplaceAllInjective | packages/web/src/pages/ProjectView.tsx:228 | on strings that do not contain the replacement character, replacing is injective |
| Text.NatToString | packages/api/src/routes/narration.ts:94-103 | the decimal digits of a number, with no leading zero unless the number is 0 |
| Text.NatToStringRoundTrip | packages/api/src/routes/narration.ts:94-103 | parsing the decimal text gives the number back |
| Text.NatToStringInjective | packages/api/src/routes/narration.ts:94-103 | different numbers have different decimal texts |
| Text.IntToString | packages/web/src/pages/ProjectView.tsx:266 | `String(n)`: a leading `-` exactly for negative numbers, then decimal digits with no leading zero unless the number is 0 |
| Text.IntToStringRoundTrip | packages/web/src/pages/ProjectView.tsx:266 | reading the text back as an optional minus and digits gives the integer |
| Text.IntToStringInjective | packages/web/src/pages/ProjectView.tsx:266 | different integers have different texts |
| Text.PadStart | packages/web/src/pages/ProjectView.tsx:266 | `padStart`: the width or the input length, whichever is larger; the input is the suffix and only pad characters precede it |
| Composition.Ceil | packages/remotion/src/Composition.tsx:121-125 | `Math.ceil`: the least integer not below the real |
| Composition.TransitionAt | packages/remotion/src/Composition.tsx:27-34 | the transition after clip `i` is fade, slide or wipe as `i mod 3` is 0, 1 or 2 |
| Composition.TransitionCycle | packages/remotion/src/Composition.tsx:31-34 | the transitions repeat every three clips, and two consecutive ones always differ |
| Composition.KenBurns | packages/remotion/src/Composition.tsx:45-60 | even seeds zoom in and odd seeds zoom out, between 1 and 1.08; the pan is the seed's entry in the four-direction table |
| Composition.KenBurnsPattern | packages/remotion/src/Composition.tsx:45-60 | consecutive seeds swap start and end scale; the pan repeats every four seeds and each pan is symmetric about the centre |
| Composition.DimensionsOf | packages/remotion/src/Composition.tsx:95 | "9:16" is 1080×1920 and every other format is 1920×1080 |
| Composition.DimensionsTurn | packages/remotion/src/Composition.tsx:101-102 | the portrait size is the landscape size turned |
| Composition.TotalFrames | packages/remotion/src/Composition.tsx:121-125 | at least one frame and at least the ceiling of the summed seconds at 30 fps less 15 frames per transition; exactly that value unless it is below one |
| Composition.CalculateMetadata | packages/remotion/src/Composition.tsx:91-137 | no clips gives a one-frame video without durations; otherwise one duration per clip (the probed one, or 5 s) and the total frames above |
| Composition.UnreadableClips | packages/remotion/src/Composition.tsx:108-125 | when no clip can be probed, `n` clips last `135·n + 15` frames |
| Composition.ClipFrames | packages/remotion/src/Composition.tsx:160-161 | a clip's sequence lasts the ceiling of its seconds times the frame rate, or one frame when that is smaller |
| Composition.AudioAt | packages/remotion/src/Composition.tsx:176 | clip `i` has audio exactly when the `i`-th URL exists and is non-empty |
| Composition.Assemble | packages/remotion/src/Composition.tsx:139-198 | no clips gives the placeholder; otherwise `2n-1` elements alternating sequences and transitions, sequence `i` at position `2i` |
| Composition.SequencesCoverTotal | packages/remotion/src/Composition.tsx:159-191 | the summed sequence frames are at least the ceiling of the summed seconds |
| Composition.SeriesCoversComposition | packages/remotion/src/Composition.tsx:121-191 | when the composition is longer than its one-frame minimum, the assembled series (sequences less transition overlaps) is never shorter than it |
| Composition.ShortClipsOutrunSeries | packages/remotion/src/Composition.tsx:121-125 | the one-frame minimum is needed in that statement: two clips of 0.01 s give a one-frame composition and a series of -13 frames |
| Fal.ImageRequest | packages/api/src/services/fal.ts:84-120 | exactly a name that is neither a table key nor inherited by every object is an error; an inherited name (`toString`, …) passes with the inherited member as its endpoint; the nano-banana models get an aspect ratio (and "2K" for the pro model), every other model an image size from the format table, `landscape_16_9` for an unlisted format and the inherited member for an inherited one |
| Fal.ClipRequest | packages/api/src/services/fal.ts:126-168 | exactly a name that is neither a table key nor inherited is an error; an inherited name passes and gets the minimax payload; a non-http image is replaced by its upload; wan gets 480p and the aspect ratio, kling the aspect ratio, minimax neither |
| Fal.TablesApart | packages/api/src/services/fal.ts:13-31 | no key of the model and format tables is a name every object inherits |
| Fal.RemoteExtension | packages/api/src/services/fal.ts:49 | the text after the last dot of the URL with its query removed, or the directory's fallback when that is empty |
| Fal.LocalUrlExtension | packages/api/src/services/fal.ts:49-58 | the served path's extension is the remote extension |
| Fal.QueryIgnored | packages/api/src/services/fal.ts:49 | a query string never changes the extension |
| Fal.DotlessPathUsesHostSuffix | packages/api/src/services/fal.ts:49 | a URL whose only dot is in the host takes the host's suffix and the path as its extension |
| Fal.FallbackExtension | packages/api/src/services/fal.ts:49 | a dotless stem is its own extension; a trailing dot gives the fallback |
| Fal.UploadPath | packages/api/src/services/fal.ts:5-68 | a stored path starting with `/` is joined onto the public directory (`<cwd>/public`) and normalised; any other path is resolved from the working directory |
| Fal.MimeFor | packages/api/src/services/fal.ts:71-75 | the MIME table's own entry; for a name every object inherits (`constructor`, `toString`, …) the lower-cased text of the inherited value; otherwise `application/octet-stream` |
| Fal.MimeType | packages/api/src/services/fal.ts:70-75 | a path's MIME type is that of its extension: a table value, an inherited value's text or the default |
| Fal.UploadFor | packages/api/src/services/fal.ts:65-78 | the upload pairs the file read with that file's MIME type |
| Fal.PublicDirOf | packages/api/src/services/fal.ts:5 | for a normalised working directory the public directory is that directory followed by `/public`, and is itself normalised |
| Fal.PublicJoin | packages/api/src/services/fal.ts:66-67 | ordinary names joined onto the public directory are appended after a `/` |
| Fal.DownloadedFileUploadsWithItsType | packages/api/src/services/fal.ts:41-78 | uploading a file this module downloaded reads `<cwd>/public/<dir>/<name>.<ext>` with the MIME type of its remote extension |
| Fal.UploadOfLocal | packages/api/src/services/fal.ts:65-78 | a served path `/dir/name.ext` uploads `<cwd>/public/dir/name.ext` with the MIME type of `ext` |
| Fal.StoredPath | packages/api/src/services/fal.ts:66-67 | a stored `/dir/name` is read from `dir/name` under the public directory |
| Fal.UploadClimbsOutOfPublic | packages/api/src/services/fal.ts:66-67 | a stored path `/../names` is normalised out of the public directory into the working directory |
| Objects.Get | packages/api/src/services/fal.ts:89 | a table key reads its own entry; otherwise exactly a name every object inherits reads the inherited member, and the read is truthy exactly for a non-empty own entry or an inherited name |
| Objects.Or | packages/api/src/services/replicate.ts:34 | JavaScript's logical or: the first operand when it is truthy, else the second |
| Objects.Coalesce | packages/api/src/services/fal.ts:107 | `a ?? b`: the first operand unless it is undefined |
| Objects.TextsAreNotNames | packages/api/src/services/replicate.ts:34 | the text of an inherited member is not itself an inherited name |
| Objects.KeysApart | packages/api/src/services/fal.ts:13-31 | names whose initials differ from every inherited name's are not inherited |
| Paths.Segments | packages/api/src/services/fal.ts:66-68 | the pieces between slashes: at least one, none containing a slash |
| Paths.JoinSegments | packages/api/src/services/fal.ts:66-68 | joining the pieces with `/` gives the path back |
| Paths.SegmentsJoin | packages/api/src/services/fal.ts:66-68 | splitting joined slash-free pieces gives the pieces back |
| Paths.SegmentsOfJoined | packages/api/src/services/fal.ts:66-68 | the pieces of `a/b` are those of `a` followed by those of `b` |
| Paths.JoinAppend | packages/api/src/services/fal.ts:66-68 | joining two runs of pieces puts one `/` between their joins |
| Paths.ResolveOntoResolved | packages/api/src/services/fal.ts:66-68 | normalising leaves no empty or `.` piece, and `..` only in a leading run of a relative path |
| Paths.ResolveAppend | packages/api/src/services/fal.ts:66-68 | normalising two runs in turn is normalising their concatenation |
| Paths.ResolveOrdinary | packages/api/src/services/fal.ts:66-68 | ordinary names are kept as they are |
| Paths.ResolveIdempotent | packages/api/src/services/fal.ts:66-68 | a normalised run normalises to itself |
| Paths.Normalize | packages/api/src/services/fal.ts:66-67 | `path.normalize` never gives the empty string |
| Paths.JoinPath | packages/api/src/services/fal.ts:5-67 | `path.join` never gives the empty string |
| Paths.ResolvePath | packages/api/src/services/fal.ts:68 | `path.resolve` never gives the empty string, and is absolute when the path or the working directory is |
| Paths.NormalSegments | packages/api/src/services/fal.ts:66-67 | a normalised path splits and normalises back to its own pieces |
| Paths.JoinNormal | packages/api/src/services/fal.ts:66-67 | joining ordinary names onto a normalised path appends them after a `/` |
| Paths.ExtendNormal | packages/api/src/services/fal.ts:5-67 | that join is again normalised, with the names as its last pieces |
| Paths.ClimbOne | packages/api/src/services/fal.ts:66-67 | a `..` after the last piece of a path cancels that piece |
| Paths.DropTrailing | packages/api/src/services/fal.ts:70 | the longest prefix that does not end in the character |
| Paths.BaseName | packages/api/src/services/fal.ts:70 | the last piece, trailing slashes ignored, contains no slash |
| Paths.Extension | packages/api/src/services/fal.ts:70 | `path.extname` without its dot: the text after the last dot of the base name, no dot and no slash in it |
| Paths.NameExtension | packages/api/src/services/fal.ts:70 | no dot in the extension of a name, and no slash when the name has none |
| Paths.BaseNameInDirectory | packages/api/src/services/fal.ts:70 | the directory part never contributes to the base name |
| Paths.ExtensionOfBase | packages/api/src/services/fal.ts:70 | the extension of `stem.ext` is `ext` for any non-empty stem, leading dots included (`..png` gives `png`) |
| Paths.LeadingDotOnly | packages/api/src/services/fal.ts:70 | a name whose only dot leads it (`.env`) has no extension |
| Paths.TrailingSlashIgnored | packages/api/src/services/fal.ts:70 | trailing slashes change neither the base name nor the extension |
| Llm.ExtractText | packages/api/src/services/llm.ts:16-23 | the first text block's text, or the "No text response" error exactly when there is no text block |
| Llm.FencedBody | packages/api/src/services/llm.ts:86-88 | no fence gives no body; a body never contains a fence |
| Llm.ExtractJson | packages/api/src/services/llm.ts:85-88 | the trimmed reply, or the trimmed body of its first fenced block; the result is trimmed |
| Llm.UnfencedReplyIsTrimmed | packages/api/src/services/llm.ts:85-88 | a reply without backticks is just trimmed |
| Llm.FencedRoundTrip | packages/api/src/services/llm.ts:85-88 | wrapping a trimmed backtick-free body in a json fence and extracting gives the body back |
| Llm.UntaggedFenceRoundTrip | packages/api/src/services/llm.ts:85-88 | the same holds for a fence without the json tag |
| Llm.UnclosedFenceKeepsReply | packages/api/src/services/llm.ts:85-88 | an opening fence without a closing one leaves the whole trimmed reply |
| Llm.NoClosingFence | packages/api/src/services/llm.ts:86-88 | when no fence follows the opening one, nothing is extracted |
| Llm.ExtractAt | packages/api/src/services/llm.ts:86-88 | with the first fence at `i` and the closing one at `q`, the result is the trimmed text between the optional json tag and `q` |
| Llm.MaxScenesInstruction | packages/api/src/services/llm.ts:44-46 | a missing or zero limit asks for as many scenes as appropriate; any other limit is written into the instruction |
| Llm.MaxScenesInstructionInjective | packages/api/src/services/llm.ts:44-46 | different limits give different instructions |
| Llm.MockImagePrompt | packages/api/src/services/llm.ts:100-103 | the style prefix, title and fixed phrase, then the first 100 characters of the narrative, then "..." |
| Llm.MockAnimationPrompt | packages/api/src/services/llm.ts:135-138 | the fixed camera phrase followed by the scene title |
| Llm.ImagePrompt | packages/api/src/services/llm.ts:100-128 | mock mode gives the mock prompt; live mode fails exactly when the reply has no text, otherwise gives the trimmed text |
| Llm.AnimationPrompt | packages/api/src/services/llm.ts:135-162 | mock mode gives the mock prompt; live mode fails exactly when the reply has no text, otherwise gives the trimmed text |
| Llm.LivePromptTrimmed | packages/api/src/services/llm.ts:128 | a live prompt is its own trim |
| Llm.SplitJsonText | packages/api/src/services/llm.ts:80-88 | the JSON text handed to the parser is the fence extraction of the reply's text, and fails with it |
| Narration.AudioUrl | packages/api/src/routes/narration.ts:94-103 | `/audio/scene-<id>.mp3` |
| Narration.AudioUrlInjective | packages/api/src/routes/narration.ts:94-103 | no two scenes share an audio file |
| Narration.StartNarration | packages/api/src/routes/narration.ts:46-76 | 404 for a missing project, 400 for no scenes, 400 for a falsy voice id, each leaving the store alone; otherwise `generating_narration` and the scene count |
| Narration.NarrationTargets | packages/api/src/routes/narration.ts:82 | only the project's scenes without audio are worked on |
| Narration.NarrationTargetsExact | packages/api/src/routes/narration.ts:82 | the targets are in scene order without repeats and include every scene of the project without audio |
| Narration.NarrateFrom | packages/api/src/routes/narration.ts:84-109 | a produced audio sets that scene's URL; a failure does not stop later scenes; an untried scene is unchanged |
| Narration.FinishNarration | packages/api/src/routes/narration.ts:84-125 | the loop changes only audio URLs; the status becomes `narration_ready`, or `scenes_ready` when that write throws |
| Narration.RerunSkipsNarrated | packages/api/src/routes/narration.ts:82-103 | a second run does not target a scene the first run narrated |
| Narration.StartNarrationPreservesConsistency | packages/api/src/routes/narration.ts:64-67 | the status write keeps the store consistent |
| Narration.FinishNarrationPreservesConsistency | packages/api/src/routes/narration.ts:84-125 | the loop and the final status write keep the store consistent |
| Narration.NarrationStageSettles | packages/api/src/routes/narration.ts:64-125 | after the loop the project is no longer in progress |
| Pipeline.Running | packages/api/src/routes/projects.ts:108-111 | each stage's running status is in progress and is never `generating_clips` |
| Pipeline.Finished | packages/api/src/routes/projects.ts:146-149 | each stage's finished status is not in progress and comes right after its running status |
| Pipeline.RolledBack | packages/api/src/routes/projects.ts:152-157 | every stage but image generation has a fallback status, which is not in progress and comes before its running status |
| Pipeline.ClipStatusesUnused | packages/api/src/routes/scenes.ts:145-242 | no route writes `generating_clips`, and only a failed render writes `clips_ready` |
| Pipeline.StagesDistinct | packages/api/src/routes/render.ts:64-104 | different stages write different running and finished statuses |
| Projects.MergeConfig | packages/api/src/routes/projects.ts:24-25 | every field given in the request wins, and every other field keeps its default |
| Projects.MergeEmpty | packages/api/src/routes/projects.ts:24-25 | an empty request config gives the defaults |
| Projects.MergeIdempotent | packages/api/src/routes/projects.ts:24-25 | merging the same request twice changes nothing more |
| Projects.MergeFullPatch | packages/api/src/routes/projects.ts:24-25 | a request that gives every field ignores the defaults |
| Projects.CreateProject | packages/api/src/routes/projects.ts:15-40 | a falsy title or script is a 400 that changes nothing; otherwise a new draft project under the next id with the merged config |
| Projects.CreatePreservesConsistency | packages/api/src/routes/projects.ts:27-33 | creating a project keeps the store consistent |
| Projects.CreatedIdIsFresh | packages/api/src/routes/projects.ts:27-33 | the new id was not in use, and exactly it is added |
| Projects.NewScene | packages/api/src/routes/projects.ts:121-143 | a created scene copies the split's fields, takes the generated image prompt, and is pending with nothing selected |
| Projects.DeleteScenes | packages/api/src/routes/projects.ts:117 | assuming the schema cascades from scenes to their images and clips: exactly the project's scenes go, with their images and clips; everything else is unchanged |
| Projects.DeletePreservesConsistency | packages/api/src/routes/projects.ts:117 | the deletion keeps the store consistent |
| Projects.SplitScenes | packages/api/src/routes/projects.ts:121-143 | scenes are created in split order until the first prompt failure, which is reported |
| Projects.SplitProject | packages/api/src/routes/projects.ts:95-159 | 404 for a missing project; otherwise `scenes_ready` on success and `draft` on any failure, with only the status of the project changed among projects; a failed `splitScript` call keeps the old scenes, images and clips |
| Projects.SplitReplacesScenes | packages/api/src/routes/projects.ts:117-143 | after a successful split the project's scenes are exactly the new ones, one per split entry, in order |
| Projects.SplitDropsOldScenes | packages/api/src/routes/projects.ts:117-158 | once the script is split the old scenes are gone even if an image prompt then fails: the route answers that prompt's error, and the project owns exactly the scenes created before the failure, under the ids handed out from the next scene id on |
| Projects.MockSplitSucceeds | packages/api/src/services/llm.ts:100-103 | with mock prompts the split always ends `scenes_ready` |
| Projects.SplitPreservesConsistency | packages/api/src/routes/projects.ts:95-159 | the split keeps the store consistent, whatever happens |
| Projects.ResplitPreservesConsistency | packages/api/src/routes/projects.ts:117-149 | deleting and recreating scenes keeps the store consistent |
| Projects.GenerateAllImages | packages/api/src/routes/projects.ts:162-215 | 404 and 400 leave the store alone; otherwise `generating_images` and one fresh record per order, reported by id and count |
| Projects.GenerateAllCount | packages/api/src/routes/projects.ts:189-215 | the count is prompted scenes × image models × images per scene |
| Projects.NoScenesMeansNone | packages/api/src/routes/projects.ts:175-178 | the 400 is returned exactly when no scene belongs to the project |
| Projects.GenerateAllPreservesConsistency | packages/api/src/routes/projects.ts:183-206 | creating the records keeps the store consistent |
| Projects.FinishAllImages | packages/api/src/routes/projects.ts:218-242 | the loop touches only images; `images_ready` is written only when every record was still there |
| Projects.AllImagesRequestAsWritten | packages/api/src/routes/projects.ts:221 | every request asks for `16:9`, with the record's prompt |
| Projects.AllImagesIgnoresFormat | packages/api/src/routes/projects.ts:221 | the request agrees with the per-scene route's exactly when the project's format is the default, so a `9:16` project gets other images |
| Projects.FinishAllSettles | packages/api/src/routes/projects.ts:218-238 | each record is settled from its own outcome, keeping the remote URL |
| Projects.FinishAllPreservesConsistency | packages/api/src/routes/projects.ts:218-242 | the loop keeps the store consistent |
| Projects.GenerateAllThenFinish | packages/api/src/routes/projects.ts:162-242 | on an unchanged store the stage ends `images_ready` with every created record settled from its outcome |
| Records.Copies | packages/api/src/routes/projects.ts:194 | the copy loop runs `imagesPerScene` times when that is positive, and not at all otherwise |
| Records.ModelOrder | packages/api/src/routes/projects.ts:189-206 | every entry is one of the models |
| Records.ModelOrderLayout | packages/api/src/routes/scenes.ts:87-100 | model `m`'s `j`-th copy sits at position `m·copies + j` |
| Records.Fresh | packages/api/src/routes/scenes.ts:90-99 | a new record is processing, unselected, without URL or prediction, and copies the order |
| Records.SceneOrders | packages/api/src/routes/scenes.ts:87-100 | one order per model copy, all for the scene and prompt |
| Records.Prompted | packages/api/src/routes/projects.ts:191 | exactly the scenes with a truthy image prompt, in order |
| Records.Keep | packages/api/src/routes/narration.ts:82 | `filter`: exactly the elements that pass, never more than given |
| Records.KeepOrdered | packages/api/src/routes/narration.ts:82 | filtering keeps scene order and distinctness |
| Records.ProjectOrders | packages/api/src/routes/projects.ts:189-206 | every order is for a prompted scene of the project, with its prompt and one of the image models |
| Records.ProjectOrdersCount | packages/api/src/routes/projects.ts:189-206 | prompted scenes × models × copies orders |
| Records.UnpromptedSceneGetsNone | packages/api/src/routes/projects.ts:191 | a scene without a truthy prompt gets no order |
| Records.Fill | packages/api/src/routes/scenes.ts:87-100 | the records get consecutive fresh ids; existing records are unchanged |
| Records.FillFresh | packages/api/src/routes/scenes.ts:87-100 | the `j`-th reported id holds the fresh record of the `j`-th order |
| Records.FillPreservesConsistency | packages/api/src/routes/scenes.ts:87-100 | adding unselected records keeps the store consistent |
| Records.StoredUrl | packages/api/src/routes/scenes.ts:117-127 | a URL is stored exactly when the output is truthy; downloads store the local path |
| Records.Settle | packages/api/src/routes/scenes.ts:112-137 | completed exactly when the generator returned a truthy output; otherwise failed; never changes the scene, kind or selection |
| Records.SettleUnbound | packages/api/src/routes/scenes.ts:4 | with the unbound import every record ends failed |
| Records.RunUnboundFrom | packages/api/src/routes/scenes.ts:4-137 | the loop as written keeps the record set, and every record it reaches ends failed; a record it does not change keeps its status |
| Records.AspectArgument | packages/api/src/routes/scenes.ts:115 | the project's format, or `16:9` when it has none |
| Records.ImagePredictionFor | packages/api/src/routes/scenes.ts:115 | the request names the record's resolved model and prompt, and the project's aspect ratio |
| Records.ImagePredictionHonoursFormat | packages/api/src/routes/scenes.ts:115 | projects that set a format get the same request exactly when their formats agree |
| Records.UnboundDownloadFailsGoodResult | packages/api/src/routes/scenes.ts:4 | a successful prediction fails under the unbound import and completes under the intended one |
| Records.RunBatch | packages/api/src/routes/scenes.ts:112-137 | the loop keeps the record set; it runs to the end exactly when every record still exists |
| Records.RunBatchSettles | packages/api/src/routes/scenes.ts:112-137 | each record reached is settled from its own outcome |
| Records.RunBatchStops | packages/api/src/routes/scenes.ts:129-135 | a vanished record stops the loop, and later records stay as they were |
| Records.RunBatchPreservesConsistency | packages/api/src/routes/scenes.ts:112-137 | the loop keeps the store consistent |
| Render.RenderedScenes | packages/api/src/routes/render.ts:35-44 | only the project's scenes whose selected clip has a URL contribute |
| Render.CollectClips | packages/api/src/routes/render.ts:35-44 | one entry per contributing scene: its selected clip's URL and the scene title |
| Render.RenderedScenesOrdered | packages/api/src/routes/render.ts:35-44 | the contributing scenes are in scene order without repeats |
| Render.RenderedScenesExact | packages/api/src/routes/render.ts:35-44 | in a consistent store, a project's scene contributes exactly when its selected clip has a URL |
| Render.RenderedSceneIff | packages/api/src/routes/render.ts:35-44 | the same equivalence for one scene |
| Render.RenderFormat | packages/api/src/routes/render.ts:84 | a missing format renders 16:9; an empty one is kept |
| Render.StartRender | packages/api/src/routes/render.ts:27-76 | 404 and 400 (no clips) leave the store alone; otherwise `rendering` and a job with the collected clips |
| Render.FinishRender | packages/api/src/routes/render.ts:93-104 | `rendered` on success, `clips_ready` on failure |
| Render.RenderStageSettles | packages/api/src/routes/render.ts:64-104 | the render stage ends out of progress and changes no scene or media |
| Render.RenderPreservesConsistency | packages/api/src/routes/render.ts:64-104 | both status writes keep the store consistent |
| Replicate.ResolveModelId | packages/api/src/services/replicate.ts:11-35 | an alias maps through the image table first, then the animation table; a name every object inherits yields the inherited member, exactly for those names; anything else is taken as a model id |
| Replicate.ResolveIdempotent | packages/api/src/services/replicate.ts:33-35 | resolving the text of a resolved id gives that text as the id, so resolving a resolved string id changes nothing |
| Replicate.TablesApart | packages/api/src/services/replicate.ts:11-30 | no alias and no resolved id is a name every object inherits |
| Replicate.FluxAlias | packages/api/src/services/replicate.ts:11-17 | "flux" and "flux-schnell" name the same model |
| Replicate.ImageParam | packages/api/src/services/replicate.ts:60-61 | the table's image key for the id's text, the inherited member's text for an inherited name, or "image" |
| Replicate.ResolvedImageParam | packages/api/src/services/replicate.ts:54-71 | whatever name is resolved, inherited ones included, the image goes under "image", "start_image" or "first_frame_image" |
| Replicate.AnimationModelsHaveImageKeys | packages/api/src/services/replicate.ts:19-30 | every animation alias resolves to a model with its own image key |
| Replicate.ImagePrediction | packages/api/src/services/replicate.ts:41-52 | the resolved model with exactly the prompt and aspect ratio as input |
| Replicate.ClipPrediction | packages/api/src/services/replicate.ts:54-71 | the resolved model with exactly the image under the model's key, the prompt and the aspect ratio |
| Replicate.NormaliseOutput | packages/api/src/services/replicate.ts:87-90 | a string output is kept; a list gives its first item, or nothing when empty |
| Replicate.PredictionStatus | packages/api/src/services/replicate.ts:129-143 | the observed status with its normalised output |
| Replicate.WaitForPrediction | packages/api/src/services/replicate.ts:78-98 | polls until the first terminal status or the ten-minute timeout, and returns that prediction or a failure |
| Replicate.ImmediateAnswer | packages/api/src/services/replicate.ts:78-98 | a prediction already terminal is returned after one poll |
| Replicate.NeverFinishes | packages/api/src/services/replicate.ts:94-97 | a prediction that never ends gives a failure |
| Replicate.ResultUrl | packages/api/src/services/replicate.ts:102-127 | the generator yields a URL exactly when the output is truthy |
| Replicate.StatusIgnored | packages/api/src/services/replicate.ts:102-113 | a failed prediction with output still yields it, and an empty output yields nothing |
| Scenes.Listing | packages/api/src/routes/scenes.ts:21-27 | a listed scene carries its own id |
| Scenes.ListingComplete | packages/api/src/routes/scenes.ts:24-27 | a scene's images and clips are exactly its own, oldest first |
| Scenes.ListScenes | packages/api/src/routes/scenes.ts:11-35 | 404 for a missing project; otherwise the project's scenes in scene order, each with its media |
| Scenes.ListScenesComplete | packages/api/src/routes/scenes.ts:21-27 | every scene of the project is listed |
| Scenes.ApplyPatch | packages/api/src/routes/scenes.ts:49-51 | each prompt given replaces the old one; nothing else changes |
| Scenes.PatchScene | packages/api/src/routes/scenes.ts:38-63 | 404 for a missing scene; otherwise the patched scene is stored and returned |
| Scenes.PatchIdempotent | packages/api/src/routes/scenes.ts:38-63 | applying the same patch twice equals applying it once |
| Scenes.EmptyPatchIsNoOp | packages/api/src/routes/scenes.ts:49-51 | a patch with no fields returns the scene unchanged |
| Scenes.PatchPreservesConsistency | packages/api/src/routes/scenes.ts:38-63 | a patch keeps the store consistent |
| Scenes.GenerateSceneImages | packages/api/src/routes/scenes.ts:66-109 | 404 for a missing scene and 400 for a falsy prompt leave the store alone; otherwise fresh records for every model copy |
| Scenes.SceneImagesLayout | packages/api/src/routes/scenes.ts:87-100 | model `m`'s `j`-th copy is the fresh record for that model and the scene's prompt |
| Scenes.SceneImagesPreservesConsistency | packages/api/src/routes/scenes.ts:87-100 | creating the records keeps the store consistent |
| Scenes.FinishSceneImages | packages/api/src/routes/scenes.ts:112-137 | the loop touches only the scene's new images |
| Scenes.FinishSceneImagesSettles | packages/api/src/routes/scenes.ts:112-137 | with the download bound to the fal service, as intended: each new image is settled from its outcome and, when completed, is served from `/images/img-<id>.` |
| Scenes.FinishSceneImagesAsWritten | packages/api/src/routes/scenes.ts:4-137 | as written: no image becomes completed, and every image the loop reaches ends failed |
| Scenes.GoodImageFailsAsWritten | packages/api/src/routes/scenes.ts:4-137 | an image whose prediction returned a URL ends failed as written and completed as intended |
| Scenes.FinishSceneImagesPreservesConsistency | packages/api/src/routes/scenes.ts:112-137 | the loop keeps the store consistent |
| Scenes.ClipPrompt | packages/api/src/routes/scenes.ts:174-181 | a truthy animation prompt is reused; otherwise the generated one is used |
| Scenes.StartClips | packages/api/src/routes/scenes.ts:174-204 | the prompt is stored on the scene and one fresh clip per animation model is created |
| Scenes.GenerateSceneClips | packages/api/src/routes/scenes.ts:145-204 | 404 for a missing scene; 400 exactly when the selected image is missing or has no URL; errors leave the store alone |
| Scenes.SceneClipsOnePerModel | packages/api/src/routes/scenes.ts:183-195 | the `m`-th clip is for the `m`-th animation model, from the selected image, with the scene's prompt |
| Scenes.ExistingAnimationPromptReused | packages/api/src/routes/scenes.ts:174-181 | with a stored prompt the generator's answer is irrelevant and the scene is not rewritten |
| Scenes.FailedPromptLeavesNoTrace | packages/api/src/routes/scenes.ts:174-181 | a failed prompt generation changes nothing |
| Scenes.SceneClipsPreservesConsistency | packages/api/src/routes/scenes.ts:145-204 | the route keeps the store consistent |
| Scenes.FinishSceneClips | packages/api/src/routes/scenes.ts:207-237 | the loop touches only the new clips |
| Scenes.FinishSceneClipsSettles | packages/api/src/routes/scenes.ts:207-237 | with the download bound to the fal service, as intended: each new clip is settled from its outcome and, when completed, is served from `/clips/clip-<id>.` |
| Scenes.FinishSceneClipsAsWritten | packages/api/src/routes/scenes.ts:4-237 | as written: no clip becomes completed, and every clip the loop reaches ends failed |
| Scenes.GoodClipFailsAsWritten | packages/api/src/routes/scenes.ts:4-237 | a clip whose prediction returned a URL ends failed as written and completed as intended |
| Scenes.FinishSceneClipsPreservesConsistency | packages/api/src/routes/scenes.ts:207-237 | the loop keeps the store consistent |
| Selection.SelectRows | packages/api/src/routes/images.ts:43-52 | the chosen row is selected, its scene's other rows unselected, other scenes' rows untouched |
| Selection.Select | packages/api/src/routes/images.ts:32-65 | 404 for a missing record; otherwise the flags are rewritten and the scene's back-reference points at the record |
| Selection.SelectImage | packages/api/src/routes/images.ts:32-65 | afterwards the image is its scene's only selected image and the scene points at it |
| Selection.SelectClip | packages/api/src/routes/clips.ts:32-65 | afterwards the clip is its scene's only selected clip and the scene points at it |
| Selection.SelectIdempotent | packages/api/src/routes/images.ts:32-65 | selecting the same record twice equals selecting it once |
| Selection.SelectPreservesConsistency | packages/api/src/routes/clips.ts:32-65 | selection keeps flags and back-references in agreement |
| Selection.SelectSecondReplacesFirst | packages/api/src/routes/clips.ts:43-58 | selecting another record of the same scene unselects the first |
| Selection.ListSceneArtifacts | packages/api/src/routes/images.ts:9-29 | 404 for a missing scene; otherwise exactly the scene's records, oldest first |
| Selection.ListSceneImages | packages/api/src/routes/images.ts:9-29 | the image listing |
| Selection.ListSceneClips | packages/api/src/routes/clips.ts:9-29 | the clip listing |
| Store.ConsistentAtMostOne | packages/api/src/routes/images.ts:43-52 | in a consistent store a scene has at most one selected record per kind |
| Store.EmptyStoreConsistent | packages/api/src/routes/projects.ts:27-33 | the empty database is consistent |
| Store.InsertAll | packages/api/src/routes/projects.ts:121-143 | consecutive ids hold the new rows in order; old rows are kept |
| Store.FirstSelected | packages/api/src/routes/render.ts:20-22 | the oldest selected record of the scene, or none when no record is selected |
| Store.FirstSelectedIsBackRef | packages/api/src/routes/scenes.ts:162-169 | in a consistent store that record is the scene's back-reference |
| Store.ScenesOf | packages/api/src/routes/scenes.ts:21-23 | exactly the project's scenes, ascending by id |
| Store.SortScenes | packages/api/src/routes/scenes.ts:23 | a permutation sorted by scene number |
| Store.ProjectScenes | packages/api/src/routes/projects.ts:165-167 | the project's scenes sorted by scene number, without repeats |
| Store.ProjectScenesComplete | packages/api/src/routes/narration.ts:37-42 | in a valid store every scene of the project is included |
| Views.Count | packages/web/src/components/SceneOverview.tsx:25-30 | `filter(...).length`: all pass exactly when the count is the length; some pass exactly when it is positive |
| Views.StatusBadge | packages/web/src/components/SceneOverview.tsx:9-15 | no rows shows a grey "0"; otherwise the caption is `completed/total`, and the badge is red exactly when something failed |
| Views.BadgeMeaning | packages/web/src/components/SceneOverview.tsx:9-34 | red means a row failed; green means all completed; grey means all waiting; yellow means none failed, some completed and some waiting |
| Views.CheckMarkAgreesWithScene | packages/web/src/components/SceneOverview.tsx:33-34 | in a consistent store the scene's check mark shows exactly when the scene has a selection of that kind |
| Views.PromptText | packages/web/src/components/SceneDetail.tsx:14 | a falsy prompt is shown as empty |
| Views.Truncate | packages/web/src/components/SceneDetail.tsx:15-16 | up to 150 characters are kept; a longer prompt shows its first 150 and "..." |
| Views.PromptView | packages/web/src/components/SceneDetail.tsx:34-46 | no paragraph without a prompt; full text when expanded, truncated otherwise; a toggle exactly when the prompt is longer than 150 |
| Views.ToggleMatters | packages/web/src/components/SceneDetail.tsx:37-44 | expanding changes the view exactly when a toggle is offered |
| Views.Progress | packages/web/src/components/SceneNavigation.tsx:30-34 | a percentage between 0 and 100 |
| Views.ProgressExtremes | packages/web/src/components/SceneNavigation.tsx:30-34 | 0 exactly when no scene has a selected image, 100 exactly when every scene of a non-empty list has one |
| Views.Counter | packages/web/src/components/SceneNavigation.tsx:87 | the counter reads "Scene i/n" |
| Views.ArrowsFollowCounter | packages/web/src/components/SceneNavigation.tsx:87-116 | the back arrow is disabled exactly on "Scene 1/n" and the forward arrow exactly on the last counter |
| Views.CardOf | packages/web/src/components/ClipCard.tsx:18-71 | pending and processing show a spinner, failed shows an error, completed shows the clip |
| Views.ClipCard | packages/web/src/components/ClipCard.tsx:18-110 | only a completed clip is clickable (with its id), plays its URL when it has one, and shows the check mark when selected |
| Views.SelectedButUnfinishedShowsNoMark | packages/web/src/components/ClipCard.tsx:94-110 | a selected clip that has not completed shows no check mark and cannot be clicked |
| Pages.Prev | packages/web/src/pages/ProjectView.tsx:274-277 | stays in range, and stays put exactly when the back arrow is disabled |
| Pages.Next | packages/web/src/pages/ProjectView.tsx:274-277 | stays in range, and stays put exactly when the forward arrow is disabled |
| Pages.NextReachesLast | packages/web/src/pages/ProjectView.tsx:274-277 | `n` forward clicks move `n` scenes or stop at the last one |
| Pages.AfterSplit | packages/web/src/pages/ProjectView.tsx:121-124 | after a split the first new scene is current |
| Pages.SplitForgetsIndex | packages/web/src/pages/ProjectView.tsx:121-124 | the earlier position has no effect after a split |
| Pages.PollingMatchesBadges | packages/web/src/pages/ProjectView.tsx:82-94 | media polling stops exactly when every image and clip has completed or failed; a yellow badge, or a grey badge on rows, means polling |
| Pages.ProjectPollingStages | packages/web/src/pages/ProjectView.tsx:105-116 | only in-progress statuses are polled: splitting and image generation are, narration and rendering are not, finished and rolled-back statuses never |
| Pages.SceneLabel | packages/web/src/pages/ProjectView.tsx:266 | `scene_` and at least three characters |
| Pages.SceneLabelRoundTrip | packages/web/src/pages/ProjectView.tsx:266 | the label reads back as the scene number, negative ones included; a non-negative number leaves only its digits after `scene_`; numbers from -99 to 999 give nine characters |
| Pages.ClipsButtonMeetsRoute | packages/web/src/pages/ProjectView.tsx:337 | when the clips button shows, the route's 400 comes exactly when the selected image has no URL |
| Pages.StatusLabel | packages/web/src/pages/ProjectList.tsx:74 | same length as the status name, with no underscore |
| Pages.StatusLabelInjective | packages/web/src/pages/ProjectView.tsx:228 | different statuses get different labels |
| Pages.StatusColor | packages/web/src/pages/ProjectList.tsx:19-28 | narration and render statuses fall back to grey |
| Pages.YellowMeansPolled | packages/web/src/pages/ProjectList.tsx:19-28 | yellow exactly on the statuses the project page polls; unpolled in-progress statuses look like drafts |
| Pages.CountText | packages/web/src/pages/ProjectList.tsx:79-80 | starts with the number |
| Pages.CountTextMeaning | packages/web/src/pages/ProjectList.tsx:79-80 | the plural "s" appears exactly when the count is not 1, and the leading digits parse to the count |
| Pages.ListedRow | packages/api/src/routes/projects.ts:43-63 | a listed project carries its id, title and status, and a scene count but no scenes |
| Pages.ListedCountIsSceneCount | packages/api/src/routes/projects.ts:45-56 | in a valid store the listed count is the number of the project's scenes |
| Pages.SceneCountText | packages/web/src/pages/ProjectList.tsx:79-80 | as written: a project without a scenes field shows "0 scenes" |
| Pages.ListedCountText | packages/web/src/pages/ProjectList.tsx:79-80 | corrected: the text starts with the listed count and is plural exactly when it is not 1 |
| Pages.ListShowsZeroScenes | packages/web/src/pages/ProjectList.tsx:79-80 | a listed project with scenes still shows "0 scenes", unlike the corrected text |
| Pages.OneSceneListedAsZero | packages/web/src/pages/ProjectList.tsx:79-80 | a project with one scene is listed with count 1 and shown as "0 scenes" instead of "1 scene" |
| Pages.RequestPatch | packages/web/src/pages/ProjectCreate.tsx:21-25 | the request's config carries only the format |
| Pages.Submit | packages/web/src/pages/ProjectCreate.tsx:16-25 | nothing is sent when a trimmed field is empty; otherwise the trimmed fields and the format name |
| Pages.EnabledButtonSends | packages/web/src/pages/ProjectCreate.tsx:136 | an enabled button always sends, and the initial form's button is disabled |
| Pages.SubmittedFormIsCreated | packages/web/src/api/client.ts:31-36 | a sent form always creates a draft project with the trimmed fields and the chosen format |
| Pages.ProjectPath | packages/web/src/pages/ProjectCreate.tsx:26 | the page navigated to is under `/projects/` |
| Pages.ProjectPathInjective | packages/web/src/pages/ProjectCreate.tsx:26 | different projects have different paths |

## Left out

- The voices route (narration.ts:23-31) and the ElevenLabs client: they forward an external service's answer, and nothing is decided locally.
- HTTP framing, JSON bodies and Prisma calls are abstracted into `Response` values and store maps. The 500 answers of thrown database errors are not modelled, except where the code catches them.
- Network and file I/O (`fetch`, `fs.writeFile`, the Replicate and fal clients) and the language model are parameters: outcome functions, a `speech` predicate, a reply's content blocks.
- Clocks and timers: the creation clock is a counter. Replicate's polling clock is an observation function. The web client's polling intervals and React state updates are not modelled.
- `JSON.parse` of the split reply: the split enters the model as its parsed entries, or as a thrown message.
- Floating point: `Progress` is an exact rational percentage, and its rounding for display is left out. `Ceil` works on exact reals.
- The progress logging of the background loops: output only.
- Store.FirstSelected: the render and clip routes read the selected record through a query that gives no order. The model takes the oldest selected record. In a consistent store there is only one.
- Narration.FinishNarration: the fallback `scenes_ready` write after a failed final write is assumed to go through.
- Render.StartRender: the output file name and its timestamp are not modelled. Neither is the renderer, which enters only as success or failure.
- Composition.CalculateMetadata: does not model the props it returns when there are no clips, beyond the one-frame duration.
- ImageCard, ImageGrid, ClipGrid, App and Root: layout only.
- The single-project GET route (projects.ts:66-92) and the list route's newest-first order: the model keeps the listed row's content, not the list order.
- The render route passes no `audioUrls` to the composition, so narration audio never reaches a rendered video. The model follows the code: `Render.RenderJob` has no audio list, and `Composition.AudioAt` gives no audio for an empty one.
- The project page polls only splitting, image generation and clip generation. The project list colours the narration and render statuses grey. Both are modelled as written (`Pages.ProjectPollingStages`, `Pages.StatusColor`).
- A negative scene number labels as `scene_0-5`, as `padStart` does. The model keeps that (`Pages.SceneLabel`), and `Pages.ReadLabel` reads such a label back.
- Scenes.FinishSceneImagesSettles: states the loop with `downloadToLocal` taken from the fal service. As written the import is unbound and no image completes; that behaviour is `Scenes.FinishSceneImagesAsWritten` (see Findings).
- Scenes.FinishSceneClipsSettles: likewise for clips; the behaviour as written is `Scenes.FinishSceneClipsAsWritten`.
- Views.Truncate: counts characters (code points), where JavaScript's `length` and `slice` count UTF-16 units. Prompts outside the Basic Multilingual Plane (emoji) are cut at a different place.
- Views.PromptView: the same 150-character threshold, counted in code points rather than UTF-16 units.
- Llm.MockImagePrompt: the first 100 characters of the narrative are counted in code points rather than UTF-16 units.
- Store.SortScenes: scenes with equal numbers are ordered by id. The route's `orderBy: sceneNumber` leaves their order to the database.
- Records.AspectArgument: a `null` format is modelled like a missing one. In the code only a missing format takes the parameter's `16:9` default, and a `null` is sent as is.
- Projects.DeleteScenes: the database schema, which decides what deleting a scene does to its images and clips, is not part of this model. The model assumes the delete cascades. Under Prisma's default for a required relation (refuse the delete), re-splitting a project that has images or clips throws at `deleteMany`, and the route answers 500 with the status set back to `draft`; `Projects.SplitReplacesScenes` does not cover that case.
- Fal.DotlessPathUsesHostSuffix: the extension it exhibits contains `/`, so in the code `fs.writeFile` targets a directory that was never created and such a download always throws. The outcome functions still allow a successful download there, so a completed record with that URL can occur in the model but not in the code.
- The Replicate and fal clients' handling of an inherited member passed as a model id (`Replicate.ResolveModelId`, `Fal.ImageRequest`, `Fal.ClipRequest`) is not modelled: the request is built, and what the client then does is part of the outcome.
- Fal.UploadPath: the working directory enters as a parameter. The lemmas about it take a normalised path of at least one segment, as `process.cwd()` gives for any directory but the root.
- A selected image without a URL still shows the clips button, and the route then answers 400 (`Pages.ClipsButtonMeetsRoute`).
- Id 0 is falsy in the client's checks. The store allocates ids from 1, so this never shows.

## Findings

| source | as written | input that shows it | evidently intended | confidence | as-written member | corrected member |
|---|---|---|---|---|---|---|
| packages/api/src/routes/scenes.ts:4 | imports `downloadToLocal` from the Replicate service, which exports no such function, so, in the CommonJS build, every download call throws inside the loop's `try` and the record is marked failed (an ES-module build would fail to load instead) | a scene image prediction that succeeds with output `https://x/a.png` | the fal service's `downloadToLocal`, which stores `/images/img-<id>.png` and marks the record completed | not executed | Records.SettleUnbound, Records.UnboundDownloadFailsGoodResult, Records.RunUnboundFrom, Scenes.FinishSceneImagesAsWritten, Scenes.GoodImageFailsAsWritten, Scenes.FinishSceneClipsAsWritten, Scenes.GoodClipFailsAsWritten | Records.Settle, Scenes.FinishSceneImagesSettles, Scenes.FinishSceneClipsSettles |
| packages/web/src/pages/ProjectList.tsx:79-80 | reads `project.scenes?.length ?? 0`, but the list route returns `sceneCount` and no `scenes` | a project with one scene, listed by `GET /api/projects` | show the route's `sceneCount`: "1 scene" | not executed | Pages.SceneCountText, Pages.ListShowsZeroScenes, Pages.OneSceneListedAsZero | Pages.ListedCountText, Pages.ListedCountIsSceneCount |
| packages/api/src/routes/projects.ts:221 | calls `generateImage(model, prompt)` without the project's format, so the aspect ratio defaults to `16:9`; the per-scene route passes `config.format` | generate-all-images on a project whose format is `9:16` | pass `config.format`, as the per-scene route does, so portrait projects get portrait images | not executed | Projects.AllImagesRequestAsWritten, Projects.AllImagesIgnoresFormat | Records.ImagePredictionFor, Records.ImagePredictionHonoursFormat |

=== FILE: common.dfy ===
/** Failure-carrying results shared by every route and adapter of the pipeline. */
module Outcomes {

  datatype Option<+T> = None | Some(value: T)

  /** The error classes a route answers with: 404, 400, and the catch-all 500 of every handler. */
  datatype ApiError =
    | NotFound(what: string)
    | Invalid(message: string)
    | Internal(message: string)

  datatype Result<+T> = Ok(value: T) | Err(error: ApiError)

  /** The text a handler's catch block answers with: the thrown error's message. */
  function Message(e: ApiError): string {
    match e
    case NotFound(what) => what + " not found"
    case Invalid(m) => m
    case Internal(m) => m
  }

  /** JavaScript truthiness of an optional string: `undefined`, `null` and `""` are falsy. */
  predicate Truthy(s: Option<string>) {
    s.Some? && s.value != ""
  }

  /** JavaScript truthiness of an optional numeric id: `null` and `0` are falsy. */
  predicate TruthyId(n: Option<nat>) {
    n.Some? && n.value != 0
  }
}

/** The handful of JavaScript string primitives the pipeline relies on, stated over `seq<char>`. */
module Text {
  import opened Outcomes

  /** The characters matched by `\s` and removed by `String.prototype.trim`. */
  predicate IsSpace(c: char) {
    c == ' ' || c == '\t' || c == '\n' || c == '\r' || c == '\U{000B}' || c == '\U{000C}'
    || c == '\U{00A0}' || c == '\U{1680}' || ('\U{2000}' <= c <= '\U{200A}')
    || c == '\U{2028}' || c == '\U{2029}' || c == '\U{202F}' || c == '\U{205F}'
    || c == '\U{3000}' || c == '\U{FEFF}'
  }

  predicate AllSpace(s: string) {
    forall i :: 0 <= i < |s| ==> IsSpace(s[i])
  }

  function TrimStart(s: string): (r: string)
    ensures |r| <= |s|
    ensures r == [] || !IsSpace(r[0])
  {
    if |s| > 0 && IsSpace(s[0]) then TrimStart(s[1..]) else s
  }

  function TrimEnd(s: string): (r: string)
    ensures |r| <= |s| && r == s[..|r|]
    ensures r == [] || !IsSpace(r[|r| - 1])
  {
    if |s| > 0 && IsSpace(s[|s| - 1]) then TrimEnd(s[..|s| - 1]) else s
  }

  /** `String.prototype.trim`: whitespace removed from both ends. */
  function Trim(s: string): (r: string)
    ensures r == [] || (!IsSpace(r[0]) && !IsSpace(r[|r| - 1]))
  {
    TrimEnd(TrimStart(s))
  }

  /** A string that starts and ends with a non-space character is its own trim. */
  lemma TrimOfTrimmed(s: string)
    requires s == [] || (!IsSpace(s[0]) && !IsSpace(s[|s| - 1]))
    ensures Trim(s) == s
  {
  }

  /** Trimming twice is trimming once. */
  lemma TrimIdempotent(s: string)
    ensures Trim(Trim(s)) == Trim(s)
  {
    TrimOfTrimmed(Trim(s));
  }

  /** Whitespace added around a string does not survive the trim. */
  lemma {:induction false} TrimPadded(pre: string, body: string, post: string)
    requires AllSpace(pre) && AllSpace(post)
    requires body == [] || (!IsSpace(body[0]) && !IsSpace(body[|body| - 1]))
    ensures Trim(pre + body + post) == body
  {
    assert pre + body + post == pre + (body + post);
    TrimStartPadded(pre, body + post);
    if body == [] {
      assert body + post == post;
      AllSpaceTrimStart(post);
    } else {
      assert (body + post)[0] == body[0];
      assert TrimStart(body + post) == body + post;
      TrimEndPadded(body, post);
    }
  }

  lemma {:induction false} TrimStartPadded(pre: string, rest: string)
    requires AllSpace(pre)
    ensures TrimStart(pre + rest) == TrimStart(rest)
  {
    if pre != [] {
      assert (pre + rest)[1..] == pre[1..] + rest;
      TrimStartPadded(pre[1..], rest);
    } else {
      assert pre + rest == rest;
    }
  }

  lemma {:induction false} AllSpaceTrimStart(s: string)
    requires AllSpace(s)
    ensures TrimStart(s) == [] && TrimEnd(TrimStart(s)) == []
  {
    if s != [] {
      AllSpaceTrimStart(s[1..]);
    }
  }

  lemma {:induction false} TrimEndPadded(body: string, post: string)
    requires AllSpace(post)
    requires body != [] && !IsSpace(body[|body| - 1])
    ensures TrimEnd(body + post) == body
  {
    if post != [] {
      var s := body + post;
      assert s[..|s| - 1] == body + post[..|post| - 1];
      TrimEndPadded(body, post[..|post| - 1]);
    } else {
      assert body + post == body;
    }
  }

  predicate StartsWith(s: string, prefix: string) {
    |prefix| <= |s| && s[..|prefix|] == prefix
  }

  predicate OccursAt(s: string, p: string, i: int) {
    0 <= i && i + |p| <= |s| && s[i..i + |p|] == p
  }

  /** `s.indexOf(p, from)`: the first position at or after `from` where `p` occurs, or -1. */
  function IndexOfFrom(s: string, p: string, from: nat): (r: int)
    requires |p| > 0
    ensures r == -1 || (from <= r && OccursAt(s, p, r))
    ensures forall j :: from <= j && (r == -1 || j < r) ==> !OccursAt(s, p, j)
    decreases |s| - from
  {
    if from + |p| > |s| then -1
    else if s[from..from + |p|] == p then from
    else IndexOfFrom(s, p, from + 1)
  }

  /** A position where `p` occurs, with no occurrence between `from` and it, is what the search finds. */
  lemma IndexOfFromIs(s: string, p: string, from: nat, q: nat)
    requires |p| > 0 && from <= q && OccursAt(s, p, q)
    requires forall j :: from <= j < q ==> !OccursAt(s, p, j)
    ensures IndexOfFrom(s, p, from) == q
  {
  }

  /** With no occurrence at or after `from`, the search reports -1. */
  lemma IndexOfFromAbsent(s: string, p: string, from: nat)
    requires |p| > 0 && p[0] !in s
    ensures IndexOfFrom(s, p, from) == -1
  {
    var r := IndexOfFrom(s, p, from);
    assert forall j :: 0 <= j < |s| ==> s[j] != p[0];
  }

  /** The index of the last occurrence of `c`, or -1. */
  function LastIndexOf(s: string, c: char): (r: int)
    ensures -1 <= r < |s|
    ensures r >= 0 ==> s[r] == c
    ensures forall j :: r < j < |s| ==> s[j] != c
  {
    if |s| == 0 then -1
    else if s[|s| - 1] == c then |s| - 1
    else LastIndexOf(s[..|s| - 1], c)
  }

  /** `s.split(c)[0]`: everything before the first `c`, or all of `s`. */
  function BeforeFirst(s: string, c: char): (r: string)
    ensures StartsWith(s, r)
    ensures c !in r
    ensures |r| < |s| ==> s[|r|] == c
  {
    if |s| == 0 then []
    else if s[0] == c then []
    else [s[0]] + BeforeFirst(s[1..], c)
  }

  /** `s.split(c).pop()`: everything after the last `c`, or all of `s`. */
  function AfterLast(s: string, c: char): (r: string)
    ensures c !in r
    ensures |r| <= |s| && r == s[|s| - |r|..]
    ensures |r| < |s| ==> s[|s| - |r| - 1] == c
  {
    s[LastIndexOf(s, c) + 1..]
  }

  /** After a `c`-free tail that follows a `c`, the tail is all that is left. */
  lemma AfterLastOfSuffix(head: string, tail: string, c: char)
    requires |head| > 0 && head[|head| - 1] == c && c !in tail
    ensures AfterLast(head + tail, c) == tail
  {
    var s := head + tail;
    assert s[|head| - 1] == c;
    assert forall j :: |head| <= j < |s| ==> s[j] == tail[j - |head|];
    assert LastIndexOf(s, c) == |head| - 1;
    assert s[|head|..] == tail;
  }

  /** Without any `c`, nothing is cut. */
  lemma AfterLastAbsent(s: string, c: char)
    requires c !in s
    ensures AfterLast(s, c) == s
  {
    assert LastIndexOf(s, c) == -1;
  }

  // Regrouping concatenations, kept apart so that each is proved on its own.

  lemma Assoc(a: string, b: string, c: string)
    ensures a + (b + c) == a + b + c
  {
  }

  lemma Reassociate(a: string, b: string, c: string, d: string)
    ensures a + (b + c) + d == a + b + c + d
  {
  }

  /** Dropping the leading `/` of `/a/b`. */
  lemma RootedTail(a: string, b: string)
    ensures ("/" + a + "/" + b)[1..] == a + "/" + b
  {
  }

  /** Every occurrence of one character replaced by another (`s.replace(/_/g, " ")`). */
  function ReplaceAll(s: string, from: char, to: char): (r: string)
    ensures |r| == |s|
    ensures forall i :: 0 <= i < |s| ==> r[i] == (if s[i] == from then to else s[i])
  {
    if |s| == 0 then [] else [if s[0] == from then to else s[0]] + ReplaceAll(s[1..], from, to)
  }

  /** Replacing a character that takes the place of none already present loses nothing. */
  lemma ReplaceAllInjective(x: string, y: string, from: char, to: char)
    requires to !in x && to !in y
    requires ReplaceAll(x, from, to) == ReplaceAll(y, from, to)
    ensures x == y
  {
    assert |x| == |y|;
    forall i | 0 <= i < |x|
      ensures x[i] == y[i]
    {
      assert ReplaceAll(x, from, to)[i] == ReplaceAll(y, from, to)[i];
    }
  }

  predicate IsDigit(c: char) {
    '0' <= c <= '9'
  }

  function DigitChar(d: nat): (c: char)
    requires d < 10
    ensures IsDigit(c)
  {
    ['0', '1', '2', '3', '4', '5', '6', '7', '8', '9'][d]
  }

  function DigitValue(c: char): (d: nat)
    requires IsDigit(c)
    ensures d < 10 && DigitChar(d) == c
  {
    (c as int - '0' as int) as nat
  }

  /** Decimal rendering of a natural number, as `String(n)` prints it. */
  function NatToString(n: nat): (r: string)
    ensures |r| >= 1
    ensures forall i :: 0 <= i < |r| ==> IsDigit(r[i])
    ensures r[0] == '0' ==> n == 0
  {
    if n < 10 then [DigitChar(n)] else NatToString(n / 10) + [DigitChar(n % 10)]
  }

  /** Reads a digit string back as the number it denotes. */
  function ParseDigits(s: string): nat
    requires forall i :: 0 <= i < |s| ==> IsDigit(s[i])
  {
    if |s| == 0 then 0 else ParseDigits(s[..|s| - 1]) * 10 + DigitValue(s[|s| - 1])
  }

  /** The decimal rendering loses nothing: reading it back gives the number. */
  lemma {:induction false} NatToStringRoundTrip(n: nat)
    ensures ParseDigits(NatToString(n)) == n
  {
    var r := NatToString(n);
    if n >= 10 {
      NatToStringRoundTrip(n / 10);
      assert r[..|r| - 1] == NatToString(n / 10);
    }
  }

  /** Distinct numbers render to distinct strings. */
  lemma NatToStringInjective(a: nat, b: nat)
    requires NatToString(a) == NatToString(b)
    ensures a == b
  {
    NatToStringRoundTrip(a);
    NatToStringRoundTrip(b);
  }

  predicate AllDigits(s: string) {
    forall i :: 0 <= i < |s| ==> IsDigit(s[i])
  }

  /**
   * `String(i)` for an integer: a `-` exactly for negatives, then the
   * decimal digits of the magnitude without a leading zero.
   */
  function IntToString(i: int): (r: string)
    ensures |r| >= 1 && (r[0] == '-' <==> i < 0)
    ensures forall k :: 0 < k < |r| ==> IsDigit(r[k])
    ensures i >= 0 ==> IsDigit(r[0]) && (r[0] == '0' ==> i == 0)
    ensures i < 0 ==> |r| >= 2 && r[1] != '0'
  {
    if i >= 0 then NatToString(i) else "-" + NatToString(-i)
  }

  /** Reads an optional `-` and a non-empty digit string back as an integer; anything else is not a number. */
  function ParseInt(s: string): Option<int> {
    if |s| >= 2 && s[0] == '-' && AllDigits(s[1..]) then Some(-(ParseDigits(s[1..]) as int))
    else if |s| >= 1 && AllDigits(s) then Some(ParseDigits(s))
    else None
  }

  /** The signed rendering loses nothing: reading it back gives the integer. */
  lemma IntToStringRoundTrip(i: int)
    ensures ParseInt(IntToString(i)) == Some(i)
  {
    if i >= 0 {
      NatToStringRoundTrip(i);
    } else {
      var d := NatToString(-i);
      assert IntToString(i)[1..] == d;
      NatToStringRoundTrip(-i);
    }
  }

  /** Distinct integers render to distinct strings. */
  lemma IntToStringInjective(a: int, b: int)
    requires IntToString(a) == IntToString(b)
    ensures a == b
  {
    IntToStringRoundTrip(a);
    IntToStringRoundTrip(b);
  }

  /** `n` copies of `c`. */
  function Repeat(c: char, n: nat): (r: string)
    ensures |r| == n
    ensures forall i :: 0 <= i < n ==> r[i] == c
  {
    if n == 0 then [] else [c] + Repeat(c, n - 1)
  }

  /** `s.padStart(width, c)`: `c` repeated on the left up to `width`; never truncates. */
  function PadStart(s: string, width: nat, c: char): (r: string)
    ensures |r| == if |s| >= width then |s| else width
    ensures r[|r| - |s|..] == s
    ensures forall i :: 0 <= i < |r| - |s| ==> r[i] == c
  {
    if |s| >= width then s
    else
      var pad := Repeat(c, width - |s|);
      assert (pad + s)[|pad|..] == s;
      pad + s
  }
}

=== FILE: composition.dfy ===
/**
 * The video composition: how long the video is and how large
 * (`calculateMetadata`), and what it is made of (`VideoAssembly`): one
 * sequence per clip, with a transition between consecutive clips. Clip
 * durations are exact reals here; the probe that reads a clip's duration
 * is a parameter.
 */
module Composition {
  import opened Outcomes

  /** The frame rate the composition declares. */
  const Fps := 30

  /** The length of every transition, in frames; consecutive sequences overlap by this much. */
  const TransitionFrames := 15

  /** The duration assumed for a clip whose duration cannot be read. */
  const FallbackSeconds: real := 5.0

  // ---------------------------------------------------------------------------
  // Rounding
  // ---------------------------------------------------------------------------

  /** `Math.ceil`. */
  function Ceil(x: real): (c: int)
    ensures (c - 1) as real < x <= c as real
  {
    -((-x).Floor)
  }

  /** The least integer at or above `x` is at most any integer at or above it. */
  lemma CeilLeast(x: real, m: int)
    requires x <= m as real
    ensures Ceil(x) <= m
  {
  }

  lemma CeilSubadditive(a: real, b: real)
    ensures Ceil(a + b) <= Ceil(a) + Ceil(b)
  {
    CeilLeast(a + b, Ceil(a) + Ceil(b));
  }

  function Max(a: int, b: int): int {
    if a >= b then a else b
  }

  // ---------------------------------------------------------------------------
  // Transitions and camera motion
  // ---------------------------------------------------------------------------

  datatype Presentation = Fade | Slide | Wipe

  /** `getTransition`: fade, slide and wipe in turn. */
  function TransitionAt(index: nat): (p: Presentation)
    ensures index % 3 == 0 <==> p == Fade
    ensures index % 3 == 1 <==> p == Slide
    ensures index % 3 == 2 <==> p == Wipe
  {
    [Fade, Slide, Wipe][index % 3]
  }

  /** The cycle has period three, and two consecutive transitions always differ. */
  lemma TransitionCycle(index: nat)
    ensures TransitionAt(index + 3) == TransitionAt(index)
    ensures TransitionAt(index + 1) != TransitionAt(index)
  {
  }

  /** A pan: the start and end offsets, in percent, along one axis. */
  datatype Pan = Pan(from: real, to: real)

  /** What `KenBurns` animates over a clip: the scale from start to end, and the pan along each axis. */
  datatype Motion = Motion(startScale: real, endScale: real, x: Pan, y: Pan)

  const PanDirections: seq<(Pan, Pan)> := [
    (Pan(-1.0, 1.0), Pan(-0.5, 0.5)),
    (Pan(1.0, -1.0), Pan(0.5, -0.5)),
    (Pan(0.5, -0.5), Pan(-1.0, 1.0)),
    (Pan(-0.5, 0.5), Pan(1.0, -1.0))
  ]

  /**
   * The motion for the clip with the given seed: even seeds zoom in from
   * 1.0 to 1.08, odd seeds zoom out, and the pan is the seed's entry in
   * the table of four.
   */
  function KenBurns(seed: nat): (m: Motion)
    ensures m.startScale < m.endScale <==> seed % 2 == 0
    ensures {m.startScale, m.endScale} == {1.0, 1.08}
    ensures (m.x, m.y) == PanDirections[seed % 4]
  {
    var zoomIn := seed % 2 == 0;
    var pan := PanDirections[seed % 4];
    Motion(if zoomIn then 1.0 else 1.08, if zoomIn then 1.08 else 1.0, pan.0, pan.1)
  }

  /**
   * Consecutive clips zoom in opposite directions, the pans repeat every
   * four clips, and every pan is centred: it ends where it started,
   * mirrored.
   */
  lemma KenBurnsPattern(seed: nat)
    ensures KenBurns(seed + 1).startScale == KenBurns(seed).endScale
    ensures KenBurns(seed + 1).endScale == KenBurns(seed).startScale
    ensures KenBurns(seed + 4).x == KenBurns(seed).x && KenBurns(seed + 4).y == KenBurns(seed).y
    ensures KenBurns(seed).x.to == -KenBurns(seed).x.from && KenBurns(seed).y.to == -KenBurns(seed).y.from
  {
  }

  // ---------------------------------------------------------------------------
  // Metadata
  // ---------------------------------------------------------------------------

  datatype Dimensions = Dimensions(width: nat, height: nat)

  /** Portrait exactly for the `9:16` format; anything else renders landscape. */
  function DimensionsOf(format: string): (d: Dimensions)
    ensures format == "9:16" ==> d == Dimensions(1080, 1920)
    ensures format != "9:16" ==> d == Dimensions(1920, 1080)
  {
    if format == "9:16" then Dimensions(1080, 1920) else Dimensions(1920, 1080)
  }

  /** The same frame, turned: portrait and landscape swap width and height. */
  lemma DimensionsTurn(a: string, b: string)
    requires a == "9:16" && b != "9:16"
    ensures DimensionsOf(a).width == DimensionsOf(b).height && DimensionsOf(a).height == DimensionsOf(b).width
  {
  }

  /** A probed duration: `slowDurationInSeconds ?? 5`, and 5 when probing throws (both `None`). */
  function Seconds(probed: Option<real>): real {
    if probed.Some? then probed.value else FallbackSeconds
  }

  /** `durations.reduce((a, b) => a + b, 0)`. */
  function Sum(ds: seq<real>): real {
    if ds == [] then 0.0 else Sum(ds[..|ds| - 1]) + ds[|ds| - 1]
  }

  /**
   * `calculateMetadata`'s answer. `clipDurations` is `None` when there are
   * no clips: the props are then handed back unchanged.
   */
  datatype Metadata = Metadata(durationInFrames: int, fps: nat, size: Dimensions, clipDurations: Option<seq<real>>)

  /** The frame count of clips lasting `ds` seconds: the total, less the transitions' overlap, and at least one. */
  function TotalFrames(ds: seq<real>): (f: int)
    ensures f >= 1
    ensures f >= Ceil(Sum(ds) * Fps as real) - TransitionFrames * Max(0, |ds| - 1)
    ensures f == 1 || f == Ceil(Sum(ds) * Fps as real) - TransitionFrames * Max(0, |ds| - 1)
  {
    Max(1, Ceil(Sum(ds) * Fps as real) - TransitionFrames * Max(0, |ds| - 1))
  }

  /** `calculateMetadata` for `clipCount` clips; `probe(i)` is what reading the `i`-th clip's duration gave. */
  function CalculateMetadata(format: string, clipCount: nat, probe: nat -> Option<real>): (m: Metadata)
    ensures m.fps == Fps && m.size == DimensionsOf(format) && m.durationInFrames >= 1
    ensures clipCount == 0 <==> m.clipDurations.None?
    ensures clipCount == 0 ==> m.durationInFrames == 1
    ensures m.clipDurations.Some? ==>
      && |m.clipDurations.value| == clipCount
      && (forall i :: 0 <= i < clipCount ==> m.clipDurations.value[i] == Seconds(probe(i)))
      && m.durationInFrames == TotalFrames(m.clipDurations.value)
  {
    if clipCount == 0 then Metadata(1, Fps, DimensionsOf(format), None)
    else
      var ds := seq(clipCount, i requires 0 <= i < clipCount => Seconds(probe(i)));
      Metadata(TotalFrames(ds), Fps, DimensionsOf(format), Some(ds))
  }

  /** The sum of `n` copies of the fallback duration. */
  lemma {:induction false} SumOfFallbacks(ds: seq<real>)
    requires forall i :: 0 <= i < |ds| ==> ds[i] == FallbackSeconds
    ensures Sum(ds) == FallbackSeconds * |ds| as real
  {
    if ds != [] {
      SumOfFallbacks(ds[..|ds| - 1]);
    }
  }

  /** When no clip's duration can be read, `n` clips last 150 frames each less 15 per transition: `135 n + 15`. */
  lemma UnreadableClips(format: string, n: nat, probe: nat -> Option<real>)
    requires n > 0
    requires forall i :: 0 <= i < n ==> probe(i).None?
    ensures CalculateMetadata(format, n, probe).durationInFrames == 135 * n + 15
  {
    var ds := CalculateMetadata(format, n, probe).clipDurations.value;
    SumOfFallbacks(ds);
    assert Sum(ds) * Fps as real == (150 * n) as real;
  }

  // ---------------------------------------------------------------------------
  // Assembly
  // ---------------------------------------------------------------------------

  /** A clip of the render job. */
  datatype Clip = Clip(src: string, sceneTitle: Option<string>)

  /** One child of the transition series. */
  datatype Element =
    | ClipSequence(clip: nat, src: string, frames: int, motion: Motion, audio: Option<string>)
    | TransitionStep(after: nat, presentation: Presentation, frames: int)

  /** What `VideoAssembly` renders: a placeholder when there is nothing to show, the series otherwise. */
  datatype Assembly = NoClips | Series(elements: seq<Element>)

  /** `clipDurations[i] ?? 5`: a duration the props lack counts as five seconds. */
  function DurationAt(ds: seq<real>, i: nat): real {
    if i < |ds| then ds[i] else FallbackSeconds
  }

  /** A clip's own length in frames, at least one. */
  function ClipFrames(seconds: real, fps: nat): (f: int)
    ensures f >= 1 && f >= Ceil(seconds * fps as real)
    ensures f == 1 || f == Ceil(seconds * fps as real)
  {
    Max(1, Ceil(seconds * fps as real))
  }

  /** `audioUrls[i]`, when it exists and is not empty. */
  function AudioAt(audioUrls: seq<string>, i: nat): (a: Option<string>)
    ensures a.Some? <==> i < |audioUrls| && audioUrls[i] != ""
  {
    if i < |audioUrls| && audioUrls[i] != "" then Some(audioUrls[i]) else None
  }

  /** The sequence of clip `i`. */
  function SequenceOf(clips: seq<Clip>, ds: seq<real>, audioUrls: seq<string>, fps: nat, i: nat): Element
    requires i < |clips|
  {
    ClipSequence(i, clips[i].src, ClipFrames(DurationAt(ds, i), fps), KenBurns(i), AudioAt(audioUrls, i))
  }

  /** The transition after clip `i`. */
  function TransitionOf(i: nat): Element {
    TransitionStep(i, TransitionAt(i), TransitionFrames)
  }

  /**
   * `VideoAssembly`: for each clip its sequence, followed by a transition
   * unless it is the last, so `n` clips give `2n - 1` children.
   */
  method Assemble(clips: seq<Clip>, ds: seq<real>, audioUrls: seq<string>, fps: nat) returns (a: Assembly)
    ensures clips == [] <==> a.NoClips?
    ensures a.Series? ==>
      && |a.elements| == 2 * |clips| - 1
      && (forall i :: 0 <= i < |clips| ==> a.elements[2 * i] == SequenceOf(clips, ds, audioUrls, fps, i))
      && (forall i :: 0 <= i < |clips| - 1 ==> a.elements[2 * i + 1] == TransitionOf(i))
  {
    if clips == [] {
      return NoClips;
    }
    var elements: seq<Element> := [];
    var i := 0;
    while i < |clips|
      invariant 0 <= i <= |clips|
      invariant |elements| == if i < |clips| then 2 * i else 2 * i - 1
      invariant forall k :: 0 <= k < i ==> elements[2 * k] == SequenceOf(clips, ds, audioUrls, fps, k)
      invariant forall k :: 0 <= k < i && k < |clips| - 1 ==> elements[2 * k + 1] == TransitionOf(k)
    {
      elements := elements + [SequenceOf(clips, ds, audioUrls, fps, i)];
      if i < |clips| - 1 {
        elements := elements + [TransitionOf(i)];
      }
      i := i + 1;
    }
    return Series(elements);
  }

  /** The series' own length in frames: every sequence, less the overlap at each transition. */
  function SeriesFrames(n: nat, ds: seq<real>, fps: nat): int {
    SequenceFrames(n, ds, fps) - TransitionFrames * Max(0, n - 1)
  }

  function SequenceFrames(n: nat, ds: seq<real>, fps: nat): int {
    if n == 0 then 0 else SequenceFrames(n - 1, ds, fps) + ClipFrames(DurationAt(ds, n - 1), fps)
  }

  /** Rounding each clip up loses no time against rounding the total up. */
  lemma {:induction false} SequencesCoverTotal(ds: seq<real>)
    ensures SequenceFrames(|ds|, ds, Fps) >= Ceil(Sum(ds) * Fps as real)
  {
    if ds != [] {
      var init := ds[..|ds| - 1];
      SequencesCoverTotal(init);
      SequenceFramesPrefix(init, ds, |init|);
      var d := ds[|ds| - 1];
      assert Sum(ds) * Fps as real == Sum(init) * Fps as real + d * Fps as real;
      CeilSubadditive(Sum(init) * Fps as real, d * Fps as real);
    }
  }

  /** The frames of the first `n` clips depend on their durations only. */
  lemma {:induction false} SequenceFramesPrefix(a: seq<real>, b: seq<real>, n: nat)
    requires n <= |a| && n <= |b| && a[..n] == b[..n]
    ensures SequenceFrames(n, a, Fps) == SequenceFrames(n, b, Fps)
  {
    if n > 0 {
      assert a[..n - 1] == b[..n - 1] && a[n - 1] == b[n - 1] by {
        assert forall i :: 0 <= i < n ==> a[..n][i] == a[i] && b[..n][i] == b[i];
      }
      SequenceFramesPrefix(a, b, n - 1);
    }
  }

  /**
   * With the durations `calculateMetadata` found, the series is never
   * shorter than the composition: unless the composition is clamped to its
   * one-frame minimum, every frame it declares has content.
   */
  lemma SeriesCoversComposition(format: string, n: nat, probe: nat -> Option<real>)
    requires n > 0
    ensures var m := CalculateMetadata(format, n, probe);
      m.durationInFrames > 1 ==> SeriesFrames(n, m.clipDurations.value, m.fps) >= m.durationInFrames
  {
    var m := CalculateMetadata(format, n, probe);
    SequencesCoverTotal(m.clipDurations.value);
  }

  /**
   * The one-frame clamp hides the case it guards: two clips of a hundredth
   * of a second give a one-frame composition, while their series, each
   * sequence one frame long and overlapping by a whole transition, has a
   * negative length.
   */
  lemma ShortClipsOutrunSeries(format: string)
    ensures
      var m := CalculateMetadata(format, 2, (i: nat) => Some(0.01));
      && m.durationInFrames == 1
      && SeriesFrames(2, m.clipDurations.value, m.fps) == -13
  {
    var m := CalculateMetadata(format, 2, (i: nat) => Some(0.01));
    var ds := m.clipDurations.value;
    assert ds == [0.01, 0.01];
    assert Sum(ds) == 0.02 by {
      assert ds[..1] == [0.01] && [0.01][..0] == [];
    }
    assert Ceil(0.6) == 1;
    assert Ceil(0.01 * Fps as real) == 1;
    assert DurationAt(ds, 0) == 0.01 && DurationAt(ds, 1) == 0.01;
    assert SequenceFrames(1, ds, Fps) == 1;
  }
}

=== FILE: fal.dfy ===
/**
 * The fal.ai adapter's pure logic: model tables, request shaping for image
 * and clip generation, and the local path and MIME type computations of
 * `downloadToLocal` and `uploadToFal`. The network and file-system calls
 * themselves are not modelled.
 */
module Fal {
  import opened Outcomes
  import opened Text
  import Paths
  import Objects

  const ImageModelIds: map<string, string> := map[
    "flux-schnell" := "fal-ai/flux/schnell",
    "flux-dev" := "fal-ai/flux/dev",
    "flux" := "fal-ai/flux/schnell",
    "nano-banana" := "fal-ai/nano-banana",
    "nano-banana-pro" := "fal-ai/nano-banana-pro"]

  const ClipModelIds: map<string, string> := map[
    "wan-i2v" := "fal-ai/wan-i2v",
    "kling" := "fal-ai/kling-video/v1.6/pro/image-to-video",
    "minimax" := "fal-ai/minimax/video-01/image-to-video"]

  const FormatToImageSize: map<string, string> := map[
    "16:9" := "landscape_16_9",
    "9:16" := "portrait_16_9",
    "1:1" := "square_hd"]

  const DefaultImageSize := "landscape_16_9"

  /** The two payload shapes the image endpoints accept. */
  datatype ImageInput =
    | AspectInput(prompt: string, aspectRatio: string, numImages: nat, outputFormat: string, resolution: Option<string>)
    | SizedInput(prompt: string, imageSize: Objects.Value, numImages: nat, outputFormat: string)

  /** The three payload shapes of the image-to-video endpoints. */
  datatype ClipInput =
    | WanInput(imageUrl: string, prompt: string, aspectRatio: string, resolution: string)
    | KlingInput(imageUrl: string, prompt: string, aspectRatio: string)
    | MinimaxInput(imageUrl: string, prompt: string)
  {
    function ImageUrl(): string {
      match this
      case WanInput(u, _, _, _) => u
      case KlingInput(u, _, _) => u
      case MinimaxInput(u, _) => u
    }
  }

  /** The endpoint is whatever the model table answers, an inherited member included. */
  datatype Request<I> = Request(endpoint: Objects.Value, input: I)

  /** No key of the adapter's tables is an inherited name. */
  lemma TablesApart()
    ensures ImageModelIds.Keys !! Objects.Prototype
    ensures ClipModelIds.Keys !! Objects.Prototype
    ensures FormatToImageSize.Keys !! Objects.Prototype
  {
    ImageInitials();
    Objects.KeysApart(ImageModelIds.Keys);
    ClipInitials();
    Objects.KeysApart(ClipModelIds.Keys);
    FormatInitials();
    Objects.KeysApart(FormatToImageSize.Keys);
  }

  lemma ImageInitials()
    ensures forall k :: k in ImageModelIds.Keys ==> |k| > 0 && !Objects.InheritedInitial(k[0])
  {
  }

  lemma ClipInitials()
    ensures forall k :: k in ClipModelIds.Keys ==> |k| > 0 && !Objects.InheritedInitial(k[0])
  {
  }

  lemma FormatInitials()
    ensures forall k :: k in FormatToImageSize.Keys ==> |k| > 0 && !Objects.InheritedInitial(k[0])
  {
  }

  /**
   * The request `generateImage` submits. The model is looked up in the
   * table, and only a falsy answer is an unknown model: a name every object
   * inherits passes the guard with the inherited member as its endpoint.
   * Flux sizes are `FORMAT_TO_IMAGE_SIZE[aspectRatio] ?? "landscape_16_9"`.
   */
  function ImageRequest(model: string, prompt: string, aspectRatio: string): (r: Result<Request<ImageInput>>)
    ensures r.Err? <==> model !in ImageModelIds && model !in Objects.Prototype
    ensures model in ImageModelIds ==> r.Ok? && r.value.endpoint == Objects.Own(ImageModelIds[model])
    ensures model in Objects.Prototype ==> r.Ok? && r.value.endpoint.Builtin? && r.value.input.SizedInput?
    ensures r.Ok? ==> r.value.endpoint == Objects.Get(ImageModelIds, model) && r.value.input.prompt == prompt
    ensures r.Ok? ==> r.value.input.numImages == 1 && r.value.input.outputFormat == "png"
    ensures r.Ok? ==> (r.value.input.AspectInput? <==> model in {"nano-banana", "nano-banana-pro"})
    ensures r.Ok? && r.value.input.AspectInput? ==>
      && r.value.input.aspectRatio == aspectRatio
      && (r.value.input.resolution == Some("2K") <==> model == "nano-banana-pro")
      && (r.value.input.resolution.None? <==> model == "nano-banana")
    ensures r.Ok? && r.value.input.SizedInput? ==>
      && (aspectRatio in FormatToImageSize ==> r.value.input.imageSize == Objects.Own(FormatToImageSize[aspectRatio]))
      && (aspectRatio in Objects.Prototype ==> r.value.input.imageSize.Builtin?)
      && (aspectRatio !in FormatToImageSize && aspectRatio !in Objects.Prototype ==>
            r.value.input.imageSize == Objects.Own(DefaultImageSize))
  {
    TablesApart();
    var endpoint := Objects.Get(ImageModelIds, model);
    if !endpoint.Truthy() then Err(Internal("Unknown image model: " + model))
    else
      var input :=
        if model == "nano-banana" || model == "nano-banana-pro" then
          AspectInput(prompt, aspectRatio, 1, "png", if model == "nano-banana-pro" then Some("2K") else None)
        else
          var size := Objects.Coalesce(Objects.Get(FormatToImageSize, aspectRatio), Objects.Own(DefaultImageSize));
          SizedInput(prompt, size, 1, "png");
      Ok(Request(endpoint, input))
  }

  /** Local images are uploaded first because the backend cannot reach them; remote URLs pass through. */
  predicate NeedsUpload(imageUrl: string) {
    !StartsWith(imageUrl, "http")
  }

  /**
   * The request `generateClip` submits. `uploadedUrl` is the public URL the
   * upload returns, used only when the image is local. An unknown model fails
   * before the upload; a name every object inherits passes the guard and
   * falls to the last branch, the minimax payload.
   */
  function ClipRequest(model: string, imageUrl: string, prompt: string, aspectRatio: string, uploadedUrl: string)
    : (r: Result<Request<ClipInput>>)
    ensures r.Err? <==> model !in ClipModelIds && model !in Objects.Prototype
    ensures model in ClipModelIds ==> r.Ok? && r.value.endpoint == Objects.Own(ClipModelIds[model])
    ensures model in ClipModelIds ==> (r.value.input.MinimaxInput? <==> model == "minimax")
    ensures model in Objects.Prototype ==> r.Ok? && r.value.endpoint.Builtin? && r.value.input.MinimaxInput?
    ensures r.Ok? ==> r.value.endpoint == Objects.Get(ClipModelIds, model)
    ensures r.Ok? ==> r.value.input.ImageUrl() == (if NeedsUpload(imageUrl) then uploadedUrl else imageUrl)
    ensures r.Ok? ==> (r.value.input.WanInput? <==> model == "wan-i2v")
    ensures r.Ok? ==> (r.value.input.KlingInput? <==> model == "kling")
    ensures r.Ok? ==> (r.value.input.MinimaxInput? <==> model != "wan-i2v" && model != "kling")
    ensures r.Ok? && r.value.input.WanInput? ==> r.value.input.aspectRatio == aspectRatio && r.value.input.resolution == "480p"
    ensures r.Ok? && r.value.input.KlingInput? ==> r.value.input.aspectRatio == aspectRatio
  {
    TablesApart();
    var endpoint := Objects.Get(ClipModelIds, model);
    if !endpoint.Truthy() then Err(Internal("Unknown clip model: " + model))
    else
      var source := if NeedsUpload(imageUrl) then uploadedUrl else imageUrl;
      var input :=
        if model == "wan-i2v" then WanInput(source, prompt, aspectRatio, "480p")
        else if model == "kling" then KlingInput(source, prompt, aspectRatio)
        else MinimaxInput(source, prompt);
      Ok(Request(endpoint, input))
  }

  // ---------------------------------------------------------------------------
  // downloadToLocal: where a fetched file is stored and the URL it is served at
  // ---------------------------------------------------------------------------

  datatype MediaDir = ImagesDir | ClipsDir {
    function Name(): string {
      if ImagesDir? then "images" else "clips"
    }
    function FallbackExtension(): string {
      if ImagesDir? then "webp" else "mp4"
    }
  }

  /** The extension taken from a remote URL: the text after the last `.` of the part before the first `?`. */
  function RemoteExtension(remoteUrl: string, dir: MediaDir): (ext: string)
    ensures ext != []
    ensures '.' !in ext && '?' !in ext
    ensures AfterLast(BeforeFirst(remoteUrl, '?'), '.') != [] ==> ext == AfterLast(BeforeFirst(remoteUrl, '?'), '.')
    ensures AfterLast(BeforeFirst(remoteUrl, '?'), '.') == [] ==> ext == dir.FallbackExtension()
  {
    var raw := AfterLast(BeforeFirst(remoteUrl, '?'), '.');
    assert forall c :: c in raw ==> c in BeforeFirst(remoteUrl, '?');
    if raw != [] then raw else dir.FallbackExtension()
  }

  /** The URL path `downloadToLocal` returns: `/<dir>/<filename>.<ext>`. */
  function LocalUrl(remoteUrl: string, dir: MediaDir, filename: string): string
  {
    "/" + dir.Name() + "/" + filename + "." + RemoteExtension(remoteUrl, dir)
  }

  /** Reading the extension back off the local URL gives the extension that was derived. */
  lemma LocalUrlExtension(remoteUrl: string, dir: MediaDir, filename: string)
    ensures StartsWith(LocalUrl(remoteUrl, dir, filename), "/" + dir.Name() + "/" + filename + ".")
    ensures AfterLast(LocalUrl(remoteUrl, dir, filename), '.') == RemoteExtension(remoteUrl, dir)
    ensures LocalUrl(remoteUrl, dir, filename) != []
  {
    var ext := RemoteExtension(remoteUrl, dir);
    var head := "/" + dir.Name() + "/" + filename + ".";
    var r := LocalUrl(remoteUrl, dir, filename);
    assert r == head + ext;
    assert r[..|head|] == head;
    AfterLastOfSuffix(head, ext, '.');
  }

  lemma {:induction false} BeforeFirstOfPrefix(a: string, b: string, c: char)
    requires c !in a && (b == [] || b[0] == c)
    ensures BeforeFirst(a + b, c) == a
  {
    if a != [] {
      assert (a + b)[1..] == a[1..] + b;
      BeforeFirstOfPrefix(a[1..], b, c);
      assert [a[0]] + a[1..] == a;
    } else {
      assert a + b == b;
    }
  }

  /** The query string plays no part: the extension comes from the path before `?`. */
  lemma QueryIgnored(stem: string, ext: string, query: string, dir: MediaDir)
    requires '?' !in stem && '?' !in ext && '.' !in ext && ext != []
    ensures RemoteExtension(stem + "." + ext + "?" + query, dir) == ext
  {
    var path := stem + "." + ext;
    assert stem + "." + ext + "?" + query == path + ("?" + query);
    BeforeFirstOfPrefix(path, "?" + query, '?');
    AfterLastOfSuffix(stem + ".", ext, '.');
  }

  /**
   * A URL whose last path segment has no dot takes everything after the last
   * dot of the whole URL, so the "extension" can reach back into the host name
   * and contain `/`. Writing the file then targets a directory that was never
   * created, so such a download always throws: the completed record the free
   * download outcome allows here does not arise in the service.
   */
  lemma DotlessPathUsesHostSuffix(host: string, rest: string, dir: MediaDir)
    requires '?' !in host && '?' !in rest && '.' !in rest && rest != []
    ensures RemoteExtension(host + "." + rest, dir) == rest
  {
    BeforeFirstOfPrefix(host + "." + rest, [], '?');
    assert host + "." + rest + [] == host + "." + rest;
    AfterLastOfSuffix(host + ".", rest, '.');
  }

  /**
   * A URL whose path ends in a dot falls back to the per-directory default;
   * one with no dot at all is taken whole as its own extension.
   */
  lemma FallbackExtension(stem: string, dir: MediaDir)
    requires '?' !in stem
    ensures '.' !in stem && stem != [] ==> RemoteExtension(stem, dir) == stem
    ensures RemoteExtension(stem + ".", dir) == dir.FallbackExtension()
  {
    BeforeFirstOfPrefix(stem, [], '?');
    assert stem + [] == stem;
    if '.' !in stem {
      AfterLastAbsent(stem, '.');
    }
    BeforeFirstOfPrefix(stem + ".", [], '?');
    assert stem + "." + [] == stem + ".";
    AfterLastOfSuffix(stem + ".", [], '.');
    assert stem + "." + [] == stem + ".";
  }

  // ---------------------------------------------------------------------------
  // uploadToFal: file location and MIME type
  // ---------------------------------------------------------------------------

  const MimeTypes: map<string, string> := map[
    "png" := "image/png", "jpg" := "image/jpeg", "jpeg" := "image/jpeg", "webp" := "image/webp",
    "mp3" := "audio/mpeg", "wav" := "audio/wav", "mp4" := "video/mp4"]

  const DefaultMime := "application/octet-stream"

  /** The public directory: `public` under the working directory. */
  function PublicDir(cwd: string): string {
    Paths.JoinPath(cwd, "public")
  }

  /**
   * The file `uploadToFal` reads: a stored path that starts with `/` is
   * joined onto the public directory, any other is resolved from the
   * working directory; both are normalised.
   */
  function UploadPath(localPath: string, cwd: string): (r: string)
    ensures r != []
    ensures StartsWith(localPath, "/") ==> r == Paths.JoinPath(PublicDir(cwd), localPath[1..])
    ensures !StartsWith(localPath, "/") ==> r == Paths.ResolvePath(localPath, cwd)
  {
    if StartsWith(localPath, "/") then Paths.JoinPath(PublicDir(cwd), localPath[1..])
    else Paths.ResolvePath(localPath, cwd)
  }

  /** `Blob` lower-cases the type it is given; every text it meets here is printable ASCII. */
  function LowerAscii(s: string): (r: string)
    ensures |r| == |s|
  {
    if s == [] then [] else [if 'A' <= s[0] <= 'Z' then (s[0] as int + 32) as char else s[0]] + LowerAscii(s[1..])
  }

  /** The type of an upload whose extension is a name every object inherits: the inherited member as text, lower-cased. */
  function InheritedMime(name: string): string {
    LowerAscii(Objects.NativeText(name))
  }

  /**
   * `mimeTypes[ext] || "application/octet-stream"`: the table's own entry
   * (already lower-case), what an inherited name resolves to, or raw bytes
   * for anything else.
   */
  function MimeFor(ext: string): (mime: string)
    ensures ext in MimeTypes ==> mime == MimeTypes[ext]
    ensures ext !in MimeTypes && ext in Objects.Prototype ==> mime == InheritedMime(ext)
    ensures ext !in MimeTypes && ext !in Objects.Prototype ==> mime == DefaultMime
    ensures mime in MimeTypes.Values || mime == DefaultMime || (ext in Objects.Prototype && mime == InheritedMime(ext))
  {
    if ext in MimeTypes then MimeTypes[ext]
    else if ext in Objects.Prototype then InheritedMime(ext)
    else DefaultMime
  }

  /** The content type attached to the upload of the file at `path`. */
  function MimeType(path: string): (mime: string)
    ensures mime == MimeFor(Paths.Extension(path))
    ensures var ext := Paths.Extension(path);
      mime in MimeTypes.Values || mime == DefaultMime || (ext in Objects.Prototype && mime == InheritedMime(ext))
  {
    MimeFor(Paths.Extension(path))
  }

  /** The file the upload reads, with the type it declares. */
  datatype Upload = Upload(absolutePath: string, mime: string)

  function UploadFor(localPath: string, cwd: string): (u: Upload)
    ensures u.absolutePath == UploadPath(localPath, cwd)
    ensures u.mime == MimeType(u.absolutePath)
  {
    var p := UploadPath(localPath, cwd);
    Upload(p, MimeType(p))
  }

  /** The public directory of a normalised working directory is that directory followed by `/public`. */
  lemma PublicDirOf(cwd: string, segs: seq<string>)
    requires Paths.NormalForm(cwd, segs)
    ensures PublicDir(cwd) == cwd + "/" + "public"
    ensures Paths.NormalForm(PublicDir(cwd), segs + ["public"])
  {
    assert Paths.Join(["public"]) == "public";
    Paths.ExtendNormal(cwd, segs, ["public"]);
  }

  /**
   * A file stored by `downloadToLocal` is uploaded from the public directory,
   * under the same name, with the content type its extension names.
   */
  lemma DownloadedFileUploadsWithItsType(cwd: string, segs: seq<string>, filename: string, dir: MediaDir, remoteUrl: string)
    requires Paths.NormalForm(cwd, segs)
    requires '/' !in filename && '.' !in filename && filename != []
    ensures
      var ext := RemoteExtension(remoteUrl, dir);
      '/' !in ext ==>
        UploadFor(LocalUrl(remoteUrl, dir, filename), cwd)
          == Upload(cwd + "/" + "public" + "/" + dir.Name() + "/" + filename + "." + ext, MimeFor(ext))
  {
    var ext := RemoteExtension(remoteUrl, dir);
    if '/' !in ext {
      DirNameOrdinary(dir);
      UploadOfLocal(cwd, segs, dir.Name(), filename, ext);
    }
  }

  lemma DirNameOrdinary(dir: MediaDir)
    ensures Paths.Ordinary(dir.Name()) && '/' !in dir.Name()
  {
  }

  lemma UploadOfLocal(cwd: string, segs: seq<string>, dirName: string, filename: string, ext: string)
    requires Paths.NormalForm(cwd, segs)
    requires Paths.Ordinary(dirName) && '/' !in dirName
    requires '/' !in filename && '.' !in filename && filename != [] && '.' !in ext && '/' !in ext
    ensures
      UploadFor("/" + dirName + "/" + filename + "." + ext, cwd)
        == Upload(cwd + "/" + "public" + "/" + dirName + "/" + filename + "." + ext, MimeFor(ext))
  {
    var base := filename + "." + ext;
    NamedFile(filename, ext);
    var p := StoredPath(cwd, segs, dirName, base);
    var dirPath := cwd + "/" + "public" + "/" + dirName + "/";
    WithExtension(dirPath, filename, ext);
    WithExtension("/" + dirName + "/", filename, ext);
    Paths.ExtensionOfBase(dirPath, filename, ext);
  }

  /** `name.ext` with a non-empty dot-free name is an ordinary, slash-free segment. */
  lemma NamedFile(filename: string, ext: string)
    requires '/' !in filename && '.' !in filename && filename != [] && '/' !in ext
    ensures Paths.Ordinary(filename + "." + ext) && '/' !in filename + "." + ext
  {
    var base := filename + "." + ext;
    assert base[0] == filename[0] && filename[0] in filename && base[|filename|] == '.';
  }

  lemma WithExtension(a: string, filename: string, ext: string)
    ensures a + (filename + "." + ext) == a + filename + "." + ext
  {
    Assoc(a, filename + ".", ext);
    Assoc(a, filename, ".");
  }

  /** A stored `/dir/name` is read from `dir/name` under the public directory, untouched by normalisation. */
  lemma StoredPath(cwd: string, segs: seq<string>, dirName: string, base: string) returns (p: string)
    requires Paths.NormalForm(cwd, segs)
    requires Paths.Ordinary(dirName) && '/' !in dirName && Paths.Ordinary(base) && '/' !in base
    ensures p == cwd + "/" + "public" + "/" + dirName + "/" + base
    ensures UploadPath("/" + dirName + "/" + base, cwd) == p
  {
    var names := [dirName, base];
    PublicJoin(cwd, segs, names);
    assert Paths.Join(names) == dirName + "/" + base;
    p := StoredUnder(cwd, dirName, base);
  }

  /** Ordinary names joined onto the public directory are simply appended to it. */
  lemma PublicJoin(cwd: string, segs: seq<string>, names: seq<string>)
    requires Paths.NormalForm(cwd, segs)
    requires names != [] && forall k :: 0 <= k < |names| ==> Paths.Ordinary(names[k]) && '/' !in names[k]
    ensures PublicDir(cwd) == cwd + "/" + "public"
    ensures Paths.JoinPath(PublicDir(cwd), Paths.Join(names)) == PublicDir(cwd) + "/" + Paths.Join(names)
  {
    PublicDirOf(cwd, segs);
    Paths.ExtendNormal(PublicDir(cwd), segs + ["public"], names);
  }

  lemma StoredUnder(cwd: string, dirName: string, base: string) returns (p: string)
    requires PublicDir(cwd) == cwd + "/" + "public"
    requires Paths.JoinPath(PublicDir(cwd), dirName + "/" + base) == PublicDir(cwd) + "/" + (dirName + "/" + base)
    ensures p == cwd + "/" + "public" + "/" + dirName + "/" + base
    ensures UploadPath("/" + dirName + "/" + base, cwd) == p
  {
    RootedTail(dirName, base);
    p := cwd + "/" + "public" + "/" + dirName + "/" + base;
    assert PublicDir(cwd) + "/" + (dirName + "/" + base) == p;
  }

  /**
   * A stored path that starts with `/..` leaves the public directory: the
   * file read is in the working directory itself.
   */
  lemma UploadClimbsOutOfPublic(cwd: string, segs: seq<string>, names: seq<string>)
    requires Paths.NormalForm(cwd, segs)
    requires names != [] && forall k :: 0 <= k < |names| ==> Paths.Ordinary(names[k]) && '/' !in names[k]
    ensures UploadPath("/" + ".." + "/" + Paths.Join(names), cwd) == cwd + "/" + Paths.Join(names)
  {
    PublicDirIs(cwd, segs);
    PublicIsOrdinary();
    Paths.ClimbOne(cwd, segs, "public", names);
    ClimbingPath(cwd, Paths.Join(names));
  }

  lemma PublicIsOrdinary()
    ensures Paths.Ordinary("public") && '/' !in "public"
  {
  }

  lemma PublicDirIs(cwd: string, segs: seq<string>)
    requires Paths.NormalForm(cwd, segs)
    ensures PublicDir(cwd) == cwd + "/" + "public"
  {
    assert Paths.Join(["public"]) == "public";
    Paths.ExtendNormal(cwd, segs, ["public"]);
  }

  lemma ClimbingPath(cwd: string, rest: string)
    requires PublicDir(cwd) == cwd + "/" + "public"
    requires Paths.JoinPath(cwd + "/" + "public", ".." + "/" + rest) == cwd + "/" + rest
    ensures UploadPath("/" + ".." + "/" + rest, cwd) == cwd + "/" + rest
  {
    RootedTail("..", rest);
  }
}

=== FILE: llm.dfy ===
/**
 * The language-model adapter's deterministic parts: taking the first text
 * block of a reply, cutting a JSON payload out of a fenced code block, the
 * scene-count instruction, and the mock prompts used when the model is
 * switched off. The model's replies are inputs; JSON parsing is not modelled.
 */
module Llm {
  import opened Outcomes
  import opened Text

  datatype ContentBlock = TextBlock(text: string) | OtherBlock(kind: string)

  const NoTextMessage := "No text response from LLM"

  /** `extractText`: the text of the first text block; a reply without one is an error. */
  function ExtractText(content: seq<ContentBlock>): (r: Result<string>)
    ensures r.Err? <==> forall i :: 0 <= i < |content| ==> !content[i].TextBlock?
    ensures r.Err? ==> r == Err(Internal(NoTextMessage))
    ensures r.Ok? ==> exists i :: 0 <= i < |content| && content[i] == TextBlock(r.value)
                                 && forall j :: 0 <= j < i ==> !content[j].TextBlock?
  {
    if |content| == 0 then Err(Internal(NoTextMessage))
    else if content[0].TextBlock? then Ok(content[0].text)
    else
      var r := ExtractText(content[1..]);
      if r.Ok? then
        var i :| 0 <= i < |content[1..]| && content[1..][i] == TextBlock(r.value)
                 && forall j :: 0 <= j < i ==> !content[1..][j].TextBlock?;
        assert content[i + 1] == TextBlock(r.value);
        r
      else r
  }

  // ---------------------------------------------------------------------------
  // Cutting the JSON out of a fenced reply
  // ---------------------------------------------------------------------------

  const Fence := "```"

  /**
   * The raw inside of the first fenced block of `t`: after the first fence
   * and an optional `json` tag, up to the next fence. `None` when no second
   * fence follows the first.
   */
  function FencedBody(t: string): (r: Option<string>)
    ensures IndexOfFrom(t, Fence, 0) == -1 ==> r.None?
    ensures r.Some? ==> !HasFence(r.value)
  {
    var i := IndexOfFrom(t, Fence, 0);
    if i < 0 then None
    else
      var s := if StartsWith(t[i + 3..], "json") then i + 7 else i + 3;
      var q := IndexOfFrom(t, Fence, s);
      if q < 0 then None
      else
        NoFenceBefore(t, s, q);
        Some(t[s..q])
  }

  ghost predicate HasFence(s: string) {
    exists j :: OccursAt(s, Fence, j)
  }

  lemma NoFenceBefore(t: string, s: nat, q: nat)
    requires s <= q && q + 3 <= |t|
    requires forall j :: s <= j < q ==> !OccursAt(t, Fence, j)
    ensures !HasFence(t[s..q])
  {
    var body := t[s..q];
    forall j | 0 <= j && j + 3 <= |body|
      ensures !OccursAt(body, Fence, j)
    {
      assert body[j] == t[s + j] && body[j + 1] == t[s + j + 1] && body[j + 2] == t[s + j + 2];
      assert body[j..j + 3] == t[s + j..s + j + 3];
      assert !OccursAt(t, Fence, s + j);
    }
  }

  /**
   * The JSON text taken from a reply: the trimmed inside of its first fenced
   * block, or the whole trimmed reply when it has none.
   */
  function ExtractJson(text: string): (r: string)
    ensures r == [] || (!IsSpace(r[0]) && !IsSpace(r[|r| - 1]))
    ensures FencedBody(Trim(text)).None? ==> r == Trim(text)
    ensures FencedBody(Trim(text)).Some? ==> r == Trim(FencedBody(Trim(text)).value)
  {
    var t := Trim(text);
    match FencedBody(t)
    case None => t
    case Some(body) => Trim(body)
  }

  /** A reply without any backtick is only trimmed. */
  lemma UnfencedReplyIsTrimmed(text: string)
    requires '`' !in Trim(text)
    ensures ExtractJson(text) == Trim(text)
  {
    IndexOfFromAbsent(Trim(text), Fence, 0);
  }

  /** How `ExtractJson` reads an already trimmed reply once both fences are located. */
  lemma ExtractAt(t: string, i: nat, s: nat, q: nat)
    requires Trim(t) == t
    requires IndexOfFrom(t, Fence, 0) == i
    requires i + 3 <= |t| && s == (if StartsWith(t[i + 3..], "json") then i + 7 else i + 3)
    requires IndexOfFrom(t, Fence, s) == q && s <= q
    ensures ExtractJson(t) == Trim(t[s..q])
  {
    FencedBodyAt(t, i, s, q);
    ExtractOfTrimmed(t, t[s..q]);
  }

  lemma FencedBodyAt(t: string, i: nat, s: nat, q: nat)
    requires IndexOfFrom(t, Fence, 0) == i
    requires i + 3 <= |t| && s == (if StartsWith(t[i + 3..], "json") then i + 7 else i + 3)
    requires IndexOfFrom(t, Fence, s) == q && s <= q
    ensures FencedBody(t) == Some(t[s..q])
  {
  }

  lemma ExtractOfTrimmed(t: string, body: string)
    requires Trim(t) == t && FencedBody(t) == Some(body)
    ensures ExtractJson(t) == Trim(body)
  {
  }

  /** No fence can start where the character is not a backtick. */
  lemma NoFenceWithoutBacktick(t: string, from: nat, to: nat)
    requires from <= to <= |t|
    requires forall j :: from <= j < to ==> t[j] != '`'
    ensures forall j :: from <= j < to ==> !OccursAt(t, Fence, j)
  {
    forall j | from <= j < to
      ensures !OccursAt(t, Fence, j)
    {
      if j + 3 <= |t| {
        assert t[j..j + 3][0] == t[j];
      }
    }
  }

  /**
   * A payload wrapped in a `json` code block comes back unchanged, provided it
   * has no backtick of its own and no surrounding whitespace.
   */
  lemma FencedRoundTrip(body: string)
    requires '`' !in body
    requires body == [] || (!IsSpace(body[0]) && !IsSpace(body[|body| - 1]))
    ensures ExtractJson("```json\n" + body + "\n```") == body
  {
    var t := "```json\n" + body + "\n```";
    var q := |body| + 9;
    JsonFenceLocated(body);
    ExtractAt(t, 0, 7, q);
    assert t[7..q] == "\n" + body + "\n";
    TrimPadded("\n", body, "\n");
  }

  /** Where the fences of a `json` code block lie. */
  lemma JsonFenceLocated(body: string)
    requires '`' !in body
    ensures var t := "```json\n" + body + "\n```";
      && |t| == |body| + 12
      && Trim(t) == t
      && IndexOfFrom(t, Fence, 0) == 0
      && StartsWith(t[3..], "json")
      && IndexOfFrom(t, Fence, 7) == |body| + 9
  {
    var head := "```json\n";
    var t := head + body + "\n```";
    var q := |body| + 9;
    assert |t| == q + 3;
    assert t[0] == '`' && t[|t| - 1] == '`';
    TrimOfTrimmed(t);
    assert t[0..3] == head[0..3] == Fence;
    IndexOfFromIs(t, Fence, 0, 0);
    assert t[..|head|] == head;
    assert t[3..][..4] == t[..|head|][3..7];
    assert t[q..q + 3] == Fence;
    forall j | 7 <= j < q
      ensures t[j] != '`'
    {
      if 8 <= j < 8 + |body| {
        assert t[j] == body[j - 8];
      }
    }
    NoFenceWithoutBacktick(t, 7, q);
    IndexOfFromIs(t, Fence, 7, q);
  }

  /** The same payload in an untagged fence is recovered too. */
  lemma UntaggedFenceRoundTrip(body: string)
    requires '`' !in body && !StartsWith(body, "json")
    requires body == [] || (!IsSpace(body[0]) && !IsSpace(body[|body| - 1]))
    ensures ExtractJson("```" + body + "```") == body
  {
    var t := "```" + body + "```";
    var q := |body| + 3;
    assert |t| == q + 3;
    assert Trim(t) == t by {
      assert t[0] == '`' && t[|t| - 1] == '`';
      TrimOfTrimmed(t);
    }
    assert IndexOfFrom(t, Fence, 0) == 0 by {
      assert t[0..3] == Fence;
      IndexOfFromIs(t, Fence, 0, 0);
    }
    assert t[3..] == body + "```";
    assert !StartsWith(t[3..], "json") by {
      if |body| >= 4 {
        assert t[3..][..4] == body[..4];
      } else if |t[3..]| >= 4 {
        assert t[3..][..4][|body|] == '`';
      }
    }
    assert IndexOfFrom(t, Fence, 3) == q by {
      assert t[q..q + 3] == Fence;
      assert forall j :: 3 <= j < q ==> t[j] != '`' by {
        forall j | 3 <= j < q
          ensures t[j] != '`'
        {
          assert t[j] == body[j - 3];
        }
      }
      NoFenceWithoutBacktick(t, 3, q);
      IndexOfFromIs(t, Fence, 3, q);
    }
    ExtractAt(t, 0, 3, q);
    assert t[3..q] == body;
    TrimOfTrimmed(body);
  }

  /** An opening fence with no closing one leaves the whole trimmed reply. */
  lemma UnclosedFenceKeepsReply(pre: string, rest: string)
    requires '`' !in pre && '`' !in rest
    requires pre == [] || !IsSpace(pre[0])
    requires rest == [] || !IsSpace(rest[|rest| - 1])
    ensures ExtractJson(pre + "```" + rest) == pre + "```" + rest
  {
    var t := pre + "```" + rest;
    var i := |pre|;
    UnclosedLocated(pre, rest);
    var s := if StartsWith(t[i + 3..], "json") then i + 7 else i + 3;
    NoClosingFence(t, i, s);
  }

  lemma NoClosingFence(t: string, i: nat, s: nat)
    requires Trim(t) == t
    requires IndexOfFrom(t, Fence, 0) == i
    requires i + 3 <= |t| && s == (if StartsWith(t[i + 3..], "json") then i + 7 else i + 3)
    requires IndexOfFrom(t, Fence, s) == -1
    ensures ExtractJson(t) == t
  {
    assert FencedBody(t).None?;
  }

  /** Where the only fence of a reply with an unclosed block lies. */
  lemma UnclosedLocated(pre: string, rest: string)
    requires '`' !in pre && '`' !in rest
    requires pre == [] || !IsSpace(pre[0])
    requires rest == [] || !IsSpace(rest[|rest| - 1])
    ensures var t := pre + "```" + rest;
      && Trim(t) == t
      && IndexOfFrom(t, Fence, 0) == |pre|
      && forall s :: |pre| + 3 <= s ==> IndexOfFrom(t, Fence, s) == -1
  {
    var t := pre + "```" + rest;
    assert Trim(t) == t by {
      if pre != [] {
        assert t[0] == pre[0];
      } else {
        assert t[0] == '`';
      }
      if rest != [] {
        assert t[|t| - 1] == rest[|rest| - 1];
      } else {
        assert t[|t| - 1] == '`';
      }
      TrimOfTrimmed(t);
    }
    FirstFenceAfter(pre, rest);
    NothingAfterFence(pre, rest);
  }

  lemma FirstFenceAfter(pre: string, rest: string)
    requires '`' !in pre
    ensures IndexOfFrom(pre + "```" + rest, Fence, 0) == |pre|
  {
    var t := pre + "```" + rest;
    var i := |pre|;
    assert t[i..i + 3] == Fence;
    forall j | 0 <= j < i
      ensures t[j] != '`'
    {
      assert t[j] == pre[j];
    }
    NoFenceWithoutBacktick(t, 0, i);
    IndexOfFromIs(t, Fence, 0, i);
  }

  lemma NothingAfterFence(pre: string, rest: string)
    requires '`' !in rest
    ensures forall s :: |pre| + 3 <= s ==> IndexOfFrom(pre + "```" + rest, Fence, s) == -1
  {
    var t := pre + "```" + rest;
    var i := |pre|;
    forall j | i + 3 <= j < |t|
      ensures t[j] != '`'
    {
      assert t[j] == rest[j - i - 3];
    }
    NoFenceWithoutBacktick(t, i + 3, |t|);
    forall s | i + 3 <= s
      ensures IndexOfFrom(t, Fence, s) == -1
    {
      var r := IndexOfFrom(t, Fence, s);
      assert r == -1 || OccursAt(t, Fence, r);
    }
  }

  // ---------------------------------------------------------------------------
  // Prompts
  // ---------------------------------------------------------------------------

  const OpenEndedInstruction := "Split the script into as many scenes as appropriate."

  /** A zero, missing or null scene limit asks for as many scenes as appropriate. */
  function MaxScenesInstruction(maxScenes: Option<int>): (r: string)
    ensures maxScenes.Some? && maxScenes.value != 0 ==>
      r == "Split the script into at most " + IntToString(maxScenes.value) + " scenes."
    ensures maxScenes.None? || maxScenes.value == 0 ==> r == OpenEndedInstruction
  {
    if maxScenes.Some? && maxScenes.value != 0 then
      "Split the script into at most " + IntToString(maxScenes.value) + " scenes."
    else OpenEndedInstruction
  }

  /** Different limits produce different instructions, so the limit reaches the model intact. */
  lemma MaxScenesInstructionInjective(a: nat, b: nat)
    requires a != 0 && b != 0 && a != b
    ensures MaxScenesInstruction(Some(a)) != MaxScenesInstruction(Some(b))
  {
    var pre := "Split the script into at most ";
    var x := MaxScenesInstruction(Some(a));
    var y := MaxScenesInstruction(Some(b));
    if x == y {
      var sa := NatToString(a);
      var sb := NatToString(b);
      assert x == pre + sa + " scenes." && y == pre + sb + " scenes.";
      assert |sa| == |sb|;
      assert x[|pre|..|pre| + |sa|] == sa;
      assert y[|pre|..|pre| + |sb|] == sb;
      NatToStringInjective(a, b);
    }
  }

  /** The mock image prompt: style prefix, title, and the first 100 characters of the narrative. */
  function MockImagePrompt(narrativeText: string, sceneTitle: string, stylePrefix: string): (r: string)
    ensures var head := stylePrefix + ", " + sceneTitle + ", dramatic scene depicting: ";
      && StartsWith(r, head)
      && |r| >= |head| + 3 && r[|r| - 3..] == "..."
      && StartsWith(narrativeText, r[|head|..|r| - 3])
      && |r| - |head| - 3 == (if |narrativeText| <= 100 then |narrativeText| else 100)
  {
    var excerpt := if |narrativeText| <= 100 then narrativeText else narrativeText[..100];
    var head := stylePrefix + ", " + sceneTitle + ", dramatic scene depicting: ";
    var r := head + excerpt + "...";
    assert r[..|head|] == head;
    assert r[|head|..|r| - 3] == excerpt;
    assert r[|r| - 3..] == "...";
    r
  }

  const AnimationMockHead := "Slow cinematic zoom in, dramatic lighting shift, subtle camera pan right revealing the scene of "

  /** The mock animation prompt: a fixed camera direction ending in the scene title. */
  function MockAnimationPrompt(sceneTitle: string): (r: string)
    ensures |r| == |AnimationMockHead| + |sceneTitle|
    ensures r[..|AnimationMockHead|] == AnimationMockHead && r[|AnimationMockHead|..] == sceneTitle
  {
    var r := AnimationMockHead + sceneTitle;
    assert r[|AnimationMockHead|..] == sceneTitle;
    r
  }

  /** Whether the model is called or the mock text is used. */
  datatype Mode = Live | Mock

  /** `generateImagePrompt`: the trimmed text of the reply, or the mock prompt. */
  function ImagePrompt(mode: Mode, reply: seq<ContentBlock>, narrativeText: string, sceneTitle: string, stylePrefix: string)
    : (r: Result<string>)
    ensures mode.Mock? ==> r == Ok(MockImagePrompt(narrativeText, sceneTitle, stylePrefix))
    ensures mode.Live? ==> (r.Err? <==> ExtractText(reply).Err?)
    ensures mode.Live? && r.Ok? ==> r.value == Trim(ExtractText(reply).value)
  {
    if mode.Mock? then Ok(MockImagePrompt(narrativeText, sceneTitle, stylePrefix))
    else
      match ExtractText(reply)
      case Ok(t) => Ok(Trim(t))
      case Err(e) => Err(e)
  }

  /** `generateAnimationPrompt`: the trimmed text of the reply, or the mock prompt. */
  function AnimationPrompt(mode: Mode, reply: seq<ContentBlock>, sceneTitle: string): (r: Result<string>)
    ensures mode.Mock? ==> r == Ok(MockAnimationPrompt(sceneTitle))
    ensures mode.Live? ==> (r.Err? <==> ExtractText(reply).Err?)
    ensures mode.Live? && r.Ok? ==> r.value == Trim(ExtractText(reply).value)
  {
    if mode.Mock? then Ok(MockAnimationPrompt(sceneTitle))
    else
      match ExtractText(reply)
      case Ok(t) => Ok(Trim(t))
      case Err(e) => Err(e)
  }

  /** A live prompt never starts or ends with whitespace. */
  lemma LivePromptTrimmed(reply: seq<ContentBlock>, narrativeText: string, sceneTitle: string, stylePrefix: string)
    ensures var r := ImagePrompt(Live, reply, narrativeText, sceneTitle, stylePrefix);
      r.Ok? ==> Trim(r.value) == r.value
  {
    var r := ImagePrompt(Live, reply, narrativeText, sceneTitle, stylePrefix);
    if r.Ok? {
      TrimIdempotent(ExtractText(reply).value);
    }
  }

  /** `splitScript` in live mode: the JSON text handed to the parser. */
  function SplitJsonText(reply: seq<ContentBlock>): (r: Result<string>)
    ensures r.Err? <==> ExtractText(reply).Err?
    ensures r.Ok? ==> r.value == ExtractJson(ExtractText(reply).value)
  {
    match ExtractText(reply)
    case Ok(t) => Ok(ExtractJson(t))
    case Err(e) => Err(e)
  }
}

=== FILE: narration.dfy ===
/**
 * `POST /projects/:id/generate-narration`: three data checks, the
 * `generating_narration` write and the response, then a background loop
 * over the scenes that had no audio when the request came in. Every scene
 * is attempted; a scene whose speech call, file write or update fails is
 * skipped and keeps no audio. Speech synthesis and the file system are
 * parameters: `speech(k)` says whether the `k`-th scene's audio was
 * produced and written.
 */
module Narration {
  import opened Outcomes
  import opened Text
  import opened Store
  import opened Pipeline
  import opened Records
  import Projects

  const NoVoiceMessage := "Voice ID not configured"

  datatype NarrationStarted = NarrationStarted(message: string, sceneCount: nat)

  function NarrationMessage(n: nat): string {
    "Started generating narration for " + NatToString(n) + " scenes"
  }

  /** `/audio/scene-<id>.mp3`, the URL the loop stores for a narrated scene. */
  function AudioUrl(id: Id): (u: string)
    ensures StartsWith(u, "/audio/scene-")
    ensures |u| == 17 + |NatToString(id)|
  {
    "/audio/scene-" + NatToString(id) + ".mp3"
  }

  /** No two scenes share an audio file. */
  lemma AudioUrlInjective(a: Id, b: Id)
    requires AudioUrl(a) == AudioUrl(b)
    ensures a == b
  {
    var u := AudioUrl(a);
    assert u[13..|u| - 4] == NatToString(a);
    assert AudioUrl(b)[13..|AudioUrl(b)| - 4] == NatToString(b);
    NatToStringInjective(a, b);
  }

  /** The route, up to its response. Every failed check leaves the store as it was. */
  function StartNarration(st: Store, pid: Id): (out: Response<NarrationStarted>)
    ensures pid !in st.projects <==> out.body == Err(NotFound("Project"))
    ensures pid in st.projects && ProjectScenes(st, pid) == [] <==> out.body == Err(Invalid(Projects.NoScenesMessage))
    ensures pid in st.projects && ProjectScenes(st, pid) != [] && !Truthy(st.projects[pid].config.voiceId)
      <==> out.body == Err(Invalid(NoVoiceMessage))
    ensures out.body.Err? ==> out.store == st
    ensures out.body.Ok? ==>
      && out.store == st.WithStatus(pid, Running(NarrationStage))
      && out.body.value.sceneCount == |ProjectScenes(st, pid)| > 0
  {
    if pid !in st.projects then Response(st, Err(NotFound("Project")))
    else
      var order := ProjectScenes(st, pid);
      if order == [] then Response(st, Err(Invalid(Projects.NoScenesMessage)))
      else if !Truthy(st.projects[pid].config.voiceId) then Response(st, Err(Invalid(NoVoiceMessage)))
      else Response(st.WithStatus(pid, Running(NarrationStage)), Ok(NarrationStarted(NarrationMessage(|order|), |order|)))
  }

  /**
   * The scenes the loop works through, read when the request came in: the
   * project's scenes in scene order, less those that already had audio.
   */
  function NarrationTargets(st: Store, pid: Id): (r: seq<Id>)
    ensures forall k :: 0 <= k < |r| ==> r[k] in st.scenes && st.scenes[r[k]].projectId == pid && !Truthy(st.scenes[r[k]].audioUrl)
    ensures |r| <= |ProjectScenes(st, pid)|
  {
    Keep(ProjectScenes(st, pid), s => s in st.scenes && !Truthy(st.scenes[s].audioUrl))
  }

  /**
   * The targets are in scene order without repeats and, in a valid store,
   * are exactly the project's scenes without audio.
   */
  lemma NarrationTargetsExact(st: Store, pid: Id)
    ensures var r := NarrationTargets(st, pid);
      forall i, j :: 0 <= i < j < |r| ==> SceneLe(st.scenes, r[i], r[j]) && r[i] != r[j]
    ensures Valid(st) ==>
      forall s :: s in st.scenes && st.scenes[s].projectId == pid && !Truthy(st.scenes[s].audioUrl) ==> s in NarrationTargets(st, pid)
  {
    var order := ProjectScenes(st, pid);
    var p := s => s in st.scenes && !Truthy(st.scenes[s].audioUrl);
    KeepOrdered(st.scenes, order, p);
    if Valid(st) {
      forall s | s in st.scenes && st.scenes[s].projectId == pid && !Truthy(st.scenes[s].audioUrl)
        ensures s in NarrationTargets(st, pid)
      {
        ProjectScenesComplete(st, pid, s);
      }
    }
  }

  /**
   * The loop from the `k`-th target on. A scene is updated only when its
   * audio was produced and the scene still exists; anything else is caught
   * and the loop moves on.
   */
  function NarrateFrom(scenes: map<Id, Scene>, targets: seq<Id>, speech: nat -> bool, k: nat): (r: map<Id, Scene>)
    ensures r.Keys == scenes.Keys
    ensures forall s :: s in scenes ==> r[s] == scenes[s] || r[s] == scenes[s].(audioUrl := Some(AudioUrl(s)))
    ensures forall j :: k <= j < |targets| && speech(j) && targets[j] in scenes ==>
      r[targets[j]] == scenes[targets[j]].(audioUrl := Some(AudioUrl(targets[j])))
    ensures forall s :: s in scenes && (forall j :: k <= j < |targets| && targets[j] == s ==> !speech(j)) ==> r[s] == scenes[s]
    decreases |targets| - k
  {
    if k >= |targets| then scenes
    else
      var s := targets[k];
      var next := if speech(k) && s in scenes then scenes[s := scenes[s].(audioUrl := Some(AudioUrl(s)))] else scenes;
      NarrateFrom(next, targets, speech, k + 1)
  }

  /**
   * The background work against the store as it then is: the loop, then
   * `narration_ready`. Each target whose audio was produced gets its URL, a
   * failure at one target never keeps a later one from being narrated, and
   * a scene none of whose attempts succeeded is left as it was. When that final write throws, the handler writes
   * `scenes_ready` instead; `finalWriteThrows` stands for a storage error.
   * A vanished project makes both writes throw, and nothing is written.
   */
  function FinishNarration(st: Store, pid: Id, targets: seq<Id>, speech: nat -> bool, finalWriteThrows: bool): (st': Store)
    ensures st'.images == st.images && st'.clips == st.clips && st'.nextSceneId == st.nextSceneId
    ensures st'.projects.Keys == st.projects.Keys
    ensures pid in st.projects ==>
      st'.projects == st.projects[pid := st.projects[pid].(status :=
        if finalWriteThrows then RolledBack(NarrationStage).value else Finished(NarrationStage))]
    ensures pid !in st.projects ==> st'.projects == st.projects
    ensures st'.scenes.Keys == st.scenes.Keys
    ensures forall s :: s in st.scenes ==>
      && st'.scenes[s].projectId == st.scenes[s].projectId
      && st'.scenes[s].selectedImageId == st.scenes[s].selectedImageId
      && st'.scenes[s].selectedClipId == st.scenes[s].selectedClipId
    ensures forall j :: 0 <= j < |targets| && speech(j) && targets[j] in st.scenes ==>
      st'.scenes[targets[j]] == st.scenes[targets[j]].(audioUrl := Some(AudioUrl(targets[j])))
    ensures forall s :: s in st.scenes && (forall j :: 0 <= j < |targets| && targets[j] == s ==> !speech(j)) ==>
      st'.scenes[s] == st.scenes[s]
  {
    var st1 := st.(scenes := NarrateFrom(st.scenes, targets, speech, 0));
    if pid !in st1.projects then st1
    else if finalWriteThrows then st1.WithStatus(pid, RolledBack(NarrationStage).value)
    else st1.WithStatus(pid, Finished(NarrationStage))
  }

  /** A re-run skips the scenes the first run narrated. */
  lemma RerunSkipsNarrated(st: Store, pid: Id, targets: seq<Id>, speech: nat -> bool, b: bool, j: nat)
    requires j < |targets| && speech(j) && targets[j] in st.scenes
    ensures targets[j] !in NarrationTargets(FinishNarration(st, pid, targets, speech, b), pid)
  {
    var st' := FinishNarration(st, pid, targets, speech, b);
    assert Truthy(st'.scenes[targets[j]].audioUrl);
  }

  lemma StartNarrationPreservesConsistency(st: Store, pid: Id)
    requires Consistent(st)
    ensures Consistent(StartNarration(st, pid).store)
  {
  }

  /** Audio URLs take no part in validity or selection, so the loop keeps the store consistent. */
  lemma FinishNarrationPreservesConsistency(st: Store, pid: Id, targets: seq<Id>, speech: nat -> bool, b: bool)
    requires Consistent(st)
    ensures Consistent(FinishNarration(st, pid, targets, speech, b))
  {
    SceneRewriteConsistent(st, FinishNarration(st, pid, targets, speech, b));
  }

  /**
   * The whole stage on an unchanged store: the status ends `narration_ready`
   * (or `scenes_ready` after a failed final write), never
   * `generating_narration`, and the scene count reported is the project's.
   */
  lemma NarrationStageSettles(st: Store, pid: Id, speech: nat -> bool, b: bool)
    requires pid in st.projects
    ensures var out := StartNarration(st, pid);
      out.body.Ok? ==>
        var st' := FinishNarration(out.store, pid, NarrationTargets(st, pid), speech, b);
        && st'.projects[pid].status == (if b then ScenesReady else NarrationReady)
        && !InProgress(st'.projects[pid].status)
  {
  }
}

=== FILE: objects.dfy ===
/**
 * Property reads on the plain object literals the adapters use as lookup
 * tables (`Record<string, string>`). Besides its own entries, every such
 * object answers the names it inherits from `Object.prototype`: a built-in
 * function, or the prototype object itself for `__proto__`. Either is
 * truthy, and neither is `null` or `undefined`.
 */
module Objects {

  /** The members every plain object inherits from `Object.prototype`. */
  const Prototype: set<string> := {
    "constructor", "__proto__", "__defineGetter__", "__defineSetter__", "__lookupGetter__", "__lookupSetter__",
    "hasOwnProperty", "isPrototypeOf", "propertyIsEnumerable", "toString", "toLocaleString", "valueOf"}

  /** The initials of the inherited names; a table whose keys start otherwise shadows none of them. */
  predicate InheritedInitial(c: char) {
    c == 'c' || c == '_' || c == 'h' || c == 'i' || c == 'p' || c == 't' || c == 'v'
  }

  lemma PrototypeInitials()
    ensures forall k :: k in Prototype ==> |k| > 0 && InheritedInitial(k[0])
  {
  }

  /** Names whose initials are none of theirs are not inherited. */
  lemma KeysApart(keys: set<string>)
    requires forall k :: k in keys ==> |k| > 0 && !InheritedInitial(k[0])
    ensures keys !! Prototype
  {
    PrototypeInitials();
  }

  /**
   * `String(v)` of an inherited member: the prototype object prints as
   * `[object Object]`, the constructor is the function `Object`, and every
   * other member is a native function printed under its own name.
   */
  function NativeText(name: string): (t: string)
    ensures |t| > 0 && (t[0] == 'f' || t[0] == '[')
  {
    if name == "__proto__" then "[object Object]"
    else "function " + (if name == "constructor" then "Object" else name) + "() { [native code] }"
  }

  /** What a property read yields: an own string entry, an inherited member (with its text), or `undefined`. */
  datatype Value = Own(text: string) | Builtin(name: string, text: string) | Undefined
  {
    /** JavaScript truthiness: a function or object is always truthy, a string unless it is empty. */
    predicate Truthy() {
      match this
      case Own(t) => t != ""
      case Builtin(_, _) => true
      case Undefined => false
    }

    /** `String(v)`, as a template literal or a computed property key converts it. */
    function Text(): string {
      match this
      case Own(t) => t
      case Builtin(_, t) => t
      case Undefined => "undefined"
    }
  }

  /** `table[key]` on an object literal. */
  function Get(table: map<string, string>, key: string): (v: Value)
    ensures key in table ==> v == Own(table[key])
    ensures key !in table ==> (v.Undefined? <==> key !in Prototype)
    ensures v.Builtin? ==> v.name == key && v.text == NativeText(key)
    ensures v.Truthy() <==> (key in table && table[key] != "") || (key !in table && key in Prototype)
  {
    if key in table then Own(table[key])
    else if key in Prototype then Builtin(key, NativeText(key))
    else Undefined
  }

  /** `a || b`: the first operand when it is truthy, else the second. */
  function Or(a: Value, b: Value): (v: Value)
    ensures v == a || v == b
    ensures a.Truthy() ==> v == a
    ensures !a.Truthy() ==> v == b
  {
    if a.Truthy() then a else b
  }

  /** `a ?? b`: the first operand unless it is `null` or `undefined`. */
  function Coalesce(a: Value, b: Value): (v: Value)
    ensures a.Undefined? ==> v == b
    ensures !a.Undefined? ==> v == a
  {
    if a.Undefined? then b else a
  }

  /**
   * No inherited member's text is itself an inherited name, so a value read
   * from one lookup and used as the key of another is never found there by
   * inheritance.
   */
  lemma TextsAreNotNames(name: string)
    ensures NativeText(name) !in Prototype
  {
    var t := NativeText(name);
    assert t[0] == 'f' || t[0] == '[';
  }
}

=== FILE: pages.dfy ===
/**
 * The decisions the web client's pages take: the project page's scene
 * index, polling and buttons, the project list's labels, and the create
 * form's validation and request. Timers, React state and the HTTP client
 * are left out; what remains are the predicates and values they act on.
 */
module Pages {
  import opened Outcomes
  import opened Text
  import opened Store
  import opened Pipeline
  import opened Views
  import Projects
  import Scenes

  // ---------------------------------------------------------------------------
  // Project page
  // ---------------------------------------------------------------------------

  /** The page's scene list and the index of the scene on show. */
  datatype SceneCursor = SceneCursor(scenes: seq<Scene>, index: int) {
    predicate InRange() {
      0 <= index < |scenes|
    }

    /** `scenes[currentIndex] ?? null`. */
    function Current(): (c: Option<Scene>)
      ensures c.Some? <==> InRange()
      ensures c.Some? ==> c.value == scenes[index]
    {
      if InRange() then Some(scenes[index]) else None
    }
  }

  /** The left arrow: `Math.max(0, i - 1)`. */
  function Prev(c: SceneCursor): (c': SceneCursor)
    ensures c'.scenes == c.scenes
    ensures c.InRange() ==> c'.InRange()
    ensures c.index >= 0 ==> (c'.index == c.index <==> PrevDisabled(c.index))
  {
    c.(index := if c.index - 1 > 0 then c.index - 1 else 0)
  }

  /** The right arrow: `Math.min(scenes.length - 1, i + 1)`. */
  function Next(c: SceneCursor): (c': SceneCursor)
    ensures c'.scenes == c.scenes
    ensures c.InRange() ==> c'.InRange()
    ensures c.index < |c.scenes| ==> (c'.index == c.index <==> NextDisabled(c.index, |c.scenes|))
  {
    c.(index := if |c.scenes| - 1 < c.index + 1 then |c.scenes| - 1 else c.index + 1)
  }

  /** The right arrow pressed `n` times. */
  function NextTimes(c: SceneCursor, n: nat): SceneCursor {
    if n == 0 then c else Next(NextTimes(c, n - 1))
  }

  /**
   * Pressing the right arrow often enough from any scene reaches the last
   * one, and further presses stay there.
   */
  lemma {:induction false} NextReachesLast(c: SceneCursor, n: nat)
    requires c.InRange()
    ensures NextTimes(c, n).scenes == c.scenes && NextTimes(c, n).InRange()
    ensures NextTimes(c, n).index == if c.index + n < |c.scenes| then c.index + n else |c.scenes| - 1
  {
    if n > 0 {
      NextReachesLast(c, n - 1);
    }
  }

  /** A successful split replaces the scene list and shows the first scene. */
  function AfterSplit(c: SceneCursor, newScenes: seq<Scene>): (c': SceneCursor)
    ensures c'.scenes == newScenes
    ensures newScenes != [] ==> c'.InRange() && c'.Current() == Some(newScenes[0])
    ensures newScenes == [] ==> c'.Current().None?
  {
    SceneCursor(newScenes, 0)
  }

  /** The scene on show before a split may be any of the old ones; after it, whatever the index was, it is the first. */
  lemma SplitForgetsIndex(a: SceneCursor, b: SceneCursor, newScenes: seq<Scene>)
    ensures AfterSplit(a, newScenes) == AfterSplit(b, newScenes)
  {
  }

  /** Media polling: some image or clip of the scene on show is still waiting. */
  predicate MediaPolling(images: seq<Artifact>, clips: seq<Artifact>) {
    (exists k :: 0 <= k < |images| && Waiting(images[k])) || (exists k :: 0 <= k < |clips| && Waiting(clips[k]))
  }

  /**
   * Polling stops only when every image and clip has settled, and a yellow
   * badge, or a grey one over at least one row, always means polling.
   */
  lemma PollingMatchesBadges(images: seq<Artifact>, clips: seq<Artifact>)
    ensures !MediaPolling(images, clips) <==>
      (forall k :: 0 <= k < |images| ==> images[k].status == Completed || images[k].status == Failed) &&
      (forall k :: 0 <= k < |clips| ==> clips[k].status == Completed || clips[k].status == Failed)
    ensures ArtifactBadge(images).tone == Yellow ==> MediaPolling(images, clips)
    ensures images != [] && ArtifactBadge(images).tone == Grey ==> MediaPolling(images, clips)
    ensures ArtifactBadge(clips).tone == Yellow ==> MediaPolling(images, clips)
    ensures clips != [] && ArtifactBadge(clips).tone == Grey ==> MediaPolling(images, clips)
  {
    WaitingMatchesBadge(images);
    WaitingMatchesBadge(clips);
  }

  lemma WaitingMatchesBadge(rows: seq<Artifact>)
    ensures (exists k :: 0 <= k < |rows| && Waiting(rows[k])) <==>
      !(forall k :: 0 <= k < |rows| ==> rows[k].status == Completed || rows[k].status == Failed)
    ensures ArtifactBadge(rows).tone == Yellow ==> exists k :: 0 <= k < |rows| && Waiting(rows[k])
    ensures rows != [] && ArtifactBadge(rows).tone == Grey ==> exists k :: 0 <= k < |rows| && Waiting(rows[k])
  {
    BadgeMeaning(rows);
    if rows != [] && ArtifactBadge(rows).tone == Grey {
      assert Waiting(rows[0]);
    }
  }

  /** Project polling: the loaded project (if any) is splitting or generating images or clips. */
  predicate ProjectPolling(project: Option<ProjectStatus>) {
    project.Some? && (project.value == Splitting || project.value == GeneratingImages || project.value == GeneratingClips)
  }

  /**
   * The page polls the project only while a stage runs, but not for every
   * stage: a running split or image stage is watched, a running narration
   * or render is not.
   */
  lemma ProjectPollingStages(s: ProjectStatus, stage: Stage)
    ensures ProjectPolling(Some(s)) ==> InProgress(s)
    ensures ProjectPolling(Some(Running(stage))) <==> stage == SplitStage || stage == ImageStage
    ensures !ProjectPolling(Some(Finished(stage)))
    ensures RolledBack(stage).Some? ==> !ProjectPolling(Some(RolledBack(stage).value))
  {
  }

  /**
   * The label of the scene on show: `scene_` and its number as text,
   * zero-padded to three characters; no scene reads as number 0.
   */
  function SceneLabel(current: Option<Scene>): (l: string)
    ensures StartsWith(l, "scene_")
    ensures |l| >= 9
  {
    var n := if current.Some? then current.value.sceneNumber else 0;
    "scene_" + PadStart(IntToString(n), 3, '0')
  }

  /** Leading zeros do not change the number a digit string denotes. */
  lemma {:induction false} ParseLeadingZeros(z: nat, s: string)
    requires forall i :: 0 <= i < |s| ==> IsDigit(s[i])
    ensures forall i :: 0 <= i < |Repeat('0', z) + s| ==> IsDigit((Repeat('0', z) + s)[i])
    ensures ParseDigits(Repeat('0', z) + s) == ParseDigits(s)
    decreases |s|
  {
    var t := Repeat('0', z) + s;
    if s == [] {
      assert t == Repeat('0', z);
      ParseZeros(z);
    } else {
      var s' := s[..|s| - 1];
      assert t[..|t| - 1] == Repeat('0', z) + s';
      ParseLeadingZeros(z, s');
    }
  }

  lemma {:induction false} ParseZeros(z: nat)
    ensures ParseDigits(Repeat('0', z)) == 0
  {
    if z > 0 {
      var r := Repeat('0', z);
      assert r[..z - 1] == Repeat('0', z - 1);
      ParseZeros(z - 1);
    }
  }

  /** Leading `0`s dropped, keeping at least one character: how the number reads back from its padded form. */
  function StripZeros(s: string): (r: string)
    ensures |r| <= |s| && r == s[|s| - |r|..]
  {
    if |s| > 1 && s[0] == '0' then StripZeros(s[1..]) else s
  }

  /** The scene number a label spells, read back through its zero padding and optional sign. */
  function ReadLabel(l: string): Option<int> {
    if StartsWith(l, "scene_") then ParseInt(StripZeros(l[6..])) else None
  }

  lemma {:induction false} StripPadding(z: nat, s: string)
    requires s != [] && (s[0] != '0' || |s| == 1)
    ensures StripZeros(Repeat('0', z) + s) == s
  {
    if z > 0 {
      var t := Repeat('0', z) + s;
      assert t[1..] == Repeat('0', z - 1) + s;
      StripPadding(z - 1, s);
    } else {
      assert Repeat('0', z) + s == s;
    }
  }

  /**
   * The label keeps the whole scene number, sign included (`-5` shows as
   * `scene_0-5`): reading it back gives the number. A number that is not
   * negative leaves only digits after `scene_`, and numbers from -99 to
   * 999 give labels of one length.
   */
  lemma SceneLabelRoundTrip(scene: Scene)
    ensures var l := SceneLabel(Some(scene));
      && ReadLabel(l) == Some(scene.sceneNumber)
      && (scene.sceneNumber >= 0 ==>
            (forall i :: 6 <= i < |l| ==> IsDigit(l[i])) && ParseDigits(l[6..]) == scene.sceneNumber)
      && (-99 <= scene.sceneNumber < 1000 ==> |l| == 9)
  {
    var n := scene.sceneNumber;
    var l := SceneLabel(Some(scene));
    var z := LabelShape(IntToString(n), l);
    LabelReadsBack(n, z, l);
    if n >= 0 {
      LabelDigits(n, z, l);
    }
    if -99 <= n < 1000 {
      SignedShort(n);
    }
  }

  /** The label is `scene_`, some padding zeros, then the number as `String` prints it. */
  lemma LabelShape(d: string, l: string) returns (z: nat)
    requires l == "scene_" + PadStart(d, 3, '0')
    ensures l == "scene_" + Repeat('0', z) + d
    ensures |d| <= 3 ==> |l| == 9
  {
    var p := PadStart(d, 3, '0');
    z := |p| - |d|;
    PadShape(d, 3, '0');
    Assoc("scene_", Repeat('0', z), d);
  }

  lemma PadShape(s: string, width: nat, c: char)
    ensures PadStart(s, width, c) == Repeat(c, |PadStart(s, width, c)| - |s|) + s
  {
    if |s| >= width {
      assert Repeat(c, 0) + s == s;
    }
  }

  lemma LabelDigits(n: nat, z: nat, l: string)
    requires l == "scene_" + Repeat('0', z) + NatToString(n)
    ensures forall i :: 6 <= i < |l| ==> IsDigit(l[i])
    ensures ParseDigits(l[6..]) == n
  {
    assert l[6..] == Repeat('0', z) + NatToString(n);
    ParseLeadingZeros(z, NatToString(n));
    NatToStringRoundTrip(n);
  }

  lemma LabelReadsBack(n: int, z: nat, l: string)
    requires l == "scene_" + Repeat('0', z) + IntToString(n)
    ensures ReadLabel(l) == Some(n)
  {
    assert StartsWith(l, "scene_") && l[6..] == Repeat('0', z) + IntToString(n);
    StripPadding(z, IntToString(n));
    IntToStringRoundTrip(n);
  }

  lemma SignedShort(n: int)
    requires -99 <= n < 1000
    ensures |IntToString(n)| <= 3
  {
    if n >= 0 {
      NatToStringShort(n);
    } else {
      var m := -n;
      if m >= 10 {
        assert NatToString(m) == NatToString(m / 10) + [DigitChar(m % 10)];
        assert |NatToString(m / 10)| == 1;
      }
    }
  }

  lemma {:induction false} NatToStringShort(n: nat)
    requires n < 1000
    ensures |NatToString(n)| <= 3
  {
    if n >= 10 {
      NatToStringShort(n / 10);
      if n / 10 >= 10 {
        assert n / 10 / 10 < 10;
      }
    }
  }

  /** The images tab's per-scene button shows only while the scene has no images. */
  predicate ShowImagesButton(images: seq<Artifact>) {
    |images| == 0
  }

  /** The clips tab's button: the scene on show has a truthy selected image id and no clips. */
  predicate ShowClipsButton(current: Option<Scene>, clips: seq<Artifact>) {
    current.Some? && TruthyId(current.value.selectedImageId) && |clips| == 0
  }

  /**
   * In a consistent store, when the clips button shows for a scene the
   * route it calls refuses with the no-selected-image message exactly
   * when the selected image has no URL yet.
   */
  lemma ClipsButtonMeetsRoute(st: Store, s: Id, clips: seq<Artifact>, generated: Result<string>)
    requires Consistent(st) && s in st.scenes
    requires ShowClipsButton(Some(st.scenes[s]), clips)
    ensures var sel := st.scenes[s].selectedImageId.value;
      sel in st.images.rows &&
      (Scenes.GenerateSceneClips(st, s, generated).body == Err(Invalid(Scenes.NoSelectedImageMessage)) <==>
        !Truthy(st.images.rows[sel].url))
  {
    FirstSelectedIsBackRef(st, ImageKind, s);
    assert SelectionAgrees(st.scenes, st.images.rows, ImageKind);
  }

  /** `status.replace(/_/g, " ")`: the status as the pages print it. */
  function StatusLabel(s: ProjectStatus): (l: string)
    ensures |l| == |s.Name()|
    ensures '_' !in l
  {
    ReplaceAll(s.Name(), '_', ' ')
  }

  /** No two statuses print alike. */
  lemma StatusLabelInjective(a: ProjectStatus, b: ProjectStatus)
    requires StatusLabel(a) == StatusLabel(b)
    ensures a == b
  {
    NameHasNoSpace(a);
    NameHasNoSpace(b);
    ReplaceAllInjective(a.Name(), b.Name(), '_', ' ');
    NameInjective(a, b);
  }

  lemma NameHasNoSpace(s: ProjectStatus)
    ensures ' ' !in s.Name()
  {
  }

  /** The length and first letter of a status's name; they tell every status apart. */
  function Signature(s: ProjectStatus): (nat, char) {
    match s
    case Draft => (5, 'd')
    case Splitting => (9, 's')
    case ScenesReady => (12, 's')
    case GeneratingImages => (17, 'g')
    case ImagesReady => (12, 'i')
    case GeneratingClips => (16, 'g')
    case ClipsReady => (11, 'c')
    case GeneratingNarration => (20, 'g')
    case NarrationReady => (15, 'n')
    case Rendering => (9, 'r')
    case Rendered => (8, 'r')
  }

  lemma NameInjective(a: ProjectStatus, b: ProjectStatus)
    requires a.Name() == b.Name()
    ensures a == b
  {
    assert Signature(a) == (|a.Name()|, a.Name()[0]);
    assert Signature(b) == (|b.Name()|, b.Name()[0]);
  }

  // ---------------------------------------------------------------------------
  // Project list
  // ---------------------------------------------------------------------------

  const FallbackColor := "text-gray-400"

  /**
   * The status colour from the page's table; the statuses the table does
   * not list (the narration and render ones) fall back to grey.
   */
  function StatusColor(s: ProjectStatus): (c: string)
    ensures s.GeneratingNarration? || s.NarrationReady? || s.Rendering? || s.Rendered? ==> c == FallbackColor
  {
    match s
    case Draft => "text-gray-400"
    case Splitting => "text-yellow-400"
    case ScenesReady => "text-blue-400"
    case GeneratingImages => "text-yellow-400"
    case ImagesReady => "text-green-400"
    case GeneratingClips => "text-yellow-400"
    case ClipsReady => "text-green-400"
    case _ => FallbackColor
  }

  /**
   * The list paints a project yellow exactly when the project page would
   * poll it; a running narration or render is painted grey, like a draft.
   */
  lemma YellowMeansPolled(s: ProjectStatus)
    ensures StatusColor(s) == "text-yellow-400" <==> ProjectPolling(Some(s))
    ensures InProgress(s) && !ProjectPolling(Some(s)) ==> StatusColor(s) == StatusColor(Draft)
  {
  }

  /** `<n> scene`, with an `s` unless `n` is 1. */
  function CountText(n: nat): (t: string)
    ensures StartsWith(t, NatToString(n))
  {
    NatToString(n) + " scene" + (if n != 1 then "s" else "")
  }

  /**
   * The text names the count it was given, and is plural exactly when
   * that count is not one.
   */
  lemma CountTextMeaning(n: nat)
    ensures var t := CountText(n);
      && (t[|t| - 1] == 's' <==> n != 1)
      && (forall i :: 0 <= i < |NatToString(n)| ==> IsDigit(t[i]))
      && ParseDigits(t[..|NatToString(n)|]) == n
  {
    var t := CountText(n);
    assert t[..|NatToString(n)|] == NatToString(n);
    NatToStringRoundTrip(n);
  }

  /** A row of `GET /projects`: the project's fields and its scene count; the route includes no scene list. */
  datatype ListedProject = ListedProject(id: Id, title: string, status: ProjectStatus, sceneCount: nat, scenes: Option<seq<Scene>>)

  /** The row the list route sends for one project, `_count.scenes` as `sceneCount`. */
  function ListedRow(st: Store, pid: Id): (p: ListedProject)
    requires pid in st.projects
    ensures p.id == pid && p.title == st.projects[pid].title && p.status == st.projects[pid].status
    ensures p.scenes.None?
  {
    ListedProject(pid, st.projects[pid].title, st.projects[pid].status, |ProjectScenes(st, pid)|, None)
  }

  /** In a valid store the row's `sceneCount` is the number of the project's scenes. */
  lemma ListedCountIsSceneCount(st: Store, pid: Id)
    requires Valid(st) && pid in st.projects
    ensures ListedRow(st, pid).sceneCount == |set s | s in st.scenes && st.scenes[s].projectId == pid|
  {
    var order := ProjectScenes(st, pid);
    var owned := set s | s in st.scenes && st.scenes[s].projectId == pid;
    forall s | s in owned
      ensures s in order
    {
      ProjectScenesComplete(st, pid, s);
    }
    assert (set x: Id | x in order) == owned;
    DistinctCard(order);
  }

  /** A sequence without repeats has as many elements as its set. */
  lemma {:induction false} DistinctCard(r: seq<Id>)
    requires forall i, j :: 0 <= i < j < |r| ==> r[i] != r[j]
    ensures |set x: Id | x in r| == |r|
  {
    if r == [] {
      assert (set x: Id | x in r) == {};
    } else {
      var rest := r[1..];
      DistinctCard(rest);
      var a := set x: Id | x in rest;
      assert r[0] !in a by {
        forall k | 0 <= k < |rest|
          ensures rest[k] != r[0]
        {
          assert rest[k] == r[k + 1];
        }
      }
      assert forall x :: x in r <==> x == r[0] || x in rest;
      assert (set x: Id | x in r) == a + {r[0]};
      assert |a + {r[0]}| == |a| + 1;
    }
  }

  /** What the list prints under a project: the length of a scene list that the row never has. */
  function SceneCountText(p: ListedProject): (t: string)
    ensures p.scenes.None? ==> t == "0 scenes"
  {
    CountText(if p.scenes.Some? then |p.scenes.value| else 0)
  }

  /** The count the list should print: the row's own `sceneCount`. */
  function ListedCountText(p: ListedProject): (t: string)
    ensures StartsWith(t, NatToString(p.sceneCount))
    ensures t[|t| - 1] == 's' <==> p.sceneCount != 1
  {
    CountTextMeaning(p.sceneCount);
    CountText(p.sceneCount)
  }

  /**
   * As the list is written, every project reads "0 scenes": for a project
   * that has scenes the printed count disagrees with the row's count.
   */
  lemma ListShowsZeroScenes(st: Store, pid: Id)
    requires pid in st.projects && ProjectScenes(st, pid) != []
    ensures SceneCountText(ListedRow(st, pid)) == "0 scenes"
    ensures SceneCountText(ListedRow(st, pid)) != ListedCountText(ListedRow(st, pid))
  {
    var n := ListedRow(st, pid).sceneCount;
    var t := ListedCountText(ListedRow(st, pid));
    assert n > 0;
    assert t[0] == NatToString(n)[0] != '0';
  }

  /** A store with one project and one scene, the smallest input that shows the wrong count. */
  lemma OneSceneListedAsZero(cfg: Config, sc: Scene)
    requires sc.projectId == 1
    ensures var st := EmptyStore.(projects := map[1 := Project("t", "s", ScenesReady, cfg)], nextProjectId := 2,
                                  scenes := map[1 := sc], nextSceneId := 2);
      && ListedRow(st, 1).sceneCount == 1
      && SceneCountText(ListedRow(st, 1)) == "0 scenes"
      && ListedCountText(ListedRow(st, 1)) == "1 scene"
  {
    var st := EmptyStore.(projects := map[1 := Project("t", "s", ScenesReady, cfg)], nextProjectId := 2,
                          scenes := map[1 := sc], nextSceneId := 2);
    assert ScenesOf(st.scenes, 1, 1) == [];
    assert ScenesOf(st.scenes, 1, 2) == [1];
  }

  /** The empty state shows once loading is over, with no error and no projects. */
  predicate ShowEmptyState(loading: bool, error: Option<string>, projects: nat) {
    !loading && !Truthy(error) && projects == 0
  }

  // ---------------------------------------------------------------------------
  // Create form
  // ---------------------------------------------------------------------------

  datatype VideoFormat = Landscape | Portrait {
    function Name(): string {
      match this
      case Landscape => "16:9"
      case Portrait => "9:16"
    }
  }

  /** The form's fields; a fresh form is empty, landscape and idle. */
  datatype Form = Form(title: string, scriptContent: string, format: VideoFormat, submitting: bool)

  const InitialForm := Form("", "", Landscape, false)

  /** The body of the create request: trimmed texts and a config naming only the format. */
  datatype CreateRequest = CreateRequest(title: string, scriptContent: string, format: string)

  /** The config patch a create request carries: `format` and no other key. */
  function RequestPatch(r: CreateRequest): (p: ConfigPatch)
    ensures p == EmptyPatch.(format := Some(Some(r.format)))
  {
    EmptyPatch.(format := Some(Some(r.format)))
  }

  /**
   * The submit handler: nothing when either field is blank after trimming,
   * otherwise the request with both fields trimmed.
   */
  function Submit(f: Form): (r: Option<CreateRequest>)
    ensures r.None? <==> Trim(f.title) == "" || Trim(f.scriptContent) == ""
    ensures r.Some? ==> r.value == CreateRequest(Trim(f.title), Trim(f.scriptContent), f.format.Name())
  {
    var title := Trim(f.title);
    var script := Trim(f.scriptContent);
    if title == "" || script == "" then None
    else Some(CreateRequest(title, script, f.format.Name()))
  }

  predicate SubmitDisabled(f: Form) {
    f.submitting || Trim(f.title) == "" || Trim(f.scriptContent) == ""
  }

  /** An enabled button always sends a request, and a fresh form's button is disabled. */
  lemma EnabledButtonSends(f: Form)
    ensures !SubmitDisabled(f) ==> Submit(f).Some?
    ensures SubmitDisabled(InitialForm)
  {
  }

  /**
   * Whatever the form sends, the server's create route accepts: the new
   * project keeps the trimmed title and script, starts as a draft, and its
   * config is the defaults with the chosen format.
   */
  lemma SubmittedFormIsCreated(st: Store, f: Form, defaults: Config)
    requires Submit(f).Some?
    ensures var r := Submit(f).value;
      var out := Projects.CreateProject(st, Some(r.title), Some(r.scriptContent), RequestPatch(r), defaults);
      && out.body.Ok?
      && out.store.projects[out.body.value] == Project(Trim(f.title), Trim(f.scriptContent), Draft,
           defaults.(format := Some(f.format.Name())))
  {
    var r := Submit(f).value;
    var c := Projects.MergeConfig(defaults, RequestPatch(r));
    assert c == defaults.(format := Some(f.format.Name()));
  }

  /** Where a successful create navigates: `/projects/<id>`. */
  function ProjectPath(id: Id): (p: string)
    ensures StartsWith(p, "/projects/")
  {
    "/projects/" + NatToString(id)
  }

  /** Distinct projects have distinct pages. */
  lemma ProjectPathInjective(a: Id, b: Id)
    requires ProjectPath(a) == ProjectPath(b)
    ensures a == b
  {
    assert ProjectPath(a)[10..] == NatToString(a);
    assert ProjectPath(b)[10..] == NatToString(b);
    NatToStringInjective(a, b);
  }
}

=== FILE: paths.dfy ===
/**
 * The parts of Node's POSIX `path` module the upload helper relies on:
 * `join`, `resolve` and `extname`, over `/`-separated strings. `join` and
 * `resolve` normalise their result: empty and `.` segments vanish, and a
 * `..` segment removes the segment before it.
 */
module Paths {
  import opened Text

  // ---------------------------------------------------------------------------
  // Segments
  // ---------------------------------------------------------------------------

  /** The position of the last `c` is pinned down by its two defining facts. */
  lemma LastIndexOfIs(s: string, c: char, q: int)
    requires q == -1 || (0 <= q < |s| && s[q] == c)
    requires forall j :: q < j < |s| ==> s[j] != c
    ensures LastIndexOf(s, c) == q
  {
  }

  /** `p.split("/")`: the pieces between slashes, empty ones included. */
  function Segments(p: string): (r: seq<string>)
    ensures |r| >= 1
    ensures forall k :: 0 <= k < |r| ==> '/' !in r[k]
    decreases |p|
  {
    var i := LastIndexOf(p, '/');
    if i < 0 then [p]
    else
      var last := p[i + 1..];
      assert forall j :: 0 <= j < |last| ==> last[j] == p[i + 1 + j];
      Segments(p[..i]) + [last]
  }

  /** `segs.join("/")`. */
  function Join(segs: seq<string>): string {
    if segs == [] then []
    else if |segs| == 1 then segs[0]
    else Join(segs[..|segs| - 1]) + "/" + segs[|segs| - 1]
  }

  /** Splitting and joining again gives the path back. */
  lemma {:induction false} JoinSegments(p: string)
    ensures Join(Segments(p)) == p
    decreases |p|
  {
    var i := LastIndexOf(p, '/');
    if i >= 0 {
      var init := Segments(p[..i]);
      JoinSegments(p[..i]);
      assert Segments(p) == init + [p[i + 1..]];
      assert (init + [p[i + 1..]])[..|init|] == init;
      assert p == p[..i] + "/" + p[i + 1..];
    }
  }

  /** Joining slash-free pieces and splitting again gives the pieces back. */
  lemma {:induction false} SegmentsJoin(segs: seq<string>)
    requires |segs| >= 1 && forall k :: 0 <= k < |segs| ==> '/' !in segs[k]
    ensures Segments(Join(segs)) == segs
    decreases |segs|
  {
    if |segs| == 1 {
      LastIndexOfIs(segs[0], '/', -1);
    } else {
      var init := segs[..|segs| - 1];
      var last := segs[|segs| - 1];
      SegmentsJoin(init);
      SegmentsOfSlashFree(Join(init), last);
      assert init + [last] == segs;
    }
  }

  /** A slash-free last piece is split off as the last segment. */
  lemma SegmentsOfSlashFree(a: string, b: string)
    requires '/' !in b
    ensures Segments(a + "/" + b) == Segments(a) + [b]
  {
    var p := a + "/" + b;
    assert p[|a|] == '/';
    assert forall j :: |a| < j < |p| ==> p[j] == b[j - |a| - 1];
    LastIndexOfIs(p, '/', |a|);
    assert p[..|a|] == a && p[|a| + 1..] == b;
  }

  /** Splitting a path made of two parts gives the segments of each. */
  lemma {:induction false} SegmentsOfJoined(a: string, b: string)
    ensures Segments(a + "/" + b) == Segments(a) + Segments(b)
    decreases |b|
  {
    var i := LastIndexOf(b, '/');
    if i < 0 {
      SegmentsOfSlashFree(a, b);
    } else {
      SplitAtLast(a, b, i);
      SegmentsOfJoined(a, b[..i]);
      assert Segments(b) == Segments(b[..i]) + [b[i + 1..]];
    }
  }

  /** The last `/` of `b` is the last `/` of `a/b`. */
  lemma SplitAtLast(a: string, b: string, i: int)
    requires i == LastIndexOf(b, '/') && i >= 0
    ensures Segments(a + "/" + b) == Segments(a + "/" + b[..i]) + [b[i + 1..]]
  {
    var p := a + "/" + b;
    var q := |a| + 1 + i;
    assert p[q] == '/';
    assert forall j :: q < j < |p| ==> p[j] == b[j - |a| - 1];
    LastIndexOfIs(p, '/', q);
    assert p[..q] == a + "/" + b[..i];
    assert p[q + 1..] == b[i + 1..];
  }

  /** Joining two non-empty runs of pieces puts one `/` between them. */
  lemma {:induction false} JoinAppend(a: seq<string>, b: seq<string>)
    requires a != [] && b != []
    ensures Join(a + b) == Join(a) + "/" + Join(b)
    decreases |b|
  {
    var ab := a + b;
    if |b| == 1 {
      assert ab[..|ab| - 1] == a;
    } else {
      var init := b[..|b| - 1];
      JoinAppend(a, init);
      assert ab[..|ab| - 1] == a + init;
    }
  }

  // ---------------------------------------------------------------------------
  // Normalisation
  // ---------------------------------------------------------------------------

  /** A segment that names a file or directory: not empty, not `.` and not `..`. */
  predicate Ordinary(seg: string) {
    seg != "" && seg != "." && seg != ".."
  }

  /**
   * What normalisation can leave: no empty or `.` segment, and `..` only in
   * a leading run, and only when the path may climb above its start.
   */
  predicate Resolved(r: seq<string>, aboveRoot: bool) {
    forall k :: 0 <= k < |r| ==>
      && r[k] != "" && r[k] != "." && '/' !in r[k]
      && (r[k] == ".." ==> aboveRoot && forall j :: 0 <= j < k ==> r[j] == "..")
  }

  /** One segment of the scan: `.` and empty ones are skipped, and `..` drops the last named segment. */
  function Step(kept: seq<string>, seg: string, aboveRoot: bool): seq<string> {
    if seg == "" || seg == "." then kept
    else if seg == ".." then
      if kept != [] && kept[|kept| - 1] != ".." then kept[..|kept| - 1]
      else if aboveRoot then kept + [".."]
      else kept
    else kept + [seg]
  }

  /** The scan over `segs`, starting from the segments already kept. */
  function ResolveOnto(kept: seq<string>, segs: seq<string>, aboveRoot: bool): seq<string>
    decreases |segs|
  {
    if segs == [] then kept
    else Step(ResolveOnto(kept, segs[..|segs| - 1], aboveRoot), segs[|segs| - 1], aboveRoot)
  }

  /** `normalizeString`: the segments a path normalises to. */
  function Resolve(segs: seq<string>, aboveRoot: bool): seq<string> {
    ResolveOnto([], segs, aboveRoot)
  }

  lemma StepResolved(kept: seq<string>, seg: string, aboveRoot: bool)
    requires Resolved(kept, aboveRoot) && '/' !in seg
    ensures Resolved(Step(kept, seg, aboveRoot), aboveRoot)
  {
    if seg == ".." && !(kept != [] && kept[|kept| - 1] != "..") && aboveRoot && kept != [] {
      var r := kept + [".."];
      forall k | 0 <= k < |r| && r[k] == ".."
        ensures forall j :: 0 <= j < k ==> r[j] == ".."
      {
        if k < |kept| {
        } else {
          assert kept[|kept| - 1] == "..";
        }
      }
    }
  }

  /** Whatever the input, the scan leaves a normalised run of segments. */
  lemma {:induction false} ResolveOntoResolved(kept: seq<string>, segs: seq<string>, aboveRoot: bool)
    requires Resolved(kept, aboveRoot)
    requires forall k :: 0 <= k < |segs| ==> '/' !in segs[k]
    ensures Resolved(ResolveOnto(kept, segs, aboveRoot), aboveRoot)
    decreases |segs|
  {
    if segs != [] {
      ResolveOntoResolved(kept, segs[..|segs| - 1], aboveRoot);
      StepResolved(ResolveOnto(kept, segs[..|segs| - 1], aboveRoot), segs[|segs| - 1], aboveRoot);
    }
  }

  /** Scanning two runs one after the other is scanning their concatenation. */
  lemma {:induction false} ResolveAppend(kept: seq<string>, a: seq<string>, b: seq<string>, aboveRoot: bool)
    ensures ResolveOnto(kept, a + b, aboveRoot) == ResolveOnto(ResolveOnto(kept, a, aboveRoot), b, aboveRoot)
    decreases |b|
  {
    if b == [] {
      assert a + b == a;
    } else {
      var ab := a + b;
      assert ab[..|ab| - 1] == a + b[..|b| - 1] && ab[|ab| - 1] == b[|b| - 1];
      ResolveAppend(kept, a, b[..|b| - 1], aboveRoot);
    }
  }

  /** Ordinary segments are kept as they are. */
  lemma {:induction false} ResolveOrdinary(kept: seq<string>, segs: seq<string>, aboveRoot: bool)
    requires forall k :: 0 <= k < |segs| ==> Ordinary(segs[k])
    ensures ResolveOnto(kept, segs, aboveRoot) == kept + segs
    decreases |segs|
  {
    if segs != [] {
      var init := segs[..|segs| - 1];
      ResolveOrdinary(kept, init, aboveRoot);
      assert kept + init + [segs[|segs| - 1]] == kept + segs;
    }
  }

  /** A normalised run normalises to itself. */
  lemma {:induction false} ResolveIdempotent(r: seq<string>, aboveRoot: bool)
    requires Resolved(r, aboveRoot)
    ensures Resolve(r, aboveRoot) == r
    decreases |r|
  {
    if r != [] {
      var init := r[..|r| - 1];
      assert Resolved(init, aboveRoot);
      ResolveIdempotent(init, aboveRoot);
      if r[|r| - 1] == ".." {
        assert init == [] || init[|init| - 1] == "..";
      }
      assert init + [r[|r| - 1]] == r;
    }
  }

  /** `path.normalize`: the normalised segments, the leading `/` and a trailing `/` kept. */
  function Normalize(p: string): (r: string)
    ensures r != []
  {
    if p == [] then "."
    else
      var absolute := p[0] == '/';
      var trailing := p[|p| - 1] == '/';
      var body := Join(Resolve(Segments(p), !absolute));
      if body == [] then (if absolute then "/" else if trailing then "./" else ".")
      else
        var b := if trailing then body + "/" else body;
        if absolute then "/" + b else b
  }

  /** `path.join(a, b)`: the non-empty arguments joined with `/`, then normalised. */
  function JoinPath(a: string, b: string): (r: string)
    ensures r != []
  {
    Normalize(if a == [] then b else if b == [] then a else a + "/" + b)
  }

  /**
   * `path.resolve(p)` from the working directory `cwd`: an absolute `p`
   * stands alone, a relative one is put under `cwd`; the result is
   * normalised and never ends with `/` unless it is the root.
   */
  function ResolvePath(p: string, cwd: string): (r: string)
    ensures r != []
    ensures StartsWith(p, "/") || (p != [] && StartsWith(cwd, "/")) ==> r[0] == '/'
  {
    var joined := if StartsWith(p, "/") then p else if p == [] then cwd else if cwd == [] then p else cwd + "/" + p;
    var absolute := StartsWith(joined, "/");
    var body := Join(Resolve(Segments(joined), !absolute));
    if absolute then "/" + body else if body != [] then body else "."
  }

  /**
   * `p` is a normalised path with segments `segs`: relative, or absolute
   * with one leading `/`, no trailing `/`, at least one segment.
   */
  predicate NormalForm(p: string, segs: seq<string>) {
    && segs != [] && Resolved(segs, !StartsWith(p, "/"))
    && (p == Join(segs) || p == "/" + Join(segs))
  }

  /** The last character of a join is the last character of its last piece. */
  lemma JoinEnds(segs: seq<string>)
    requires segs != [] && segs[|segs| - 1] != []
    ensures Join(segs) != [] && Join(segs)[|Join(segs)| - 1] == segs[|segs| - 1][|segs[|segs| - 1]| - 1]
  {
  }

  /** The first character of a join is the first character of its first piece. */
  lemma {:induction false} JoinStarts(segs: seq<string>)
    requires segs != [] && segs[0] != []
    ensures Join(segs) != [] && Join(segs)[0] == segs[0][0]
    decreases |segs|
  {
    if |segs| > 1 {
      JoinStarts(segs[..|segs| - 1]);
    }
  }

  /** A normalised path splits and normalises back to its own segments. */
  lemma NormalSegments(p: string, segs: seq<string>)
    requires NormalForm(p, segs)
    ensures Resolve(Segments(p), !StartsWith(p, "/")) == segs
  {
    var aboveRoot := !StartsWith(p, "/");
    ResolveIdempotent(segs, aboveRoot);
    SegmentsJoin(segs);
    if p != Join(segs) {
      RootedSegments(Join(segs), segs, aboveRoot);
    }
  }

  lemma RootedSegments(body: string, segs: seq<string>, aboveRoot: bool)
    requires Segments(body) == segs
    ensures Resolve(Segments("/" + body), aboveRoot) == Resolve(segs, aboveRoot)
  {
    var e: string := [];
    assert "/" + body == e + "/" + body;
    SegmentsOfJoined(e, body);
    assert Segments(e) == [e];
    assert ResolveOnto([], [e], aboveRoot) == [];
    ResolveAppend([], [e], segs, aboveRoot);
  }

  /** What a normalised path followed by ordinary names normalises to: the segments of both. */
  lemma NormalThenNames(p: string, segs: seq<string>, names: seq<string>)
    requires NormalForm(p, segs)
    requires names != [] && forall k :: 0 <= k < |names| ==> Ordinary(names[k]) && '/' !in names[k]
    ensures Resolve(Segments(p + "/" + Join(names)), !StartsWith(p, "/")) == segs + names
  {
    var aboveRoot := !StartsWith(p, "/");
    SegmentsOfJoined(p, Join(names));
    SegmentsJoin(names);
    NormalSegments(p, segs);
    ResolveAppend([], Segments(p), names, aboveRoot);
    ResolveOrdinary(segs, names, aboveRoot);
  }

  /** Joining a normalised path with ordinary names just puts a `/` between them. */
  lemma JoinNormal(p: string, segs: seq<string>, names: seq<string>)
    requires NormalForm(p, segs)
    requires names != [] && forall k :: 0 <= k < |names| ==> Ordinary(names[k]) && '/' !in names[k]
    ensures JoinPath(p, Join(names)) == p + "/" + Join(names)
  {
    var n := Join(names);
    NormalThenNames(p, segs, names);
    JoinStarts(segs);
    var last := names[|names| - 1];
    assert last[|last| - 1] in last;
    JoinEnds(names);
    JoinAppend(segs, names);
    JoinNormalCore(p, Join(segs), n, segs + names);
  }

  lemma JoinNormalCore(p: string, body: string, n: string, segs: seq<string>)
    requires p == body || p == "/" + body
    requires body != [] && body[0] != '/'
    requires n != [] && n[|n| - 1] != '/'
    requires Resolve(Segments(p + "/" + n), !StartsWith(p, "/")) == segs
    requires Join(segs) == body + "/" + n
    ensures JoinPath(p, n) == p + "/" + n
  {
    JoinedNormalizes(p, n, segs);
    Rebase(p, body, n, Join(segs));
  }

  /** Putting the root back in front of a rootless body rebuilds the path it came from. */
  lemma Rebase(p: string, body: string, n: string, j: string)
    requires p == body || p == "/" + body
    requires body != [] && body[0] != '/'
    requires j == body + "/" + n
    ensures (if StartsWith(p, "/") then "/" + j else j) == p + "/" + n
  {
    if p != body {
      assert "/" + (body + "/" + n) == p + "/" + n;
    }
  }

  lemma JoinedNormalizes(p: string, n: string, segs: seq<string>)
    requires p != [] && n != [] && n[|n| - 1] != '/'
    requires Resolve(Segments(p + "/" + n), !StartsWith(p, "/")) == segs && Join(segs) != []
    ensures JoinPath(p, n) == if StartsWith(p, "/") then "/" + Join(segs) else Join(segs)
  {
    ConcatEnds(p, n);
    assert StartsWith(p, "/") <==> p[0] == '/';
    NormalizeUnfold(p + "/" + n, segs);
  }

  lemma ConcatEnds(a: string, b: string)
    requires a != [] && b != []
    ensures (a + "/" + b)[0] == a[0] && (a + "/" + b)[|a + "/" + b| - 1] == b[|b| - 1]
  {
  }

  /** `normalize` of a path without a trailing `/` whose segments normalise to a non-empty run. */
  lemma NormalizeUnfold(p: string, segs: seq<string>)
    requires p != [] && p[|p| - 1] != '/'
    requires Resolve(Segments(p), p[0] != '/') == segs && Join(segs) != []
    ensures Normalize(p) == if p[0] == '/' then "/" + Join(segs) else Join(segs)
  {
  }

  /** A normalised path followed by ordinary names is still normalised, and `join` leaves it alone. */
  lemma ExtendNormal(p: string, segs: seq<string>, names: seq<string>)
    requires NormalForm(p, segs)
    requires names != [] && forall k :: 0 <= k < |names| ==> Ordinary(names[k]) && '/' !in names[k]
    ensures JoinPath(p, Join(names)) == p + "/" + Join(names)
    ensures NormalForm(p + "/" + Join(names), segs + names)
  {
    JoinNormal(p, segs, names);
    FirstSegment(segs, !StartsWith(p, "/"));
    JoinAppend(segs, names);
    RootedConcat(p, Join(segs), Join(names), Join(segs + names));
    ResolvedThenNames(segs, names, !StartsWith(p, "/"));
  }

  /** The first piece of a normalised run does not start with `/`, so neither does the join. */
  lemma FirstSegment(segs: seq<string>, aboveRoot: bool)
    requires segs != [] && Resolved(segs, aboveRoot)
    ensures Join(segs) != [] && Join(segs)[0] != '/'
  {
    assert segs[0][0] in segs[0];
    JoinStarts(segs);
  }

  /** Appending ordinary names keeps a run normalised. */
  lemma ResolvedThenNames(segs: seq<string>, names: seq<string>, aboveRoot: bool)
    requires Resolved(segs, aboveRoot)
    requires forall k :: 0 <= k < |names| ==> Ordinary(names[k]) && '/' !in names[k]
    ensures Resolved(segs + names, aboveRoot)
  {
    var all := segs + names;
    forall k | 0 <= k < |all|
      ensures && all[k] != "" && all[k] != "." && '/' !in all[k]
              && (all[k] == ".." ==> aboveRoot && forall j :: 0 <= j < k ==> all[j] == "..")
    {
      if k >= |segs| {
        assert all[k] == names[k - |segs|];
      }
    }
  }

  /** Appending to a path with or without its root keeps the root as it was. */
  lemma RootedConcat(p: string, body: string, n: string, j: string)
    requires p == body || p == "/" + body
    requires body != [] && body[0] != '/'
    requires j == body + "/" + n
    ensures p + "/" + n == j || p + "/" + n == "/" + j
    ensures StartsWith(p + "/" + n, "/") == StartsWith(p, "/")
    ensures StartsWith(p, "/") <==> p != body
  {
    if p != body {
      assert p + "/" + n == "/" + j;
    }
  }

  /**
   * A `..` right after the last segment of a normalised path cancels it:
   * `join(q + "/" + last, "../" + names)` is `q + "/" + names`.
   */
  lemma ClimbOne(q: string, segs: seq<string>, last: string, names: seq<string>)
    requires NormalForm(q, segs)
    requires Ordinary(last) && '/' !in last
    requires names != [] && forall k :: 0 <= k < |names| ==> Ordinary(names[k]) && '/' !in names[k]
    ensures JoinPath(q + "/" + last, ".." + "/" + Join(names)) == q + "/" + Join(names)
  {
    ClimbSegments(q, segs, last, names);
    FirstSegment(segs, !StartsWith(q, "/"));
    var lastName := names[|names| - 1];
    assert lastName[|lastName| - 1] in lastName;
    JoinEnds(names);
    JoinAppend(segs, names);
    ClimbCore(q, Join(segs), last, Join(names), segs + names);
  }

  lemma ClimbCore(q: string, body: string, last: string, n: string, segs: seq<string>)
    requires q == body || q == "/" + body
    requires body != [] && body[0] != '/'
    requires n != [] && n[|n| - 1] != '/'
    requires Resolve(Segments(q + "/" + last + "/" + (".." + "/" + n)), !StartsWith(q, "/")) == segs
    requires Join(segs) == body + "/" + n
    ensures JoinPath(q + "/" + last, ".." + "/" + n) == q + "/" + n
  {
    var p := q + "/" + last;
    var up := ".." + "/" + n;
    assert p[0] == q[0] && up[|up| - 1] == n[|n| - 1];
    assert StartsWith(p, "/") == StartsWith(q, "/");
    JoinedNormalizes(p, up, segs);
    Rebase(q, body, n, Join(segs));
  }

  lemma ClimbSegments(q: string, segs: seq<string>, last: string, names: seq<string>)
    requires NormalForm(q, segs)
    requires Ordinary(last) && '/' !in last
    requires names != [] && forall k :: 0 <= k < |names| ==> Ordinary(names[k]) && '/' !in names[k]
    ensures Resolve(Segments(q + "/" + last + "/" + (".." + "/" + Join(names))), !StartsWith(q, "/")) == segs + names
  {
    NormalSegments(q, segs);
    SegmentsJoin(names);
    SplitClimb(q, last, Join(names));
    ResolveClimb(Segments(q), segs, last, names, !StartsWith(q, "/"));
  }

  lemma SplitClimb(q: string, last: string, n: string)
    requires '/' !in last
    ensures Segments(q + "/" + last + "/" + (".." + "/" + n)) == Segments(q) + [last] + ([".."] + Segments(n))
  {
    SegmentsOfSlashFree(q, last);
    SegmentsOfJoined(q + "/" + last, ".." + "/" + n);
    SegmentsOfJoined("..", n);
    LastIndexOfIs("..", '/', -1);
  }

  lemma ResolveClimb(a: seq<string>, segs: seq<string>, last: string, names: seq<string>, aboveRoot: bool)
    requires Resolve(a, aboveRoot) == segs
    requires Ordinary(last)
    requires forall k :: 0 <= k < |names| ==> Ordinary(names[k])
    ensures Resolve(a + [last] + ([".."] + names), aboveRoot) == segs + names
  {
    ResolveAppend([], a + [last], [".."] + names, aboveRoot);
    ResolveAppend([], a, [last], aboveRoot);
    ResolveOrdinary(segs, [last], aboveRoot);
    var kept := segs + [last];
    ResolveAppend(kept, [".."], names, aboveRoot);
    assert ResolveOnto(kept, [".."], aboveRoot) == Step(ResolveOnto(kept, [], aboveRoot), "..", aboveRoot);
    assert kept[..|kept| - 1] == segs;
    ResolveOrdinary(segs, names, aboveRoot);
  }

  // ---------------------------------------------------------------------------
  // Extension
  // ---------------------------------------------------------------------------

  /** `s` without its trailing run of `c`. */
  function DropTrailing(s: string, c: char): (r: string)
    ensures |r| <= |s| && r == s[..|r|]
    ensures r == [] || r[|r| - 1] != c
  {
    if |s| > 0 && s[|s| - 1] == c then DropTrailing(s[..|s| - 1], c) else s
  }

  /** `path.basename(p)`: the last segment, trailing slashes ignored. */
  function BaseName(p: string): (base: string)
    ensures '/' !in base
  {
    AfterLast(DropTrailing(p, '/'), '/')
  }

  /**
   * `path.extname(p).slice(1)`: the text after the last `.` of the last
   * segment; empty when that segment has no `.` or only a leading one.
   */
  function Extension(p: string): (ext: string)
    ensures '.' !in ext && '/' !in ext
  {
    NameExtension(BaseName(p))
  }

  /** The extension of one segment. */
  function NameExtension(base: string): (ext: string)
    ensures '.' !in ext
    ensures '/' !in base ==> '/' !in ext
  {
    var dot := LastIndexOf(base, '.');
    if dot <= 0 then []
    else
      var ext := base[dot + 1..];
      assert forall c :: c in ext ==> c in base;
      ext
  }

  /** The directory part of a path never contributes to its base name. */
  lemma BaseNameInDirectory(dirPath: string, base: string)
    requires |dirPath| > 0 && dirPath[|dirPath| - 1] == '/' && '/' !in base && base != []
    ensures BaseName(dirPath + base) == base
  {
    var p := dirPath + base;
    assert p[|p| - 1] == base[|base| - 1] && base[|base| - 1] in base;
    DropNothing(p, '/');
    AfterLastOfSuffix(dirPath, base, '/');
  }

  lemma DropNothing(s: string, c: char)
    requires s == [] || s[|s| - 1] != c
    ensures DropTrailing(s, c) == s
  {
  }

  /** Any non-empty stem before the last dot, dots included (as in `..png`), leaves the text after it. */
  lemma ExtensionOfBase(dirPath: string, stem: string, ext: string)
    requires |dirPath| > 0 && dirPath[|dirPath| - 1] == '/'
    requires stem != [] && '/' !in stem && '.' !in ext && '/' !in ext
    ensures Extension(dirPath + (stem + "." + ext)) == ext
  {
    var base := stem + "." + ext;
    assert base[|stem|] == '.' && base[|base| - 1] in base;
    BaseNameInDirectory(dirPath, base);
    AfterLastOfSuffix(stem + ".", ext, '.');
    assert LastIndexOf(base, '.') == |stem|;
    assert base[|stem| + 1..] == ext;
  }

  /** A name whose only dot is its first character, like `.env`, has no extension. */
  lemma LeadingDotOnly(dirPath: string, name: string)
    requires |dirPath| > 0 && dirPath[|dirPath| - 1] == '/'
    requires '.' !in name && '/' !in name
    ensures Extension(dirPath + ("." + name)) == []
  {
    var base := "." + name;
    assert base[0] in base;
    BaseNameInDirectory(dirPath, base);
    LastIndexOfIs(base, '.', 0);
  }

  /** Trailing slashes change neither the base name nor the extension. */
  lemma TrailingSlashIgnored(p: string)
    ensures BaseName(p + "/") == BaseName(p)
    ensures Extension(p + "/") == Extension(p)
  {
    DropSlash(p);
  }

  lemma DropSlash(p: string)
    ensures DropTrailing(p + "/", '/') == DropTrailing(p, '/')
  {
    assert (p + "/")[..|p|] == p;
  }
}

=== FILE: pipeline.dfy ===
/**
 * The project life-cycle as the routes drive it. Every stage writes a
 * running status when it starts and a finished status when its background
 * work ends; three stages roll back to an earlier status on failure. No
 * route reads the current status before writing, so each write depends on
 * the stage alone.
 */
module Pipeline {
  import opened Outcomes
  import opened Store

  /** The four stages that the project routes run. */
  datatype Stage = SplitStage | ImageStage | NarrationStage | RenderStage

  /** The position of a status in the pipeline's normal order. */
  function Rank(s: ProjectStatus): nat {
    match s
    case Draft => 0
    case Splitting => 1
    case ScenesReady => 2
    case GeneratingImages => 3
    case ImagesReady => 4
    case GeneratingClips => 5
    case ClipsReady => 6
    case GeneratingNarration => 7
    case NarrationReady => 8
    case Rendering => 9
    case Rendered => 10
  }

  predicate InProgress(s: ProjectStatus) {
    s.Splitting? || s.GeneratingImages? || s.GeneratingClips? || s.GeneratingNarration? || s.Rendering?
  }

  /** The status written when a stage starts. */
  function Running(stage: Stage): (s: ProjectStatus)
    ensures InProgress(s)
    ensures !s.GeneratingClips?
  {
    match stage
    case SplitStage => Splitting
    case ImageStage => GeneratingImages
    case NarrationStage => GeneratingNarration
    case RenderStage => Rendering
  }

  /** The status written when a stage's work is done: the one right after its running status. */
  function Finished(stage: Stage): (s: ProjectStatus)
    ensures !InProgress(s)
    ensures Rank(s) == Rank(Running(stage)) + 1
  {
    match stage
    case SplitStage => ScenesReady
    case ImageStage => ImagesReady
    case NarrationStage => NarrationReady
    case RenderStage => Rendered
  }

  /**
   * The status written when a stage fails, if it has a rollback at all:
   * always an earlier, settled status. The image stage has none; its loop
   * absorbs every per-item failure.
   */
  function RolledBack(stage: Stage): (s: Option<ProjectStatus>)
    ensures s.None? <==> stage.ImageStage?
    ensures s.Some? ==> !InProgress(s.value) && Rank(s.value) < Rank(Running(stage))
  {
    match stage
    case SplitStage => Some(Draft)
    case ImageStage => None
    case NarrationStage => Some(ScenesReady)
    case RenderStage => Some(ClipsReady)
  }

  /** No stage ever writes `generating_clips`, and `clips_ready` is only reached by a failed render. */
  lemma ClipStatusesUnused(stage: Stage)
    ensures Running(stage) != GeneratingClips && Finished(stage) != GeneratingClips
    ensures RolledBack(stage) != Some(GeneratingClips)
    ensures Finished(stage) != ClipsReady
    ensures RolledBack(stage) == Some(ClipsReady) <==> stage == RenderStage
  {
  }

  /** A stage's statuses are its own: no two stages write the same running or finished status. */
  lemma StagesDistinct(a: Stage, b: Stage)
    ensures Running(a) == Running(b) ==> a == b
    ensures Finished(a) == Finished(b) ==> a == b
  {
  }
}

=== FILE: projects.dfy ===
/**
 * The project routes: creating a project (`POST /projects`), splitting its
 * script into scenes (`POST /projects/:id/split`) and generating every
 * scene's images (`POST /projects/:id/generate-all-images`). The language
 * model's answers and the generation calls are parameters; the background
 * image loop is a separate step applied to whatever store exists when it runs.
 */
module Projects {
  import opened Outcomes
  import opened Text
  import opened Store
  import opened Pipeline
  import opened Records
  import Llm
  import Replicate

  // ---------------------------------------------------------------------------
  // Creation
  // ---------------------------------------------------------------------------

  const MissingFieldsMessage := "title and scriptContent are required"

  /** `{ ...defaults, ...config }`: every supplied key wins, every other key keeps its default. */
  function MergeConfig(defaults: Config, patch: ConfigPatch): (c: Config)
    ensures patch.imagesPerScene.Some? ==> c.imagesPerScene == patch.imagesPerScene.value
    ensures patch.imagesPerScene.None? ==> c.imagesPerScene == defaults.imagesPerScene
    ensures patch.imageModels.Some? ==> c.imageModels == patch.imageModels.value
    ensures patch.imageModels.None? ==> c.imageModels == defaults.imageModels
    ensures patch.animationModels.Some? ==> c.animationModels == patch.animationModels.value
    ensures patch.animationModels.None? ==> c.animationModels == defaults.animationModels
    ensures patch.stylePromptPrefix.Some? ==> c.stylePromptPrefix == patch.stylePromptPrefix.value
    ensures patch.stylePromptPrefix.None? ==> c.stylePromptPrefix == defaults.stylePromptPrefix
    ensures patch.format.Some? ==> c.format == patch.format.value
    ensures patch.format.None? ==> c.format == defaults.format
    ensures patch.voiceId.Some? ==> c.voiceId == patch.voiceId.value
    ensures patch.voiceId.None? ==> c.voiceId == defaults.voiceId
    ensures patch.ttsModel.Some? ==> c.ttsModel == patch.ttsModel.value
    ensures patch.ttsModel.None? ==> c.ttsModel == defaults.ttsModel
    ensures patch.maxScenes.Some? ==> c.maxScenes == patch.maxScenes.value
    ensures patch.maxScenes.None? ==> c.maxScenes == defaults.maxScenes
  {
    Config(
      Override(defaults.imagesPerScene, patch.imagesPerScene),
      Override(defaults.imageModels, patch.imageModels),
      Override(defaults.animationModels, patch.animationModels),
      Override(defaults.stylePromptPrefix, patch.stylePromptPrefix),
      Override(defaults.format, patch.format),
      Override(defaults.voiceId, patch.voiceId),
      Override(defaults.ttsModel, patch.ttsModel),
      Override(defaults.maxScenes, patch.maxScenes))
  }

  /** Without a config the project gets the defaults. */
  lemma MergeEmpty(defaults: Config)
    ensures MergeConfig(defaults, EmptyPatch) == defaults
  {
  }

  /** Merging the same config again changes nothing. */
  lemma MergeIdempotent(defaults: Config, patch: ConfigPatch)
    ensures MergeConfig(MergeConfig(defaults, patch), patch) == MergeConfig(defaults, patch)
  {
  }

  /** A config that supplies every key ignores the defaults altogether. */
  lemma MergeFullPatch(a: Config, b: Config, c: Config)
    ensures var full := ConfigPatch(Some(c.imagesPerScene), Some(c.imageModels), Some(c.animationModels),
        Some(c.stylePromptPrefix), Some(c.format), Some(c.voiceId), Some(c.ttsModel), Some(c.maxScenes));
      MergeConfig(a, full) == MergeConfig(b, full) == c
  {
  }

  /**
   * `POST /projects`: a falsy title or script is rejected before anything is
   * written; otherwise a `draft` project is inserted under the next id.
   */
  function CreateProject(st: Store, title: Option<string>, scriptContent: Option<string>, patch: ConfigPatch, defaults: Config)
    : (out: Response<Id>)
    ensures out.body.Err? <==> !Truthy(title) || !Truthy(scriptContent)
    ensures out.body.Err? ==> out == Response(st, Err(Invalid(MissingFieldsMessage)))
    ensures out.body.Ok? ==>
      var pid := out.body.value;
      && pid == st.nextProjectId
      && out.store.nextProjectId == st.nextProjectId + 1
      && out.store.projects == st.projects[pid := Project(title.value, scriptContent.value, Draft, MergeConfig(defaults, patch))]
      && out.store.scenes == st.scenes && out.store.images == st.images && out.store.clips == st.clips
  {
    if !Truthy(title) || !Truthy(scriptContent) then Response(st, Err(Invalid(MissingFieldsMessage)))
    else
      var pid := st.nextProjectId;
      var project := Project(title.value, scriptContent.value, Draft, MergeConfig(defaults, patch));
      Response(st.(projects := st.projects[pid := project], nextProjectId := pid + 1), Ok(pid))
  }

  lemma CreatePreservesConsistency(st: Store, title: Option<string>, scriptContent: Option<string>, patch: ConfigPatch, defaults: Config)
    requires Consistent(st)
    ensures Consistent(CreateProject(st, title, scriptContent, patch, defaults).store)
  {
  }

  /** A new project is not one of the existing ones: the id is fresh. */
  lemma CreatedIdIsFresh(st: Store, title: Option<string>, scriptContent: Option<string>, patch: ConfigPatch, defaults: Config)
    requires Valid(st)
    ensures var out := CreateProject(st, title, scriptContent, patch, defaults);
      out.body.Ok? ==> out.body.value !in st.projects && out.store.projects.Keys == st.projects.Keys + {out.body.value}
  {
  }

  // ---------------------------------------------------------------------------
  // Splitting
  // ---------------------------------------------------------------------------

  /** One scene as the script splitter returns it. */
  datatype SceneSplit = SceneSplit(
    sceneNumber: int,
    title: string,
    narrativeText: string,
    startTimestamp: Option<string>,
    endTimestamp: Option<string>,
    tags: seq<string>)

  /**
   * One entry of the split together with the answer its image-prompt
   * request gets: the prompt, or the error the request threw.
   */
  datatype Entry = Entry(split: SceneSplit, prompt: Result<string>)

  /** What `splitScript` produced: the scenes, or the message of the error it threw. */
  datatype SplitResult = Split(entries: seq<Entry>) | SplitThrew(message: string)

  /** The scene row created for one split entry: `pending`, with its image prompt and nothing generated yet. */
  function NewScene(pid: Id, e: SceneSplit, prompt: string): (s: Scene)
    ensures s.projectId == pid && s.sceneNumber == e.sceneNumber && s.title == e.title
    ensures s.narrativeText == e.narrativeText && s.tags == e.tags
    ensures s.startTimestamp == e.startTimestamp && s.endTimestamp == e.endTimestamp
    ensures s.imagePrompt == Some(prompt) && s.status == Pending
    ensures s.animationPrompt.None? && s.audioUrl.None? && s.selectedImageId.None? && s.selectedClipId.None?
  {
    Scene(pid, e.sceneNumber, e.title, e.narrativeText, e.startTimestamp, e.endTimestamp, e.tags,
      Some(prompt), None, Pending, None, None, None)
  }

  /** Whether a row of a table belongs to a scene of project `pid`. */
  predicate OwnedBy(scenes: map<Id, Scene>, a: Artifact, pid: Id) {
    a.sceneId in scenes && scenes[a.sceneId].projectId == pid
  }

  function KeepRows(scenes: map<Id, Scene>, t: ArtifactTable, pid: Id): (r: ArtifactTable)
    ensures r.nextId == t.nextId
    ensures forall i :: i in r.rows <==> i in t.rows && !OwnedBy(scenes, t.rows[i], pid)
    ensures forall i :: i in r.rows ==> r.rows[i] == t.rows[i]
  {
    t.(rows := map i | i in t.rows && !OwnedBy(scenes, t.rows[i], pid) :: t.rows[i])
  }

  /** `deleteMany` on the project's scenes; their images and clips go with them. */
  function DeleteScenes(st: Store, pid: Id): (st': Store)
    ensures forall s :: s in st'.scenes <==> s in st.scenes && st.scenes[s].projectId != pid
    ensures forall s :: s in st'.scenes ==> st'.scenes[s] == st.scenes[s]
    ensures forall i :: i in st'.images.rows <==> i in st.images.rows && !OwnedBy(st.scenes, st.images.rows[i], pid)
    ensures forall i :: i in st'.clips.rows <==> i in st.clips.rows && !OwnedBy(st.scenes, st.clips.rows[i], pid)
    ensures forall i :: i in st'.images.rows ==> st'.images.rows[i] == st.images.rows[i]
    ensures forall i :: i in st'.clips.rows ==> st'.clips.rows[i] == st.clips.rows[i]
    ensures st'.projects == st.projects && st'.nextProjectId == st.nextProjectId && st'.nextSceneId == st.nextSceneId
    ensures st'.images.nextId == st.images.nextId && st'.clips.nextId == st.clips.nextId && st'.clock == st.clock
  {
    st.(scenes := map s | s in st.scenes && st.scenes[s].projectId != pid :: st.scenes[s],
        images := KeepRows(st.scenes, st.images, pid),
        clips := KeepRows(st.scenes, st.clips, pid))
  }

  lemma DeletePreservesConsistency(st: Store, pid: Id)
    requires Consistent(st)
    ensures Consistent(DeleteScenes(st, pid))
  {
    var st' := DeleteScenes(st, pid);
    DeleteValid(st, st', pid);
    KeepAgrees(st, st', pid, ImageKind);
    KeepAgrees(st, st', pid, ClipKind);
    assert st'.Table(ImageKind) == st'.images && st'.Table(ClipKind) == st'.clips;
  }

  /** Deleting a project's scenes together with their images and clips leaves no dangling reference. */
  lemma DeleteValid(st: Store, st': Store, pid: Id)
    requires Valid(st)
    requires st'.projects == st.projects && st'.nextProjectId == st.nextProjectId && st'.nextSceneId == st.nextSceneId
    requires st'.images.nextId == st.images.nextId && st'.clips.nextId == st.clips.nextId && st'.clock == st.clock
    requires forall s :: s in st'.scenes <==> s in st.scenes && st.scenes[s].projectId != pid
    requires forall s :: s in st'.scenes ==> st'.scenes[s] == st.scenes[s]
    requires forall i :: i in st'.images.rows ==> i in st.images.rows && !OwnedBy(st.scenes, st.images.rows[i], pid)
    requires forall i :: i in st'.clips.rows ==> i in st.clips.rows && !OwnedBy(st.scenes, st.clips.rows[i], pid)
    requires forall i :: i in st'.images.rows ==> st'.images.rows[i] == st.images.rows[i]
    requires forall i :: i in st'.clips.rows ==> st'.clips.rows[i] == st.clips.rows[i]
    ensures Valid(st')
  {
    forall i | i in st'.images.rows
      ensures st'.images.rows[i].sceneId in st'.scenes
    {
      assert st.images.rows[i].sceneId in st.scenes;
    }
    forall i | i in st'.clips.rows
      ensures st'.clips.rows[i].sceneId in st'.scenes
    {
      assert st.clips.rows[i].sceneId in st.scenes;
    }
    ChronologicalSubset(st.images, st'.images, st.clock);
    ChronologicalSubset(st.clips, st'.clips, st.clock);
  }

  lemma KeepAgrees(st: Store, st': Store, pid: Id, kind: Kind)
    requires Consistent(st) && st' == DeleteScenes(st, pid)
    ensures SelectionAgrees(st'.scenes, st'.Table(kind).rows, kind)
  {
    var t := st.Table(kind).rows;
    assert SelectionAgrees(st.scenes, t, kind) by {
      if kind.ImageKind? { } else { }
    }
    assert st'.Table(kind).rows == KeepRows(st.scenes, st.Table(kind), pid).rows by {
      if kind.ImageKind? { } else { }
    }
  }

  /** The scenes the split loop creates, and the error that stopped it if one did. */
  datatype SceneRun = SceneRun(created: seq<Scene>, failure: Option<ApiError>)

  /**
   * The split loop: each entry's image prompt is requested, then its scene
   * is created. The first failed prompt ends the loop; the scenes already
   * created stay.
   */
  function SplitScenes(pid: Id, entries: seq<Entry>): (r: SceneRun)
    ensures |r.created| <= |entries|
    ensures forall j :: 0 <= j < |r.created| ==>
      entries[j].prompt.Ok? && r.created[j] == NewScene(pid, entries[j].split, entries[j].prompt.value)
    ensures r.failure.None? <==> |r.created| == |entries|
    ensures r.failure.Some? ==> entries[|r.created|].prompt == Err(r.failure.value)
  {
    if entries == [] then SceneRun([], None)
    else match entries[0].prompt
      case Err(e) => SceneRun([], Some(e))
      case Ok(p) =>
        var rest := SplitScenes(pid, entries[1..]);
        var created := [NewScene(pid, entries[0].split, p)] + rest.created;
        assert forall j :: 1 <= j < |created| ==> created[j] == rest.created[j - 1] && entries[j] == entries[1..][j - 1];
        SceneRun(created, rest.failure)
  }

  /**
   * `POST /projects/:id/split`. The status goes to `splitting`, the script
   * is split, the old scenes are deleted, and one scene per entry is
   * created. Any failure after the first status write sets `draft`.
   */
  function SplitProject(st: Store, pid: Id, split: SplitResult): (out: Response<seq<Id>>)
    ensures pid !in st.projects <==> out.body == Err(NotFound("Project"))
    ensures pid !in st.projects ==> out.store == st
    ensures pid in st.projects ==>
      && out.store.projects.Keys == st.projects.Keys
      && (out.body.Ok? <==> out.store.projects[pid].status == Finished(SplitStage))
      && (out.body.Err? ==> out.store.projects[pid].status == RolledBack(SplitStage).value)
      && out.store.projects[pid] == st.projects[pid].(status := out.store.projects[pid].status)
      && (forall p :: p in st.projects && p != pid ==> out.store.projects[p] == st.projects[p])
    ensures pid in st.projects && split.SplitThrew? ==>
      && out.body == Err(Internal(split.message))
      && out.store.scenes == st.scenes && out.store.images == st.images && out.store.clips == st.clips
  {
    if pid !in st.projects then Response(st, Err(NotFound("Project")))
    else
      var st1 := st.WithStatus(pid, Running(SplitStage));
      match split
      case SplitThrew(m) => Response(st1.WithStatus(pid, RolledBack(SplitStage).value), Err(Internal(m)))
      case Split(entries) => Resplit(st1, pid, entries)
  }

  /** The part of a split after the script came back: old scenes out, new scenes in, final status. */
  function Resplit(st1: Store, pid: Id, entries: seq<Entry>): Response<seq<Id>>
    requires pid in st1.projects
  {
    var st2 := DeleteScenes(st1, pid);
    var run := SplitScenes(pid, entries);
    var next := st2.nextSceneId + |run.created|;
    var st3 := st2.(scenes := InsertAll(st2.scenes, st2.nextSceneId, run.created), nextSceneId := next);
    if run.failure.Some? then
      Response(st3.WithStatus(pid, RolledBack(SplitStage).value), Err(Internal(Message(run.failure.value))))
    else
      Response(st3.WithStatus(pid, Finished(SplitStage)), Ok(Range(st2.nextSceneId, next)))
  }

  /**
   * A successful split leaves the project with exactly the new scenes, one
   * per entry and in entry order, each `pending` with its prompt.
   */
  lemma SplitReplacesScenes(st: Store, pid: Id, entries: seq<Entry>)
    requires pid in st.projects
    ensures var out := SplitProject(st, pid, Split(entries));
      out.body.Ok? ==>
        && |out.body.value| == |entries|
        && (forall j :: 0 <= j < |entries| ==>
              entries[j].prompt.Ok? && out.body.value[j] in out.store.scenes
              && out.store.scenes[out.body.value[j]] == NewScene(pid, entries[j].split, entries[j].prompt.value))
        && (forall s :: s in out.store.scenes && out.store.scenes[s].projectId == pid ==> s in out.body.value)
  {
    var st1 := st.WithStatus(pid, Running(SplitStage));
    var st2 := DeleteScenes(st1, pid);
    var run := SplitScenes(pid, entries);
    var out := SplitProject(st, pid, Split(entries));
    assert out == Resplit(st1, pid, entries);
    if out.body.Ok? {
      assert run.failure.None?;
      InsertedScenes(st2.scenes, st2.nextSceneId, run.created, pid, entries, out.store.scenes, out.body.value);
    }
  }

  /**
   * `after` holds the project's scenes `rows`, under the ids from `next` on,
   * and no other scene of the project: none of those it had in `before`
   * below `next` is left.
   */
  ghost predicate ScenesReplaced(before: map<Id, Scene>, after: map<Id, Scene>, next: Id, rows: seq<Scene>, pid: Id) {
    && (forall j :: 0 <= j < |rows| ==> next + j in after && after[next + j] == rows[j])
    && (forall s :: s in after && after[s].projectId == pid <==> next <= s < next + |rows|)
    && (forall s :: s in before && before[s].projectId == pid && s < next ==> s !in after)
  }

  /**
   * Once the script is split the old scenes are gone, whatever the prompts
   * do: the delete runs before the prompt loop. A failed prompt answers its
   * error and leaves the project exactly the scenes created before it.
   */
  lemma SplitDropsOldScenes(st: Store, pid: Id, entries: seq<Entry>)
    requires pid in st.projects
    ensures var out := SplitProject(st, pid, Split(entries));
      var run := SplitScenes(pid, entries);
      && (out.body.Err? <==> run.failure.Some?)
      && (run.failure.Some? ==> out.body == Err(Internal(Message(run.failure.value))))
      && ScenesReplaced(st.scenes, out.store.scenes, st.nextSceneId, run.created, pid)
  {
    var st1 := st.WithStatus(pid, Running(SplitStage));
    assert SplitProject(st, pid, Split(entries)) == Resplit(st1, pid, entries);
    assert st1.nextSceneId == st.nextSceneId && st1.scenes == st.scenes;
    ResplitScenes(st1, pid, entries);
    var run := SplitScenes(pid, entries);
    ReplacedScenes(st1.scenes, DeleteScenes(st1, pid).scenes, st1.nextSceneId, run.created, pid);
  }

  /** What a re-split writes to the scenes, and what it answers. */
  lemma ResplitScenes(st1: Store, pid: Id, entries: seq<Entry>)
    requires pid in st1.projects
    ensures var out := Resplit(st1, pid, entries);
      var run := SplitScenes(pid, entries);
      && out.store.scenes == InsertAll(DeleteScenes(st1, pid).scenes, st1.nextSceneId, run.created)
      && (out.body.Err? <==> run.failure.Some?)
      && (run.failure.Some? ==> out.body == Err(Internal(Message(run.failure.value))))
  {
  }

  /** Deleting a project's scenes and inserting new ones leaves it exactly the new ones. */
  lemma ReplacedScenes(before: map<Id, Scene>, kept: map<Id, Scene>, next: Id, rows: seq<Scene>, pid: Id)
    requires forall s :: s in kept <==> s in before && before[s].projectId != pid
    requires forall s :: s in kept ==> kept[s] == before[s]
    requires forall j :: 0 <= j < |rows| ==> rows[j].projectId == pid
    ensures ScenesReplaced(before, InsertAll(kept, next, rows), next, rows, pid)
  {
    var r := InsertAll(kept, next, rows);
    forall j | 0 <= j < |rows|
      ensures next + j in r && r[next + j] == rows[j]
    {
      assert r[next + j] == rows[(next + j) - next];
    }
    OnlyInsertedOwned(kept, next, rows, pid);
    var ids := Range(next, next + |rows|);
    forall s | s in ids
      ensures next <= s < next + |rows|
    {
    }
  }

  /** Inserting one scene per entry into a map with none of the project's scenes gives it exactly those. */
  lemma InsertedScenes(m: map<Id, Scene>, next: Id, rows: seq<Scene>, pid: Id, entries: seq<Entry>,
                       r: map<Id, Scene>, ids: seq<Id>)
    requires |rows| == |entries|
    requires forall j :: 0 <= j < |rows| ==>
      entries[j].prompt.Ok? && rows[j] == NewScene(pid, entries[j].split, entries[j].prompt.value)
    requires forall s :: s in m ==> m[s].projectId != pid
    requires r == InsertAll(m, next, rows) && ids == Range(next, next + |rows|)
    ensures |ids| == |entries|
    ensures forall j :: 0 <= j < |entries| ==>
      entries[j].prompt.Ok? && ids[j] in r && r[ids[j]] == NewScene(pid, entries[j].split, entries[j].prompt.value)
    ensures forall s :: s in r && r[s].projectId == pid ==> s in ids
  {
    forall j | 0 <= j < |entries|
      ensures ids[j] in r && r[ids[j]] == NewScene(pid, entries[j].split, entries[j].prompt.value)
    {
      assert ids[j] == next + j;
      assert r[next + j] == rows[(next + j) - next];
    }
    OnlyInsertedOwned(m, next, rows, pid);
  }

  /** After deleting a project's scenes, the only scenes it owns are the ones inserted afterwards. */
  lemma OnlyInsertedOwned(m: map<Id, Scene>, next: Id, rows: seq<Scene>, pid: Id)
    requires forall s :: s in m ==> m[s].projectId != pid
    ensures var r := InsertAll(m, next, rows);
      forall s :: s in r && r[s].projectId == pid ==> s in Range(next, next + |rows|)
  {
    var r := InsertAll(m, next, rows);
    var ids := Range(next, next + |rows|);
    forall s | s in r && r[s].projectId == pid
      ensures s in ids
    {
      assert next <= s < next + |rows|;
      assert ids[s - next] == s;
    }
  }

  /** In mock mode every prompt succeeds, so a split that returns entries always ends `scenes_ready`. */
  lemma MockSplitSucceeds(st: Store, pid: Id, entries: seq<Entry>)
    requires pid in st.projects
    requires forall j :: 0 <= j < |entries| ==>
      var e := entries[j].split;
      entries[j].prompt == Llm.ImagePrompt(Llm.Mock, [], e.narrativeText, e.title, st.projects[pid].config.stylePromptPrefix)
    ensures var out := SplitProject(st, pid, Split(entries));
      out.body.Ok? && out.store.projects[pid].status == ScenesReady
  {
  }

  lemma SplitPreservesConsistency(st: Store, pid: Id, split: SplitResult)
    requires Consistent(st)
    ensures Consistent(SplitProject(st, pid, split).store)
  {
    if pid in st.projects {
      var st1 := st.WithStatus(pid, Running(SplitStage));
      assert Consistent(st1);
      if split.Split? {
        assert SplitProject(st, pid, split) == Resplit(st1, pid, split.entries);
        ResplitPreservesConsistency(st1, pid, split.entries);
      } else {
        assert Consistent(SplitProject(st, pid, split).store);
      }
    }
  }

  lemma ResplitPreservesConsistency(st1: Store, pid: Id, entries: seq<Entry>)
    requires Consistent(st1) && pid in st1.projects
    ensures Consistent(Resplit(st1, pid, entries).store)
  {
    var st2 := DeleteScenes(st1, pid);
    var run := SplitScenes(pid, entries);
    DeletePreservesConsistency(st1, pid);
    AddScenesConsistent(st2, pid, run.created);
  }

  lemma AddScenesConsistent(st: Store, pid: Id, created: seq<Scene>)
    requires Consistent(st) && pid in st.projects
    requires forall j :: 0 <= j < |created| ==>
      created[j].projectId == pid && created[j].selectedImageId.None? && created[j].selectedClipId.None?
    ensures Consistent(st.(scenes := InsertAll(st.scenes, st.nextSceneId, created), nextSceneId := st.nextSceneId + |created|))
  {
    var st' := st.(scenes := InsertAll(st.scenes, st.nextSceneId, created), nextSceneId := st.nextSceneId + |created|);
    NewScenesValid(st, st', pid);
    NewScenesAgree(st, st', ImageKind);
    NewScenesAgree(st, st', ClipKind);
  }

  /** Adding scenes of an existing project under fresh ids keeps every key and foreign key valid. */
  lemma NewScenesValid(st: Store, st': Store, pid: Id)
    requires Valid(st) && pid in st.projects
    requires st' == st.(scenes := st'.scenes, nextSceneId := st'.nextSceneId)
    requires st.nextSceneId <= st'.nextSceneId
    requires forall s :: s in st'.scenes <==> s in st.scenes || st.nextSceneId <= s < st'.nextSceneId
    requires forall s :: s in st.scenes && s < st.nextSceneId ==> st'.scenes[s] == st.scenes[s]
    requires forall s :: st.nextSceneId <= s < st'.nextSceneId ==> st'.scenes[s].projectId == pid
    ensures Valid(st')
  {
    assert forall s :: s in st'.scenes ==> st'.scenes[s].projectId in st'.projects;
    assert Chronological(st'.images, st'.clock) && Chronological(st'.clips, st'.clock);
  }

  lemma NewScenesAgree(st: Store, st': Store, kind: Kind)
    requires Consistent(st)
    requires st' == st.(scenes := st'.scenes, nextSceneId := st'.nextSceneId)
    requires forall s :: s in st'.scenes <==> s in st.scenes || st.nextSceneId <= s < st'.nextSceneId
    requires forall s :: s in st.scenes && s < st.nextSceneId ==> st'.scenes[s] == st.scenes[s]
    requires forall s :: st.nextSceneId <= s < st'.nextSceneId ==>
      st'.scenes[s].selectedImageId.None? && st'.scenes[s].selectedClipId.None?
    ensures SelectionAgrees(st'.scenes, st'.Table(kind).rows, kind)
  {
    var t := st.Table(kind).rows;
    assert SelectionAgrees(st.scenes, t, kind) by {
      if kind.ImageKind? { } else { }
    }
    assert forall s :: st.nextSceneId <= s < st'.nextSceneId ==> st'.scenes[s].Selected(kind).None?;
    assert forall i :: i in t ==> t[i].sceneId in st.scenes;
  }

  // ---------------------------------------------------------------------------
  // Generating every scene's images
  // ---------------------------------------------------------------------------

  const NoScenesMessage := "No scenes found. Split the script first."

  function AllImagesMessage(images: nat, scenes: nat): string {
    "Started generating " + NatToString(images) + " images across " + NatToString(scenes) + " scenes"
  }

  /**
   * `POST /projects/:id/generate-all-images`, up to its response: the data
   * checks, the `generating_images` write, and one `processing` record per
   * prompted scene, model and copy, in scene order.
   */
  function GenerateAllImages(st: Store, pid: Id): (out: Response<Started>)
    ensures pid !in st.projects <==> out.body == Err(NotFound("Project"))
    ensures pid in st.projects && ProjectScenes(st, pid) == [] <==> out.body == Err(Invalid(NoScenesMessage))
    ensures out.body.Err? ==> out.store == st
    ensures out.body.Ok? ==>
      && out.store.projects == st.projects[pid := st.projects[pid].(status := Running(ImageStage))]
      && out.store.scenes == st.scenes && out.store.clips == st.clips && out.store.clock == st.clock
    ensures out.body.Ok? ==>
      var created := Fill(st.images, ImageOrders(st, pid), st.clock);
      out.store.images == created.table && out.body.value.ids == created.ids && out.body.value.count == |created.ids|
  {
    if pid !in st.projects then Response(st, Err(NotFound("Project")))
    else
      var order := ProjectScenes(st, pid);
      if order == [] then Response(st, Err(Invalid(NoScenesMessage)))
      else
        var created := Fill(st.images, ImageOrders(st, pid), st.clock);
        var st1 := st.WithStatus(pid, Running(ImageStage)).(images := created.table);
        Response(st1, Ok(Started(AllImagesMessage(|created.ids|, |order|), |created.ids|, created.ids)))
  }

  /** The records of generate-all-images, in creation order. */
  function ImageOrders(st: Store, pid: Id): seq<Order>
    requires pid in st.projects
  {
    var cfg := st.projects[pid].config;
    ProjectOrders(st.scenes, ProjectScenes(st, pid), cfg.imageModels, cfg.imagesPerScene)
  }

  /** The route creates one record per prompted scene, image model and copy, and reports that count. */
  lemma GenerateAllCount(st: Store, pid: Id)
    requires pid in st.projects
    ensures var out := GenerateAllImages(st, pid);
      var cfg := st.projects[pid].config;
      out.body.Ok? ==>
        out.body.value.count == |Prompted(st.scenes, ProjectScenes(st, pid))| * (|cfg.imageModels| * Copies(cfg.imagesPerScene))
  {
    var cfg := st.projects[pid].config;
    ProjectOrdersCount(st.scenes, ProjectScenes(st, pid), cfg.imageModels, cfg.imagesPerScene);
  }

  /** In a valid store the "no scenes" answer means the project has no scene at all. */
  lemma NoScenesMeansNone(st: Store, pid: Id)
    requires Valid(st) && pid in st.projects
    ensures ProjectScenes(st, pid) == [] <==> forall s :: s in st.scenes ==> st.scenes[s].projectId != pid
  {
    if ProjectScenes(st, pid) == [] {
      forall s | s in st.scenes
        ensures st.scenes[s].projectId != pid
      {
        if st.scenes[s].projectId == pid {
          ProjectScenesComplete(st, pid, s);
        }
      }
    }
  }

  lemma GenerateAllPreservesConsistency(st: Store, pid: Id)
    requires Consistent(st)
    ensures Consistent(GenerateAllImages(st, pid).store)
  {
    if pid in st.projects && ProjectScenes(st, pid) != [] {
      var orders := ImageOrders(st, pid);
      var st1 := st.WithStatus(pid, Running(ImageStage));
      assert Consistent(st1);
      FillPreservesConsistency(st1, ImageKind, orders);
      assert st1.WithTable(ImageKind, Fill(st1.images, orders, st1.clock).table)
        == st.WithStatus(pid, Running(ImageStage)).(images := Fill(st.images, orders, st.clock).table);
    }
  }

  /**
   * The request generate-all-images makes for each record as written: the
   * call passes no aspect ratio, so every image asks for `16:9` whatever
   * the project's format.
   */
  function AllImagesRequestAsWritten(a: Artifact): (r: Replicate.PredictionRequest)
    ensures Replicate.Lookup(r.input, "aspect_ratio") == Some(Replicate.DefaultAspectRatio)
    ensures Replicate.Lookup(r.input, "prompt") == Some(a.prompt)
  {
    Replicate.ImagePrediction(a.model, a.prompt, Replicate.DefaultAspectRatio)
  }

  /**
   * The request as written agrees with the per-scene route's exactly when the
   * project's format is the default; a portrait project gets landscape images.
   */
  lemma AllImagesIgnoresFormat(cfg: Config, a: Artifact)
    ensures AllImagesRequestAsWritten(a) == ImagePredictionFor(cfg, a) <==> AspectArgument(cfg) == Replicate.DefaultAspectRatio
    ensures cfg.format == Some("9:16") ==> AllImagesRequestAsWritten(a) != ImagePredictionFor(cfg, a)
  {
    if AllImagesRequestAsWritten(a) == ImagePredictionFor(cfg, a) {
      assert Some(Replicate.DefaultAspectRatio) == Some(AspectArgument(cfg));
    }
  }

  /**
   * The background loop of generate-all-images, run against the store as it
   * then is: every record is settled in turn, keeping the backend URL, and
   * `images_ready` is written once at the end, however many failed. A
   * vanished record or project stops the loop before that write.
   */
  function FinishAllImages(st: Store, pid: Id, ids: seq<Id>, outcome: nat -> Outcome): (st': Store)
    ensures st'.scenes == st.scenes && st'.clips == st.clips
    ensures st'.images.rows.Keys == st.images.rows.Keys && st'.images.nextId == st.images.nextId
    ensures st'.projects.Keys == st.projects.Keys
    ensures var finished := forall j :: 0 <= j < |ids| ==> ids[j] in st.images.rows;
      && (pid in st.projects && finished ==>
            st'.projects == st.projects[pid := st.projects[pid].(status := Finished(ImageStage))])
      && (!(pid in st.projects && finished) ==> st'.projects == st.projects)
  {
    var run := RunBatch(st.images.rows, ids, outcome, KeepRemote);
    var st1 := st.(images := st.images.(rows := run.rows));
    if run.finished && pid in st1.projects then st1.WithStatus(pid, Finished(ImageStage)) else st1
  }

  /** Every record the loop reaches before any vanished one is settled from its own call's outcome. */
  lemma FinishAllSettles(st: Store, pid: Id, ids: seq<Id>, outcome: nat -> Outcome, j: nat)
    requires Distinct(ids) && j < |ids|
    requires forall m :: 0 <= m <= j ==> ids[m] in st.images.rows
    ensures var st' := FinishAllImages(st, pid, ids, outcome);
      st'.images.rows[ids[j]] == Settle(st.images.rows[ids[j]], ids[j], outcome(j), KeepRemote)
  {
    RunBatchSettles(st.images.rows, ids, outcome, KeepRemote, j);
  }

  lemma FinishAllPreservesConsistency(st: Store, pid: Id, ids: seq<Id>, outcome: nat -> Outcome)
    requires Consistent(st)
    ensures Consistent(FinishAllImages(st, pid, ids, outcome))
  {
    var run := RunBatch(st.images.rows, ids, outcome, KeepRemote);
    RunBatchPreservesConsistency(st, ImageKind, ids, outcome, KeepRemote);
    var st1 := st.(images := st.images.(rows := run.rows));
    assert st1 == st.WithTable(ImageKind, st.Table(ImageKind).(rows := run.rows));
  }

  /**
   * The whole of generate-all-images when nothing is deleted meanwhile: the
   * project ends `images_ready` and every record it created is settled from
   * its own call, whatever the calls did.
   */
  lemma GenerateAllThenFinish(st: Store, pid: Id, outcome: nat -> Outcome)
    requires pid in st.projects
    ensures var out := GenerateAllImages(st, pid);
      out.body.Ok? ==>
        var ids := out.body.value.ids;
        var st' := FinishAllImages(out.store, pid, ids, outcome);
        && st'.projects[pid].status == ImagesReady
        && |ids| == |ImageOrders(st, pid)|
        && forall j :: 0 <= j < |ids| ==>
             ids[j] in st'.images.rows
             && st'.images.rows[ids[j]] == Settle(Fresh(ImageOrders(st, pid)[j], st.clock), ids[j], outcome(j), KeepRemote)
  {
    var out := GenerateAllImages(st, pid);
    if out.body.Ok? {
      GeneratedFresh(st, pid, out);
      FinishFresh(out.store, pid, out.body.value.ids, outcome, ImageOrders(st, pid), st.clock);
    }
  }

  /** The ids generate-all-images answers with are distinct and name its fresh records, one per order. */
  lemma GeneratedFresh(st: Store, pid: Id, out: Response<Started>)
    requires pid in st.projects && out == GenerateAllImages(st, pid) && out.body.Ok?
    ensures var ids := out.body.value.ids;
      var orders := ImageOrders(st, pid);
      && pid in out.store.projects && Distinct(ids) && |ids| == |orders|
      && forall j :: 0 <= j < |ids| ==>
           ids[j] in out.store.images.rows && out.store.images.rows[ids[j]] == Fresh(orders[j], st.clock)
  {
    FillFresh(st.images, ImageOrders(st, pid), st.clock);
  }

  /** Finishing a batch of fresh records of an existing project settles each of them and ends `images_ready`. */
  lemma FinishFresh(st: Store, pid: Id, ids: seq<Id>, outcome: nat -> Outcome, orders: seq<Order>, clock: nat)
    requires pid in st.projects && Distinct(ids) && |ids| == |orders|
    requires forall j :: 0 <= j < |ids| ==> ids[j] in st.images.rows && st.images.rows[ids[j]] == Fresh(orders[j], clock)
    ensures var st' := FinishAllImages(st, pid, ids, outcome);
      && st'.projects[pid].status == ImagesReady
      && forall j :: 0 <= j < |ids| ==>
           ids[j] in st'.images.rows && st'.images.rows[ids[j]] == Settle(Fresh(orders[j], clock), ids[j], outcome(j), KeepRemote)
  {
    forall j | 0 <= j < |ids|
      ensures FinishAllImages(st, pid, ids, outcome).images.rows[ids[j]]
        == Settle(Fresh(orders[j], clock), ids[j], outcome(j), KeepRemote)
    {
      FinishAllSettles(st, pid, ids, outcome, j);
    }
  }
}

=== FILE: records.dfy ===
/**
 * Generated-artifact records: how a route creates its `processing` records
 * up front, and how the sequential background loop then settles each one
 * from what its generation call produced. Both are shared by the project-wide
 * and the per-scene routes, for images and for clips alike.
 */
module Records {
  import opened Outcomes
  import opened Text
  import opened Store
  import Replicate
  import Fal

  // ---------------------------------------------------------------------------
  // Planning: which records a route creates, in which order
  // ---------------------------------------------------------------------------

  /** `[a, a + 1, ..., b - 1]`: the ids handed out by consecutive inserts. */
  function Range(a: nat, b: nat): (r: seq<Id>)
    ensures |r| == if a <= b then b - a else 0
    ensures forall k :: 0 <= k < |r| ==> r[k] == a + k
    decreases b - a
  {
    if a >= b then [] else [a] + Range(a + 1, b)
  }

  ghost predicate Distinct(s: seq<Id>) {
    forall i, j :: 0 <= i < j < |s| ==> s[i] != s[j]
  }

  /** How many times `for (let i = 0; i < n; i++)` runs. */
  function Copies(n: int): (c: nat)
    ensures c <= n || c == 0
    ensures n > 0 ==> c == n
  {
    if n > 0 then n else 0
  }

  /** The model of each record in creation order: every model in turn, `n` records each. */
  function ModelOrder(models: seq<string>, n: int): (r: seq<string>)
    ensures forall k :: 0 <= k < |r| ==> r[k] in models
  {
    if models == [] then []
    else seq(Copies(n), _ => models[0]) + ModelOrder(models[1..], n)
  }

  /** The models are taken one after another, each for `n` consecutive records. */
  lemma {:induction false} ModelOrderLayout(models: seq<string>, n: int, m: nat, j: nat)
    requires m < |models| && j < Copies(n)
    ensures |ModelOrder(models, n)| == |models| * Copies(n)
    ensures m * Copies(n) + j < |ModelOrder(models, n)|
    ensures ModelOrder(models, n)[m * Copies(n) + j] == models[m]
  {
    var c := Copies(n);
    var head := seq(c, _ => models[0]);
    var tail := models[1..];
    if m == 0 {
      ModelOrderLength(tail, n);
      assert ModelOrder(models, n) == head + ModelOrder(tail, n);
    } else {
      ModelOrderLayout(tail, n, m - 1, j);
      assert (m - 1) * c + j + c == m * c + j;
      assert |models| * c == (|models| - 1) * c + c;
    }
  }

  lemma {:induction false} ModelOrderLength(models: seq<string>, n: int)
    ensures |ModelOrder(models, n)| == |models| * Copies(n)
  {
    if models != [] {
      ModelOrderLength(models[1..], n);
      assert |models| * Copies(n) == (|models| - 1) * Copies(n) + Copies(n);
    }
  }

  /** What one record is created from. */
  datatype Order = Order(sceneId: Id, sourceImageId: Option<Id>, model: string, prompt: string)

  /** A record as created: `processing`, unselected, without URL or prediction id. */
  function Fresh(o: Order, clock: nat): (a: Artifact)
    ensures a.status == Processing && !a.isSelected && a.url.None? && a.predictionId.None?
    ensures a.sceneId == o.sceneId && a.sourceImageId == o.sourceImageId && a.model == o.model && a.prompt == o.prompt
    ensures a.createdAt == clock
  {
    Artifact(o.sceneId, o.sourceImageId, o.model, o.prompt, None, None, Processing, false, clock)
  }

  /** The records for one scene: one per model and copy, model-major. */
  function SceneOrders(sceneId: Id, sourceImageId: Option<Id>, prompt: string, models: seq<string>, n: int): (r: seq<Order>)
    ensures |r| == |ModelOrder(models, n)|
    ensures forall k :: 0 <= k < |r| ==> r[k] == Order(sceneId, sourceImageId, ModelOrder(models, n)[k], prompt)
  {
    var mo := ModelOrder(models, n);
    seq(|mo|, k requires 0 <= k < |mo| => Order(sceneId, sourceImageId, mo[k], prompt))
  }

  /** The scenes of `order` that exist and carry a truthy image prompt, in order. */
  function Prompted(scenes: map<Id, Scene>, order: seq<Id>): (r: seq<Id>)
    ensures forall k :: 0 <= k < |r| ==> r[k] in scenes && Truthy(scenes[r[k]].imagePrompt)
    ensures forall s :: s in r <==> s in order && s in scenes && Truthy(scenes[s].imagePrompt)
    ensures |r| <= |order|
  {
    if order == [] then []
    else
      var rest := Prompted(scenes, order[1..]);
      assert forall s :: s in order <==> s == order[0] || s in order[1..];
      if order[0] in scenes && Truthy(scenes[order[0]].imagePrompt) then [order[0]] + rest else rest
  }

  /** The ids of `order` that satisfy `p`, in order: the loops that skip some scenes walk this. */
  function Keep(order: seq<Id>, p: Id -> bool): (r: seq<Id>)
    ensures forall k :: 0 <= k < |r| ==> p(r[k])
    ensures forall s :: s in r <==> s in order && p(s)
    ensures |r| <= |order|
  {
    if order == [] then []
    else
      var rest := Keep(order[1..], p);
      assert forall s :: s in order <==> s == order[0] || s in order[1..];
      if p(order[0]) then [order[0]] + rest else rest
  }

  /** Skipping scenes keeps the survivors in scene order and without repeats. */
  lemma {:induction false} KeepOrdered(scenes: map<Id, Scene>, order: seq<Id>, p: Id -> bool)
    requires SortedScenes(scenes, order) && Distinct(order)
    ensures forall i, j :: 0 <= i < j < |Keep(order, p)| ==>
      SceneLe(scenes, Keep(order, p)[i], Keep(order, p)[j]) && Keep(order, p)[i] != Keep(order, p)[j]
  {
    if order != [] {
      var tail := order[1..];
      assert SortedScenes(scenes, tail) && Distinct(tail) by {
        assert forall i :: 0 <= i < |tail| ==> tail[i] == order[i + 1];
      }
      KeepOrdered(scenes, tail, p);
      var rest := Keep(tail, p);
      if p(order[0]) {
        assert Keep(order, p) == [order[0]] + rest;
        forall k | 0 <= k < |rest|
          ensures SceneLe(scenes, order[0], rest[k]) && order[0] != rest[k]
        {
          assert rest[k] in rest;
          var m :| 0 <= m < |tail| && tail[m] == rest[k];
          assert order[m + 1] == rest[k];
        }
        ConsOrdered(scenes, order[0], rest);
      } else {
        assert Keep(order, p) == rest;
      }
    }
  }

  lemma ConsOrdered(scenes: map<Id, Scene>, h: Id, rest: seq<Id>)
    requires forall k :: 0 <= k < |rest| ==> SceneLe(scenes, h, rest[k]) && h != rest[k]
    requires forall i, j :: 0 <= i < j < |rest| ==> SceneLe(scenes, rest[i], rest[j]) && rest[i] != rest[j]
    ensures forall i, j :: 0 <= i < j < |[h] + rest| ==>
      SceneLe(scenes, ([h] + rest)[i], ([h] + rest)[j]) && ([h] + rest)[i] != ([h] + rest)[j]
  {
    var r := [h] + rest;
    forall i, j | 0 <= i < j < |r|
      ensures SceneLe(scenes, r[i], r[j]) && r[i] != r[j]
    {
      assert r[j] == rest[j - 1];
      if i > 0 {
        assert r[i] == rest[i - 1];
      }
    }
  }

  /** The records `generate-all-images` creates: a scene's orders in turn, for every prompted scene. */
  function ProjectOrders(scenes: map<Id, Scene>, order: seq<Id>, models: seq<string>, n: int): (r: seq<Order>)
    ensures forall k :: 0 <= k < |r| ==>
      var s := r[k].sceneId;
      && s in order && s in scenes && Truthy(scenes[s].imagePrompt)
      && r[k].prompt == scenes[s].imagePrompt.value
      && r[k].sourceImageId.None?
      && r[k].model in models
  {
    if order == [] then []
    else
      var rest := ProjectOrders(scenes, order[1..], models, n);
      var s := order[0];
      if s in scenes && Truthy(scenes[s].imagePrompt) then
        SceneOrders(s, None, scenes[s].imagePrompt.value, models, n) + rest
      else rest
  }

  /** The number of records is the prompted scenes times the models times the copies. */
  lemma {:induction false} ProjectOrdersCount(scenes: map<Id, Scene>, order: seq<Id>, models: seq<string>, n: int)
    ensures |ProjectOrders(scenes, order, models, n)| == |Prompted(scenes, order)| * (|models| * Copies(n))
  {
    if order != [] {
      ProjectOrdersCount(scenes, order[1..], models, n);
      var rest := ProjectOrders(scenes, order[1..], models, n);
      var p := |Prompted(scenes, order[1..])|;
      var c := |models| * Copies(n);
      var s := order[0];
      if s in scenes && Truthy(scenes[s].imagePrompt) {
        var head := SceneOrders(s, None, scenes[s].imagePrompt.value, models, n);
        assert ProjectOrders(scenes, order, models, n) == head + rest;
        ModelOrderLength(models, n);
        assert |head| == c;
        assert |Prompted(scenes, order)| == p + 1;
        MulSucc(p, c);
      } else {
        assert ProjectOrders(scenes, order, models, n) == rest;
        assert Prompted(scenes, order) == Prompted(scenes, order[1..]);
      }
    }
  }

  lemma MulSucc(p: nat, c: nat)
    ensures (p + 1) * c == p * c + c
  {
  }

  /** A scene without a truthy image prompt gets no record at all. */
  lemma UnpromptedSceneGetsNone(scenes: map<Id, Scene>, order: seq<Id>, models: seq<string>, n: int, s: Id)
    requires s in scenes && !Truthy(scenes[s].imagePrompt)
    ensures forall k :: 0 <= k < |ProjectOrders(scenes, order, models, n)| ==> ProjectOrders(scenes, order, models, n)[k].sceneId != s
  {
  }

  // ---------------------------------------------------------------------------
  // Creation
  // ---------------------------------------------------------------------------

  datatype Created = Created(table: ArtifactTable, ids: seq<Id>)

  /** What a generation route answers before its background loop starts, and the records the loop will work through. */
  datatype Started = Started(message: string, count: nat, ids: seq<Id>)

  /** Inserts one fresh record per order, under consecutive ids, all stamped `clock`. */
  function Fill(t: ArtifactTable, orders: seq<Order>, clock: nat): (r: Created)
    ensures r.table.nextId == t.nextId + |orders|
    ensures r.ids == Range(t.nextId, r.table.nextId)
    ensures forall i :: i in r.table.rows <==> i in t.rows || t.nextId <= i < r.table.nextId
    ensures forall i :: i in t.rows && !(t.nextId <= i < r.table.nextId) ==> r.table.rows[i] == t.rows[i]
    ensures forall i :: t.nextId <= i < r.table.nextId ==> r.table.rows[i] == Fresh(orders[i - t.nextId], clock)
  {
    var made := seq(|orders|, k requires 0 <= k < |orders| => Fresh(orders[k], clock));
    Created(ArtifactTable(InsertAll(t.rows, t.nextId, made), t.nextId + |orders|), Range(t.nextId, t.nextId + |orders|))
  }

  /** The ids handed back are distinct and name the fresh records, one per order and in order. */
  lemma FillFresh(t: ArtifactTable, orders: seq<Order>, clock: nat)
    ensures var r := Fill(t, orders, clock);
      && |r.ids| == |orders|
      && forall j :: 0 <= j < |r.ids| ==> r.ids[j] in r.table.rows && r.table.rows[r.ids[j]] == Fresh(orders[j], clock)
  {
    var r := Fill(t, orders, clock);
    forall j | 0 <= j < |r.ids|
      ensures r.ids[j] in r.table.rows && r.table.rows[r.ids[j]] == Fresh(orders[j], clock)
    {
      assert r.ids[j] == t.nextId + j;
    }
  }

  /** Creating records for existing scenes keeps the store consistent. */
  lemma FillPreservesConsistency(st: Store, kind: Kind, orders: seq<Order>)
    requires Consistent(st)
    requires forall k :: 0 <= k < |orders| ==> orders[k].sceneId in st.scenes
    ensures Consistent(st.WithTable(kind, Fill(st.Table(kind), orders, st.clock).table))
  {
    var t := st.Table(kind);
    var r := Fill(t, orders, st.clock);
    var st' := st.WithTable(kind, r.table);
    FillValid(st, kind, orders);
    FillAgrees(st.scenes, t, kind, orders, st.clock);
    assert SelectionAgrees(st.scenes, st.Table(kind.Other()).rows, kind.Other()) by {
      if kind.ImageKind? { assert kind.Other() == ClipKind; } else { assert kind.Other() == ImageKind; }
    }
    ConsistentByKind(st', kind);
  }

  lemma FillValid(st: Store, kind: Kind, orders: seq<Order>)
    requires Valid(st)
    requires forall k :: 0 <= k < |orders| ==> orders[k].sceneId in st.scenes
    ensures Valid(st.WithTable(kind, Fill(st.Table(kind), orders, st.clock).table))
  {
    FilledValid(st, kind, orders, Fill(st.Table(kind), orders, st.clock));
  }

  lemma FilledValid(st: Store, kind: Kind, orders: seq<Order>, r: Created)
    requires Valid(st)
    requires forall k :: 0 <= k < |orders| ==> orders[k].sceneId in st.scenes
    requires r == Fill(st.Table(kind), orders, st.clock)
    ensures Valid(st.WithTable(kind, r.table))
  {
    var t := st.Table(kind);
    assert Chronological(t, st.clock) by {
      if kind.ImageKind? { } else { }
    }
    FilledChronological(t, orders, st.clock, r);
    FilledScenes(t, orders, st.clock, r, st.scenes);
    var st' := st.WithTable(kind, r.table);
    if kind.ImageKind? {
      assert st'.images == r.table && st'.clips == st.clips;
    } else {
      assert st'.clips == r.table && st'.images == st.images;
    }
  }

  /** Every filled record belongs to a scene that exists. */
  lemma FilledScenes(t: ArtifactTable, orders: seq<Order>, clock: nat, r: Created, scenes: map<Id, Scene>)
    requires forall i :: i in t.rows ==> t.rows[i].sceneId in scenes
    requires forall k :: 0 <= k < |orders| ==> orders[k].sceneId in scenes
    requires r == Fill(t, orders, clock)
    ensures forall i :: i in r.table.rows ==> r.table.rows[i].sceneId in scenes
  {
    forall i | i in r.table.rows
      ensures r.table.rows[i].sceneId in scenes
    {
      if t.nextId <= i < r.table.nextId {
        assert r.table.rows[i] == Fresh(orders[i - t.nextId], clock);
      } else {
        assert i in t.rows && r.table.rows[i] == t.rows[i];
      }
    }
  }

  lemma FillChronological(t: ArtifactTable, orders: seq<Order>, clock: nat)
    requires Chronological(t, clock)
    ensures Chronological(Fill(t, orders, clock).table, clock)
  {
    FilledChronological(t, orders, clock, Fill(t, orders, clock));
  }

  lemma FilledChronological(t: ArtifactTable, orders: seq<Order>, clock: nat, r: Created)
    requires Chronological(t, clock)
    requires r == Fill(t, orders, clock)
    ensures Chronological(r.table, clock)
  {
    FilledRows(t, orders, clock, r);
    StampedAfter(t, r.table, clock);
  }

  /** The filled table keeps every old record and stamps every new one with the clock. */
  lemma FilledRows(t: ArtifactTable, orders: seq<Order>, clock: nat, r: Created)
    requires FreshBelow(t.rows, t.nextId) && forall i :: i in t.rows ==> t.rows[i].createdAt <= clock
    requires r == Fill(t, orders, clock)
    ensures forall i :: i in r.table.rows ==> i < r.table.nextId && r.table.rows[i].createdAt <= clock
    ensures forall i :: i in r.table.rows && t.nextId <= i ==> r.table.rows[i].createdAt == clock
    ensures forall i :: i in r.table.rows && i < t.nextId ==> i in t.rows && r.table.rows[i] == t.rows[i]
  {
    var rows := r.table.rows;
    forall i | i in rows
      ensures i < r.table.nextId && rows[i].createdAt <= clock
      ensures t.nextId <= i ==> rows[i].createdAt == clock
      ensures i < t.nextId ==> i in t.rows && rows[i] == t.rows[i]
    {
      if t.nextId <= i < r.table.nextId {
        assert rows[i] == Fresh(orders[i - t.nextId], clock);
      } else {
        assert i in t.rows && rows[i] == t.rows[i];
      }
    }
  }

  /** Old records kept as they were and new ones stamped with the current clock keep a table chronological. */
  lemma StampedAfter(t: ArtifactTable, t': ArtifactTable, clock: nat)
    requires Chronological(t, clock)
    requires forall i :: i in t'.rows ==> i < t'.nextId && t'.rows[i].createdAt <= clock
    requires forall i :: i in t'.rows && t.nextId <= i ==> t'.rows[i].createdAt == clock
    requires forall i :: i in t'.rows && i < t.nextId ==> i in t.rows && t'.rows[i] == t.rows[i]
    ensures Chronological(t', clock)
  {
    forall i, j | i in t'.rows && j in t'.rows && i < j
      ensures t'.rows[i].createdAt <= t'.rows[j].createdAt
    {
      if j < t.nextId {
        assert t.rows[i].createdAt <= t.rows[j].createdAt;
      }
    }
  }

  lemma FillAgrees(scenes: map<Id, Scene>, t: ArtifactTable, kind: Kind, orders: seq<Order>, clock: nat)
    requires SelectionAgrees(scenes, t.rows, kind)
    requires FreshBelow(t.rows, t.nextId)
    ensures SelectionAgrees(scenes, Fill(t, orders, clock).table.rows, kind)
  {
    var r := Fill(t, orders, clock);
    forall i | i in r.table.rows && i !in t.rows
      ensures !r.table.rows[i].isSelected
    {
      assert r.table.rows[i] == Fresh(orders[i - t.nextId], clock);
    }
    UnselectedAdditionAgrees(scenes, t.rows, r.table.rows, kind);
  }

  /** Adding unselected rows, leaving the others as they were, keeps the selection invariant. */
  lemma UnselectedAdditionAgrees(scenes: map<Id, Scene>, t: map<Id, Artifact>, t': map<Id, Artifact>, kind: Kind)
    requires SelectionAgrees(scenes, t, kind)
    requires forall i :: i in t ==> i in t' && t'[i] == t[i]
    requires forall i :: i in t' && i !in t ==> !t'[i].isSelected
    ensures SelectionAgrees(scenes, t', kind)
  {
  }

  // ---------------------------------------------------------------------------
  // Settling records in the background
  // ---------------------------------------------------------------------------

  /**
   * The aspect ratio sent by a call that passes the project's `config.format`:
   * the format itself, or the parameter's default `16:9` when it is missing.
   */
  function AspectArgument(cfg: Config): (ratio: string)
    ensures cfg.format.Some? ==> ratio == cfg.format.value
    ensures cfg.format.None? ==> ratio == Replicate.DefaultAspectRatio
  {
    if cfg.format.Some? then cfg.format.value else Replicate.DefaultAspectRatio
  }

  /** The prediction a record's image generation asks for under a project configured with `cfg`. */
  function ImagePredictionFor(cfg: Config, a: Artifact): (r: Replicate.PredictionRequest)
    ensures r.model == Replicate.ResolveModelId(a.model)
    ensures Replicate.Lookup(r.input, "prompt") == Some(a.prompt)
    ensures Replicate.Lookup(r.input, "aspect_ratio") == Some(AspectArgument(cfg))
  {
    Replicate.ImagePrediction(a.model, a.prompt, AspectArgument(cfg))
  }

  /** Two projects that set a format get the same request for a record exactly when their formats agree. */
  lemma ImagePredictionHonoursFormat(c1: Config, c2: Config, a: Artifact)
    requires c1.format.Some? && c2.format.Some?
    ensures ImagePredictionFor(c1, a) == ImagePredictionFor(c2, a) <==> c1.format == c2.format
  {
    if ImagePredictionFor(c1, a) == ImagePredictionFor(c2, a) {
      assert Some(AspectArgument(c1)) == Some(AspectArgument(c2));
    }
  }

  /**
   * What one generation call produced: the prediction it created and what
   * waiting for it returned, or an exception (from the backend or from the
   * download of the result).
   */
  datatype Outcome = Returned(predictionId: string, prediction: Replicate.Prediction) | Throws

  /**
   * Where a result URL goes. The project-wide route stores the backend URL;
   * the per-scene routes download it and store the local path, naming the
   * file `<prefix><record id>`.
   */
  datatype Storage = KeepRemote | Download(dir: Fal.MediaDir, prefix: string)

  /** The URL a successful call hands to the record update, or `None` when there is none. */
  function StoredUrl(storage: Storage, id: Id, p: Replicate.Prediction): (u: Option<string>)
    ensures u.Some? <==> Truthy(p.output)
    ensures u.Some? ==> u.value != ""
    ensures storage.KeepRemote? ==> u == Replicate.ResultUrl(p)
    ensures storage.Download? && u.Some? ==>
      u.value == Fal.LocalUrl(p.output.value, storage.dir, storage.prefix + NatToString(id))
  {
    var remote := Replicate.ResultUrl(p);
    if remote.None? then None
    else match storage
      case KeepRemote => remote
      case Download(dir, prefix) =>
        Fal.LocalUrlExtension(remote.value, dir, prefix + NatToString(id));
        Some(Fal.LocalUrl(remote.value, dir, prefix + NatToString(id)))
  }

  /** The fields a settlement never touches. */
  ghost predicate Untouched(a: Artifact, b: Artifact) {
    && b.sceneId == a.sceneId && b.isSelected == a.isSelected && b.createdAt == a.createdAt
    && b.model == a.model && b.prompt == a.prompt && b.sourceImageId == a.sourceImageId
  }

  /**
   * The record update after one call. A thrown call only marks the record
   * failed. Otherwise the prediction id is stored and the record is
   * completed exactly when a URL came back; a missing remote URL leaves the
   * URL column as it was (the update passes `undefined`), a missing local
   * URL writes `null`.
   */
  function Settle(a: Artifact, id: Id, o: Outcome, storage: Storage): (r: Artifact)
    ensures Untouched(a, r)
    ensures r.status == Completed <==> o.Returned? && Truthy(o.prediction.output)
    ensures r.status != Completed ==> r.status == Failed
    ensures r.status == Completed ==> Truthy(r.url)
    ensures o.Throws? ==> r == a.(status := Failed)
    ensures o.Returned? ==> r.predictionId == Some(o.predictionId)
    ensures o.Returned? && storage.Download? ==> r.url == StoredUrl(storage, id, o.prediction)
    ensures o.Returned? && storage.KeepRemote? && !Truthy(o.prediction.output) ==> r.url == a.url
  {
    match o
    case Throws => a.(status := Failed)
    case Returned(pid, p) =>
      var u := StoredUrl(storage, id, p);
      var url := if u.None? && storage.KeepRemote? then a.url else u;
      a.(predictionId := Some(pid), url := url, status := if Truthy(u) then Completed else Failed)
  }

  /**
   * The per-scene update as the routes' import is written: `downloadToLocal`
   * is imported from the Replicate adapter, which defines no such function,
   * so the call made whenever a URL came back throws and only the catch's
   * `failed` write happens.
   */
  function SettleUnbound(a: Artifact, o: Outcome): (r: Artifact)
    ensures Untouched(a, r)
    ensures r.status == Failed
  {
    match o
    case Throws => a.(status := Failed)
    case Returned(pid, p) =>
      if Truthy(Replicate.ResultUrl(p)) then a.(status := Failed)
      else a.(predictionId := Some(pid), url := None, status := Failed)
  }

  /** A generation that returns a URL fails the record as written, and completes it once the download is bound. */
  lemma UnboundDownloadFailsGoodResult(a: Artifact, id: Id, pid: string, url: string, dir: Fal.MediaDir, prefix: string)
    requires url != ""
    ensures SettleUnbound(a, Returned(pid, Replicate.Prediction(Replicate.Succeeded, Some(url)))).status == Failed
    ensures Settle(a, id, Returned(pid, Replicate.Prediction(Replicate.Succeeded, Some(url))), Download(dir, prefix)).status == Completed
  {
  }

  /**
   * The per-scene background loop as written, each record settled with the
   * unbound import. Like the intended loop, a vanished record ends it.
   */
  function RunUnboundFrom(rows: map<Id, Artifact>, ids: seq<Id>, outcome: nat -> Outcome, k: nat): (r: map<Id, Artifact>)
    ensures r.Keys == rows.Keys
    ensures forall i :: i in rows ==> Untouched(rows[i], r[i])
    ensures forall i :: i in rows ==> r[i] == rows[i] || r[i].status == Failed
    ensures forall j :: k <= j < |ids| && (forall m :: k <= m <= j ==> ids[m] in rows) ==> r[ids[j]].status == Failed
    decreases |ids| - k
  {
    if k >= |ids| || ids[k] !in rows then rows
    else
      var id := ids[k];
      RunUnboundFrom(rows[id := SettleUnbound(rows[id], outcome(k))], ids, outcome, k + 1)
  }

  /** The rows after the loop, and whether it ran to its end. */
  datatype BatchRun = BatchRun(rows: map<Id, Artifact>, finished: bool)

  /**
   * The background loop from item `k` on. An item whose record has vanished
   * makes both the update and the catch's update throw, which ends the loop.
   */
  function RunFrom(rows: map<Id, Artifact>, ids: seq<Id>, outcome: nat -> Outcome, storage: Storage, k: nat): (r: BatchRun)
    ensures r.rows.Keys == rows.Keys
    ensures forall i :: i in rows ==> Untouched(rows[i], r.rows[i])
    ensures forall i :: i in rows && (forall j :: k <= j < |ids| ==> ids[j] != i) ==> r.rows[i] == rows[i]
    ensures r.finished <==> forall j :: k <= j < |ids| ==> ids[j] in rows
    decreases |ids| - k
  {
    if k >= |ids| then BatchRun(rows, true)
    else if ids[k] !in rows then BatchRun(rows, false)
    else
      var id := ids[k];
      RunFrom(rows[id := Settle(rows[id], id, outcome(k), storage)], ids, outcome, storage, k + 1)
  }

  function RunBatch(rows: map<Id, Artifact>, ids: seq<Id>, outcome: nat -> Outcome, storage: Storage): (r: BatchRun)
    ensures r.rows.Keys == rows.Keys
    ensures r.finished <==> forall j :: 0 <= j < |ids| ==> ids[j] in rows
  {
    RunFrom(rows, ids, outcome, storage, 0)
  }

  /**
   * Every item before the first vanished record is settled from its own
   * outcome: a failure never stops the items after it.
   */
  lemma {:induction false} RunFromSettles(rows: map<Id, Artifact>, ids: seq<Id>, outcome: nat -> Outcome, storage: Storage, k: nat, j: nat)
    requires Distinct(ids)
    requires k <= j < |ids|
    requires forall m :: k <= m <= j ==> ids[m] in rows
    ensures RunFrom(rows, ids, outcome, storage, k).rows[ids[j]] == Settle(rows[ids[j]], ids[j], outcome(j), storage)
    decreases |ids| - k
  {
    var id := ids[k];
    var rows' := rows[id := Settle(rows[id], id, outcome(k), storage)];
    assert RunFrom(rows, ids, outcome, storage, k) == RunFrom(rows', ids, outcome, storage, k + 1);
    if j == k {
      assert forall m :: k + 1 <= m < |ids| ==> ids[m] != id by {
        forall m | k + 1 <= m < |ids|
          ensures ids[m] != id
        {
          assert ids[k] != ids[m];
        }
      }
      assert rows'[id] == Settle(rows[id], id, outcome(k), storage);
    } else {
      assert ids[j] != id;
      RunFromSettles(rows', ids, outcome, storage, k + 1, j);
    }
  }

  lemma RunBatchSettles(rows: map<Id, Artifact>, ids: seq<Id>, outcome: nat -> Outcome, storage: Storage, j: nat)
    requires Distinct(ids)
    requires j < |ids|
    requires forall m :: 0 <= m <= j ==> ids[m] in rows
    ensures RunBatch(rows, ids, outcome, storage).rows[ids[j]] == Settle(rows[ids[j]], ids[j], outcome(j), storage)
  {
    RunFromSettles(rows, ids, outcome, storage, 0, j);
  }

  /** Items after the first vanished record are never reached. */
  lemma {:induction false} RunFromStops(rows: map<Id, Artifact>, ids: seq<Id>, outcome: nat -> Outcome, storage: Storage, k: nat, f: nat, j: nat)
    requires Distinct(ids)
    requires k <= f < j < |ids| && ids[f] !in rows && ids[j] in rows
    ensures RunFrom(rows, ids, outcome, storage, k).rows[ids[j]] == rows[ids[j]]
    decreases |ids| - k
  {
    if k < f && ids[k] in rows {
      var id := ids[k];
      var rows' := rows[id := Settle(rows[id], id, outcome(k), storage)];
      assert RunFrom(rows, ids, outcome, storage, k) == RunFrom(rows', ids, outcome, storage, k + 1);
      assert ids[j] != id && ids[f] != id;
      RunFromStops(rows', ids, outcome, storage, k + 1, f, j);
    } else {
      assert ids[k] !in rows;
      assert RunFrom(rows, ids, outcome, storage, k) == BatchRun(rows, false);
    }
  }

  lemma RunBatchStops(rows: map<Id, Artifact>, ids: seq<Id>, outcome: nat -> Outcome, storage: Storage, f: nat, j: nat)
    requires Distinct(ids)
    requires f < j < |ids| && ids[f] !in rows && ids[j] in rows
    ensures !RunBatch(rows, ids, outcome, storage).finished
    ensures RunBatch(rows, ids, outcome, storage).rows[ids[j]] == rows[ids[j]]
  {
    RunFromStops(rows, ids, outcome, storage, 0, f, j);
  }

  /** The loop changes flags, owners and stamps of no record, so consistency survives it. */
  lemma RunBatchPreservesConsistency(st: Store, kind: Kind, ids: seq<Id>, outcome: nat -> Outcome, storage: Storage)
    requires Consistent(st)
    ensures
      var r := RunBatch(st.Table(kind).rows, ids, outcome, storage);
      Consistent(st.WithTable(kind, st.Table(kind).(rows := r.rows)))
  {
    var t := st.Table(kind);
    var r := RunBatch(t.rows, ids, outcome, storage);
    var st' := st.WithTable(kind, t.(rows := r.rows));
    assert SameSkeleton(t, st'.Table(kind));
    assert SameSkeleton(st.Table(kind.Other()), st'.Table(kind.Other()));
    if kind.ImageKind? {
      ValidUnderRewrite(st, st');
    } else {
      ValidUnderRewrite(st, st');
    }
    UntouchedAgrees(st.scenes, t.rows, r.rows, kind);
    assert SelectionAgrees(st.scenes, st.Table(kind.Other()).rows, kind.Other()) by {
      if kind.ImageKind? { assert kind.Other() == ClipKind; } else { assert kind.Other() == ImageKind; }
    }
    ConsistentByKind(st', kind);
  }

  lemma UntouchedAgrees(scenes: map<Id, Scene>, t: map<Id, Artifact>, t': map<Id, Artifact>, kind: Kind)
    requires SelectionAgrees(scenes, t, kind)
    requires t'.Keys == t.Keys && forall i :: i in t ==> Untouched(t[i], t'[i])
    ensures SelectionAgrees(scenes, t', kind)
  {
  }
}

=== FILE: render.dfy ===
/**
 * `POST /projects/:id/render`: the selected clip of every scene, in scene
 * order, is collected into a render job; with at least one clip the status
 * goes to `rendering`, and the background render ends in `rendered`, or in
 * `clips_ready` when it throws. The renderer itself is a parameter: whether
 * it succeeded.
 */
module Render {
  import opened Outcomes
  import opened Text
  import opened Store
  import opened Pipeline
  import opened Records

  const NoClipsMessage := "No selected clips found. Select a clip for at least one scene."

  /** The aspect ratio rendered when the project has none. */
  const DefaultFormat := "16:9"

  /** One entry of the render job: the clip's URL and its scene's title. */
  datatype RenderClip = RenderClip(src: string, sceneTitle: string)

  datatype RenderJob = RenderJob(clips: seq<RenderClip>, format: string)

  datatype RenderStarted = RenderStarted(message: string, clipCount: nat, job: RenderJob)

  function RenderMessage(n: nat): string {
    "Started rendering video with " + NatToString(n) + " clips"
  }

  /** The scene's selected clip, as the query that includes only selected clips finds it, has a URL. */
  predicate Renderable(st: Store, s: Id) {
    var c := FirstSelected(st.clips, s);
    c.Some? && Truthy(st.clips.rows[c.value].url)
  }

  /** The scenes that contribute a clip, in scene order. */
  function RenderedScenes(st: Store, pid: Id): (r: seq<Id>)
    ensures forall k :: 0 <= k < |r| ==> r[k] in st.scenes && st.scenes[r[k]].projectId == pid && Renderable(st, r[k])
    ensures |r| <= |ProjectScenes(st, pid)|
  {
    Keep(ProjectScenes(st, pid), s => s in st.scenes && Renderable(st, s))
  }

  function ClipOf(st: Store, s: Id): RenderClip
    requires s in st.scenes && Renderable(st, s)
  {
    RenderClip(st.clips.rows[FirstSelected(st.clips, s).value].url.value, st.scenes[s].title)
  }

  /**
   * The clip list of the job: one entry per contributing scene, in scene
   * order, never more entries than the project has scenes.
   */
  function CollectClips(st: Store, pid: Id): (r: seq<RenderClip>)
    ensures |r| == |RenderedScenes(st, pid)| <= |ProjectScenes(st, pid)|
    ensures forall k :: 0 <= k < |r| ==>
      var s := RenderedScenes(st, pid)[k];
      var c := FirstSelected(st.clips, s).value;
      && c in st.clips.rows && st.clips.rows[c].sceneId == s && st.clips.rows[c].isSelected
      && r[k] == RenderClip(st.clips.rows[c].url.value, st.scenes[s].title) && r[k].src != ""
  {
    var scenes := RenderedScenes(st, pid);
    seq(|scenes|, k requires 0 <= k < |scenes| => ClipOf(st, scenes[k]))
  }

  /** The scene's back-reference names a clip that has a URL. */
  predicate BackRefHasUrl(st: Store, s: Id) {
    && s in st.scenes && st.scenes[s].selectedClipId.Some?
    && st.scenes[s].selectedClipId.value in st.clips.rows
    && Truthy(st.clips.rows[st.scenes[s].selectedClipId.value].url)
  }

  /** The contributing scenes are in scene order without repeats. */
  lemma RenderedScenesOrdered(st: Store, pid: Id)
    ensures var r := RenderedScenes(st, pid);
      forall i, j :: 0 <= i < j < |r| ==> SceneLe(st.scenes, r[i], r[j]) && r[i] != r[j]
  {
    KeepOrdered(st.scenes, ProjectScenes(st, pid), s => s in st.scenes && Renderable(st, s));
  }

  /**
   * In a consistent store the contributing scenes are exactly the project's
   * scenes whose back-referenced clip has a URL.
   */
  lemma RenderedScenesExact(st: Store, pid: Id)
    requires Consistent(st)
    ensures forall s :: s in st.scenes && st.scenes[s].projectId == pid ==>
      (s in RenderedScenes(st, pid) <==> BackRefHasUrl(st, s))
  {
    forall s | s in st.scenes && st.scenes[s].projectId == pid
      ensures s in RenderedScenes(st, pid) <==> BackRefHasUrl(st, s)
    {
      RenderedSceneIff(st, pid, s);
    }
  }

  lemma RenderedSceneIff(st: Store, pid: Id, s: Id)
    requires Consistent(st)
    requires s in st.scenes && st.scenes[s].projectId == pid
    ensures s in RenderedScenes(st, pid) <==> BackRefHasUrl(st, s)
  {
    ProjectScenesComplete(st, pid, s);
    FirstSelectedIsBackRef(st, ClipKind, s);
  }

  /** `config.format ?? "16:9"`: only a missing or null format falls back; an empty one is kept. */
  function RenderFormat(cfg: Config): (f: string)
    ensures cfg.format.None? ==> f == DefaultFormat
    ensures cfg.format.Some? ==> f == cfg.format.value
  {
    if cfg.format.Some? then cfg.format.value else DefaultFormat
  }

  /** The route, up to its response. A failed check leaves the store as it was. */
  function StartRender(st: Store, pid: Id): (out: Response<RenderStarted>)
    ensures pid !in st.projects <==> out.body == Err(NotFound("Project"))
    ensures pid in st.projects && CollectClips(st, pid) == [] <==> out.body == Err(Invalid(NoClipsMessage))
    ensures out.body.Err? ==> out.store == st
    ensures out.body.Ok? ==>
      && out.store == st.WithStatus(pid, Running(RenderStage))
      && out.body.value.job == RenderJob(CollectClips(st, pid), RenderFormat(st.projects[pid].config))
      && out.body.value.clipCount == |out.body.value.job.clips| > 0
  {
    if pid !in st.projects then Response(st, Err(NotFound("Project")))
    else
      var clips := CollectClips(st, pid);
      if clips == [] then Response(st, Err(Invalid(NoClipsMessage)))
      else
        var job := RenderJob(clips, RenderFormat(st.projects[pid].config));
        Response(st.WithStatus(pid, Running(RenderStage)), Ok(RenderStarted(RenderMessage(|clips|), |clips|, job)))
  }

  /**
   * The background render's status write: `rendered` when the renderer
   * succeeded, `clips_ready` when it threw. A vanished project makes the
   * write and the fallback write throw, and nothing changes.
   */
  function FinishRender(st: Store, pid: Id, succeeded: bool): (st': Store)
    ensures pid in st.projects ==>
      st' == st.WithStatus(pid, if succeeded then Finished(RenderStage) else RolledBack(RenderStage).value)
    ensures pid !in st.projects ==> st' == st
  {
    if pid !in st.projects then st
    else if succeeded then st.WithStatus(pid, Finished(RenderStage))
    else st.WithStatus(pid, RolledBack(RenderStage).value)
  }

  /**
   * The whole stage on an unchanged store: it ends `rendered` or
   * `clips_ready`, never `rendering`, and touches nothing but the status.
   */
  lemma RenderStageSettles(st: Store, pid: Id, succeeded: bool)
    ensures var out := StartRender(st, pid);
      out.body.Ok? ==>
        var st' := FinishRender(out.store, pid, succeeded);
        && st'.projects[pid].status == (if succeeded then Rendered else ClipsReady)
        && !InProgress(st'.projects[pid].status)
        && st'.scenes == st.scenes && st'.images == st.images && st'.clips == st.clips
  {
  }

  lemma RenderPreservesConsistency(st: Store, pid: Id, succeeded: bool)
    requires Consistent(st)
    ensures Consistent(StartRender(st, pid).store)
    ensures Consistent(FinishRender(st, pid, succeeded))
  {
  }
}

=== FILE: replicate.dfy ===
/**
 * The Replicate adapter: friendly model names resolved to Replicate model
 * identifiers, the prediction requests for images and clips, the bounded
 * polling loop that waits for a prediction, and the reduction of a finished
 * prediction to an optional URL. The HTTP client and the wall clock are
 * parameters: `observe(k)` is what the k-th status request answers.
 */
module Replicate {
  import opened Outcomes
  import Objects

  const ImageModelMap: map<string, string> := map[
    "flux-schnell" := "black-forest-labs/flux-schnell",
    "flux-dev" := "black-forest-labs/flux-dev",
    "flux" := "black-forest-labs/flux-schnell",
    "nano-banana" := "google/nano-banana",
    "nano-banana-pro" := "google/nano-banana-pro"]

  const AnimationModelMap: map<string, string> := map[
    "wan-i2v" := "wavespeedai/wan-2.1-i2v-480p",
    "kling" := "kwaivgi/kling-v1.6-pro",
    "minimax" := "minimax/video-01-live"]

  /** The input key under which each animation model expects its source image. */
  const AnimationImageParam: map<string, string> := map[
    "wavespeedai/wan-2.1-i2v-480p" := "image",
    "kwaivgi/kling-v1.6-pro" := "start_image",
    "minimax/video-01-live" := "first_frame_image"]

  const DefaultAspectRatio := "16:9"
  const DefaultImageParam := "image"

  /**
   * `IMAGE_MODEL_MAP[model] || ANIMATION_MODEL_MAP[model] || model`: an image
   * name wins over an animation name, a name every object inherits
   * (`constructor`, `toString`, …) yields the inherited member itself, and
   * anything else is taken as a Replicate identifier already.
   */
  function ResolveModelId(model: string): (id: Objects.Value)
    ensures model in ImageModelMap ==> id == Objects.Own(ImageModelMap[model])
    ensures model !in ImageModelMap && model in AnimationModelMap ==> id == Objects.Own(AnimationModelMap[model])
    ensures model !in ImageModelMap && model !in AnimationModelMap && model !in Objects.Prototype ==> id == Objects.Own(model)
    ensures id.Builtin? <==> model in Objects.Prototype
    ensures id.Builtin? ==> id == Objects.Get(ImageModelMap, model)
  {
    TablesApart();
    Objects.Or(Objects.Or(Objects.Get(ImageModelMap, model), Objects.Get(AnimationModelMap, model)), Objects.Own(model))
  }

  /**
   * Resolution is idempotent: no resolved identifier is itself a friendly
   * name, and the text of an inherited member names nothing in either table.
   */
  lemma ResolveIdempotent(model: string)
    ensures ResolveModelId(ResolveModelId(model).Text()) == Objects.Own(ResolveModelId(model).Text())
    ensures ResolveModelId(model).Own? ==> ResolveModelId(ResolveModelId(model).Text()) == ResolveModelId(model)
  {
    var id := ResolveModelId(model);
    if id.Builtin? {
      Objects.TextsAreNotNames(model);
      NativeTextsUnlisted(model);
    } else if model in ImageModelMap || model in AnimationModelMap {
      assert id.text in ResolvedIds;
      ResolvedAreNotAliases();
      TablesApart();
    }
  }

  const ResolvedIds: set<string> := {
    "black-forest-labs/flux-schnell", "black-forest-labs/flux-dev", "google/nano-banana", "google/nano-banana-pro",
    "wavespeedai/wan-2.1-i2v-480p", "kwaivgi/kling-v1.6-pro", "minimax/video-01-live"}

  /** No resolved identifier is itself a friendly name. */
  lemma ResolvedAreNotAliases()
    ensures ResolvedIds !! ImageModelMap.Keys
    ensures ResolvedIds !! AnimationModelMap.Keys
  {
  }

  /** No key of the adapter's tables, and no resolved identifier, is an inherited name. */
  lemma TablesApart()
    ensures ImageModelMap.Keys !! Objects.Prototype
    ensures AnimationModelMap.Keys !! Objects.Prototype
    ensures ResolvedIds !! Objects.Prototype
  {
    ImageInitials();
    Objects.KeysApart(ImageModelMap.Keys);
    AnimationInitials();
    Objects.KeysApart(AnimationModelMap.Keys);
    ResolvedInitials();
    Objects.KeysApart(ResolvedIds);
  }

  lemma ImageInitials()
    ensures forall k :: k in ImageModelMap.Keys ==> |k| > 0 && !Objects.InheritedInitial(k[0])
  {
  }

  lemma AnimationInitials()
    ensures forall k :: k in AnimationModelMap.Keys ==> |k| > 0 && !Objects.InheritedInitial(k[0])
  {
  }

  lemma ResolvedInitials()
    ensures forall k :: k in ResolvedIds ==> |k| > 0 && !Objects.InheritedInitial(k[0])
  {
  }

  /** The text of an inherited member is no key of the adapter's tables: each key starts with a letter other than `f`. */
  lemma NativeTextsUnlisted(name: string)
    ensures Objects.NativeText(name) !in ImageModelMap
    ensures Objects.NativeText(name) !in AnimationModelMap
    ensures Objects.NativeText(name) !in AnimationImageParam
  {
    var t := Objects.NativeText(name);
    assert t[0] == 'f' || t[0] == '[';
  }

  /** The legacy name `flux` reaches the same model as `flux-schnell`. */
  lemma FluxAlias()
    ensures ResolveModelId("flux") == ResolveModelId("flux-schnell")
  {
  }

  /**
   * `ANIMATION_IMAGE_PARAM[modelId] || "image"`, read with the identifier's
   * text as key and used as a computed key, so converted to text again.
   */
  function ImageParam(modelId: Objects.Value): (p: string)
    ensures modelId.Text() in AnimationImageParam ==> p == AnimationImageParam[modelId.Text()]
    ensures modelId.Text() !in AnimationImageParam && modelId.Text() !in Objects.Prototype ==> p == DefaultImageParam
    ensures modelId.Text() !in AnimationImageParam && modelId.Text() in Objects.Prototype ==> p == Objects.NativeText(modelId.Text())
  {
    var v := Objects.Get(AnimationImageParam, modelId.Text());
    if v.Truthy() then v.Text() else DefaultImageParam
  }

  /** Whatever name is resolved, the image goes under one of the three keys the models use. */
  lemma ResolvedImageParam(model: string)
    ensures ImageParam(ResolveModelId(model)) in {"image", "start_image", "first_frame_image"}
  {
    var id := ResolveModelId(model);
    if id.Builtin? {
      Objects.TextsAreNotNames(model);
      NativeTextsUnlisted(model);
    } else if model in ImageModelMap || model in AnimationModelMap {
      assert id.text in ResolvedIds;
      TablesApart();
    }
  }

  /** Every animation model name resolves to a model whose image key is known. */
  lemma AnimationModelsHaveImageKeys(model: string)
    requires model in AnimationModelMap
    ensures ResolveModelId(model).Own? && ResolveModelId(model).text in AnimationImageParam
    ensures ImageParam(ResolveModelId(model)) in {"image", "start_image", "first_frame_image"}
  {
  }

  /** A prediction request: the model identifier and the input object as key/value pairs. */
  datatype PredictionRequest = PredictionRequest(model: Objects.Value, input: seq<(string, string)>)

  /** The value stored under `key` in an input object, as property access reads it. */
  function Lookup(input: seq<(string, string)>, key: string): (r: Option<string>)
    ensures r.None? <==> forall i :: 0 <= i < |input| ==> input[i].0 != key
    ensures r.Some? ==> exists i :: 0 <= i < |input| && input[i] == (key, r.value)
  {
    if |input| == 0 then None
    else if input[0].0 == key then Some(input[0].1)
    else
      var r := Lookup(input[1..], key);
      if r.Some? then assert input[1..][0] in input[1..]; r else r
  }

  function ImagePrediction(model: string, prompt: string, aspectRatio: string): (r: PredictionRequest)
    ensures r.model == ResolveModelId(model)
    ensures Lookup(r.input, "prompt") == Some(prompt)
    ensures Lookup(r.input, "aspect_ratio") == Some(aspectRatio)
    ensures |r.input| == 2
  {
    PredictionRequest(ResolveModelId(model), [("prompt", prompt), ("aspect_ratio", aspectRatio)])
  }

  function ClipPrediction(model: string, imageUrl: string, prompt: string, aspectRatio: string): (r: PredictionRequest)
    ensures r.model == ResolveModelId(model)
    ensures Lookup(r.input, ImageParam(r.model)) == Some(imageUrl)
    ensures Lookup(r.input, "prompt") == Some(prompt)
    ensures Lookup(r.input, "aspect_ratio") == Some(aspectRatio)
    ensures |r.input| == 3
  {
    var id := ResolveModelId(model);
    var key := ImageParam(id);
    ResolvedImageParam(model);
    assert key != "prompt" && key != "aspect_ratio" && "prompt" != "aspect_ratio";
    var input := [(key, imageUrl), ("prompt", prompt), ("aspect_ratio", aspectRatio)];
    assert input[1..] == [("prompt", prompt), ("aspect_ratio", aspectRatio)];
    assert Lookup(input, "aspect_ratio") == Lookup(input[1..], "aspect_ratio") == Some(aspectRatio);
    PredictionRequest(id, input)
  }

  // ---------------------------------------------------------------------------
  // Waiting for a prediction
  // ---------------------------------------------------------------------------

  const PollIntervalMs: nat := 3000
  const PollTimeoutMs: nat := 10 * 60 * 1000
  const MaxPolls: nat := PollTimeoutMs / PollIntervalMs

  /** A prediction's output as the API returns it: missing, one string, or a list of strings. */
  datatype RawOutput = NoOutput | TextOutput(text: string) | ListOutput(items: seq<string>)

  /** The states a prediction reports; the last three are final. */
  datatype PredictionState = Starting | Processing | Succeeded | Failed | Canceled {
    function Name(): string {
      match this
      case Starting => "starting"
      case Processing => "processing"
      case Succeeded => "succeeded"
      case Failed => "failed"
      case Canceled => "canceled"
    }
  }

  /** One status request's answer and how long the request took. */
  datatype Observation = Observation(status: PredictionState, output: RawOutput, latencyMs: nat)

  datatype Prediction = Prediction(status: PredictionState, output: Option<string>)

  predicate IsTerminal(status: PredictionState) {
    status == Succeeded || status == Failed || status == Canceled
  }

  /** A list output is reduced to its first element; an empty list to nothing. */
  function NormaliseOutput(o: RawOutput): (r: Option<string>)
    ensures o.NoOutput? ==> r.None?
    ensures o.TextOutput? ==> r == Some(o.text)
    ensures o.ListOutput? ==> (r.Some? <==> |o.items| > 0) && (r.Some? ==> r.value == o.items[0])
  {
    match o
    case NoOutput => None
    case TextOutput(s) => Some(s)
    case ListOutput(items) => if |items| > 0 then Some(items[0]) else None
  }

  /** `getPredictionStatus`: one status request, its output normalised. */
  function PredictionStatus(o: Observation): (p: Prediction)
    ensures p.status == o.status && p.output == NormaliseOutput(o.output)
  {
    Prediction(o.status, NormaliseOutput(o.output))
  }

  /** The clock reading before the k-th status request: each earlier request took its latency plus one interval. */
  function ClockAt(start: nat, observe: nat -> Observation, k: nat): (t: nat)
    ensures t >= start + 3000 * k
  {
    if k == 0 then start else ClockAt(start, observe, k - 1) + observe(k - 1).latencyMs + PollIntervalMs
  }

  /**
   * `waitForPrediction`: polls while less than the timeout has elapsed,
   * returns the first terminal answer, and reports a failure with no output
   * once the time is up. `polls` is the number of status requests made.
   */
  method WaitForPrediction(start: nat, observe: nat -> Observation) returns (p: Prediction, polls: nat)
    ensures 1 <= polls <= MaxPolls
    ensures IsTerminal(p.status)
    ensures forall k :: 0 <= k < polls - 1 ==> !IsTerminal(observe(k).status)
    ensures ClockAt(start, observe, polls - 1) - start < PollTimeoutMs
    ensures IsTerminal(observe(polls - 1).status) ==> p == PredictionStatus(observe(polls - 1))
    ensures !IsTerminal(observe(polls - 1).status) ==>
      p == Prediction(Failed, None) && ClockAt(start, observe, polls) - start >= PollTimeoutMs
  {
    assert PollIntervalMs == 3000 && PollTimeoutMs == 600000 && MaxPolls == 200;
    var now := start;
    var k: nat := 0;
    while now - start < PollTimeoutMs
      invariant now == ClockAt(start, observe, k)
      invariant forall j :: 0 <= j < k ==> !IsTerminal(observe(j).status)
      invariant k >= 1 ==> ClockAt(start, observe, k - 1) - start < PollTimeoutMs
      decreases PollTimeoutMs - (now - start)
    {
      var o := observe(k);
      if IsTerminal(o.status) {
        p := PredictionStatus(o);
        polls := k + 1;
        return;
      }
      now := now + o.latencyMs + PollIntervalMs;
      k := k + 1;
    }
    p := Prediction(Failed, None);
    polls := k;
  }

  /** An answer that is terminal at once is returned after a single request. */
  method ImmediateAnswer(start: nat, observe: nat -> Observation) returns (p: Prediction)
    requires IsTerminal(observe(0).status)
    ensures p == PredictionStatus(observe(0))
  {
    var polls;
    p, polls := WaitForPrediction(start, observe);
  }

  /** A prediction that never finishes is reported failed without output. */
  method NeverFinishes(start: nat, observe: nat -> Observation) returns (p: Prediction)
    requires forall k :: !IsTerminal(observe(k).status)
    ensures p == Prediction(Failed, None)
  {
    var polls;
    p, polls := WaitForPrediction(start, observe);
  }

  /**
   * `generateImage` and `generateClip` keep the prediction id and the output
   * only when it is a non-empty string. The status plays no part: a failed
   * prediction that carries an output still yields its URL.
   */
  function ResultUrl(p: Prediction): (u: Option<string>)
    ensures u.Some? <==> Truthy(p.output)
    ensures u.Some? ==> u == p.output && u.value != ""
  {
    if Truthy(p.output) then p.output else None
  }

  lemma StatusIgnored(url: string)
    requires url != ""
    ensures ResultUrl(Prediction(Failed, Some(url))) == Some(url)
    ensures ResultUrl(Prediction(Succeeded, Some(""))) == None
  {
  }
}

=== FILE: scenes.dfy ===
/**
 * The per-scene routes: listing a project's scenes with their images and
 * clips, editing a scene's prompts, and generating images or clips for one
 * scene. The generation routes answer as soon as their `processing` records
 * exist; a background loop then settles the records one by one, storing the
 * downloaded file's local URL. Neither route writes the project status.
 */
module Scenes {
  import opened Outcomes
  import opened Text
  import opened Store
  import opened Records
  import Fal

  // ---------------------------------------------------------------------------
  // Listing
  // ---------------------------------------------------------------------------

  /** One scene of the listing, with its images and clips in creation order. */
  datatype SceneListing = SceneListing(id: Id, images: seq<Id>, clips: seq<Id>)

  /** The images and clips of one scene, oldest first (`orderBy: { createdAt: "asc" }`). */
  function Listing(st: Store, s: Id): (l: SceneListing)
    ensures l.id == s
  {
    SceneListing(s, ArtifactsOf(st.images.rows, s, st.images.nextId), ArtifactsOf(st.clips.rows, s, st.clips.nextId))
  }

  /**
   * A scene's listing holds its own images and clips in ascending id order;
   * in a valid store it holds every one of them, and each list is in
   * creation-time order.
   */
  lemma ListingComplete(st: Store, s: Id)
    ensures var l := Listing(st, s);
      && (forall k :: 0 <= k < |l.images| ==> l.images[k] in st.images.rows && st.images.rows[l.images[k]].sceneId == s)
      && (forall k :: 0 <= k < |l.clips| ==> l.clips[k] in st.clips.rows && st.clips.rows[l.clips[k]].sceneId == s)
      && StrictlyIncreasing(l.images) && StrictlyIncreasing(l.clips)
    ensures var l := Listing(st, s);
      Valid(st) ==>
      && (forall i :: i in st.images.rows && st.images.rows[i].sceneId == s ==> i in l.images)
      && (forall i :: i in st.clips.rows && st.clips.rows[i].sceneId == s ==> i in l.clips)
      && (forall a, b :: 0 <= a < b < |l.images| ==>
            st.images.rows[l.images[a]].createdAt <= st.images.rows[l.images[b]].createdAt)
      && (forall a, b :: 0 <= a < b < |l.clips| ==>
            st.clips.rows[l.clips[a]].createdAt <= st.clips.rows[l.clips[b]].createdAt)
  {
    if Valid(st) {
      assert Chronological(st.images, st.clock) && Chronological(st.clips, st.clock);
    }
  }

  /**
   * `GET /projects/:id/scenes`: the project's scenes by scene number, each
   * with its images and clips.
   */
  function ListScenes(st: Store, pid: Id): (r: Result<seq<SceneListing>>)
    ensures pid !in st.projects <==> r == Err(NotFound("Project"))
    ensures r.Ok? ==>
      && (forall j, k :: 0 <= j < k < |r.value| ==> SceneLe(st.scenes, r.value[j].id, r.value[k].id) && r.value[j].id != r.value[k].id)
      && (forall k :: 0 <= k < |r.value| ==> r.value[k].id in st.scenes && st.scenes[r.value[k].id].projectId == pid)
      && (forall k :: 0 <= k < |r.value| ==> r.value[k] == Listing(st, r.value[k].id))
  {
    if pid !in st.projects then Err(NotFound("Project"))
    else
      Ok(Listings(st, ProjectScenes(st, pid)))
  }

  /** One listing per id, in the order given. */
  function Listings(st: Store, order: seq<Id>): (r: seq<SceneListing>)
    ensures |r| == |order|
    ensures forall k :: 0 <= k < |r| ==> r[k].id == order[k] && r[k] == Listing(st, order[k])
  {
    seq(|order|, k requires 0 <= k < |order| => Listing(st, order[k]))
  }

  /** In a valid store every scene of the project is listed. */
  lemma ListScenesComplete(st: Store, pid: Id, s: Id)
    requires Valid(st) && pid in st.projects
    requires s in st.scenes && st.scenes[s].projectId == pid
    ensures var r := ListScenes(st, pid);
      r.Ok? && exists k :: 0 <= k < |r.value| && r.value[k].id == s
  {
    var order := ProjectScenes(st, pid);
    ProjectScenesComplete(st, pid, s);
    var k :| 0 <= k < |order| && order[k] == s;
    assert ListScenes(st, pid).value[k].id == s;
  }

  // ---------------------------------------------------------------------------
  // Editing prompts
  // ---------------------------------------------------------------------------

  /**
   * A prompt edit as the client sends it: an absent key is `None`; a key
   * that is present writes its value, and a `null` writes null.
   */
  datatype PromptPatch = PromptPatch(imagePrompt: Option<Option<string>>, animationPrompt: Option<Option<string>>)

  function ApplyPatch(s: Scene, patch: PromptPatch): (r: Scene)
    ensures r.imagePrompt == Override(s.imagePrompt, patch.imagePrompt)
    ensures r.animationPrompt == Override(s.animationPrompt, patch.animationPrompt)
    ensures r == s.(imagePrompt := r.imagePrompt, animationPrompt := r.animationPrompt)
  {
    var s1 := if patch.imagePrompt.Some? then s.(imagePrompt := patch.imagePrompt.value) else s;
    if patch.animationPrompt.Some? then s1.(animationPrompt := patch.animationPrompt.value) else s1
  }

  /** `PATCH /scenes/:id`: writes the supplied prompts and nothing else. */
  function PatchScene(st: Store, id: Id, patch: PromptPatch): (out: Response<Scene>)
    ensures id !in st.scenes <==> out.body == Err(NotFound("Scene"))
    ensures out.body.Err? ==> out.store == st
    ensures out.body.Ok? ==>
      && out.store == st.(scenes := st.scenes[id := out.body.value])
      && out.body.value.imagePrompt == Override(st.scenes[id].imagePrompt, patch.imagePrompt)
      && out.body.value.animationPrompt == Override(st.scenes[id].animationPrompt, patch.animationPrompt)
      && out.body.value == st.scenes[id].(imagePrompt := out.body.value.imagePrompt, animationPrompt := out.body.value.animationPrompt)
  {
    if id !in st.scenes then Response(st, Err(NotFound("Scene")))
    else
      var updated := ApplyPatch(st.scenes[id], patch);
      Response(st.(scenes := st.scenes[id := updated]), Ok(updated))
  }

  /** Sending the same edit twice leaves the scene as sending it once. */
  lemma PatchIdempotent(st: Store, id: Id, patch: PromptPatch)
    ensures var once := PatchScene(st, id, patch);
      PatchScene(once.store, id, patch) == once
  {
  }

  /** An edit with neither key writes the row back unchanged. */
  lemma EmptyPatchIsNoOp(st: Store, id: Id)
    requires id in st.scenes
    ensures PatchScene(st, id, PromptPatch(None, None)) == Response(st, Ok(st.scenes[id]))
  {
  }

  lemma PatchPreservesConsistency(st: Store, id: Id, patch: PromptPatch)
    requires Consistent(st)
    ensures Consistent(PatchScene(st, id, patch).store)
  {
    if id in st.scenes {
      var st' := PatchScene(st, id, patch).store;
      assert forall s :: s in st'.scenes ==> st'.scenes[s].Selected(ImageKind) == st.scenes[s].Selected(ImageKind);
      assert forall s :: s in st'.scenes ==> st'.scenes[s].Selected(ClipKind) == st.scenes[s].Selected(ClipKind);
    }
  }

  // ---------------------------------------------------------------------------
  // Generating one scene's images
  // ---------------------------------------------------------------------------

  const NoImagePromptMessage := "Scene has no image prompt"

  /**
   * What the handler's catch answers when a scene's project relation comes
   * back empty, which the foreign key rules out in a valid store.
   */
  const NoProjectMessage := "Cannot read properties of null (reading 'config')"

  function ImagesMessage(n: nat): string {
    "Started generating " + NatToString(n) + " images"
  }

  /** The records of generate-images for one scene: one per image model and copy, model-major. */
  function SceneImageOrders(st: Store, sceneId: Id): seq<Order>
    requires sceneId in st.scenes && Truthy(st.scenes[sceneId].imagePrompt)
    requires st.scenes[sceneId].projectId in st.projects
  {
    var cfg := st.projects[st.scenes[sceneId].projectId].config;
    SceneOrders(sceneId, None, st.scenes[sceneId].imagePrompt.value, cfg.imageModels, cfg.imagesPerScene)
  }

  /** `POST /scenes/:id/generate-images`, up to its response. */
  function GenerateSceneImages(st: Store, sceneId: Id): (out: Response<Started>)
    ensures sceneId !in st.scenes <==> out.body == Err(NotFound("Scene"))
    ensures sceneId in st.scenes && !Truthy(st.scenes[sceneId].imagePrompt) <==> out.body == Err(Invalid(NoImagePromptMessage))
    ensures out.body.Err? ==> out.store == st
    ensures out.body.Ok? ==>
      && sceneId in st.scenes && Truthy(st.scenes[sceneId].imagePrompt) && st.scenes[sceneId].projectId in st.projects
      && out.store == st.(images := Fill(st.images, SceneImageOrders(st, sceneId), st.clock).table)
      && out.body.value.ids == Fill(st.images, SceneImageOrders(st, sceneId), st.clock).ids
      && out.body.value.count == |out.body.value.ids|
  {
    if sceneId !in st.scenes then Response(st, Err(NotFound("Scene")))
    else
      var scene := st.scenes[sceneId];
      if !Truthy(scene.imagePrompt) then Response(st, Err(Invalid(NoImagePromptMessage)))
      else if scene.projectId !in st.projects then Response(st, Err(Internal(NoProjectMessage)))
      else
        var created := Fill(st.images, SceneImageOrders(st, sceneId), st.clock);
        Response(st.(images := created.table), Ok(Started(ImagesMessage(|created.ids|), |created.ids|, created.ids)))
  }

  /**
   * The records are laid out model by model: the `j`-th copy of the `m`-th
   * image model is a fresh `processing` record of this scene with the
   * scene's prompt, and there are models times copies of them.
   */
  lemma SceneImagesLayout(st: Store, sceneId: Id, m: nat, j: nat)
    requires sceneId in st.scenes && st.scenes[sceneId].projectId in st.projects
    requires var cfg := st.projects[st.scenes[sceneId].projectId].config;
      m < |cfg.imageModels| && j < Copies(cfg.imagesPerScene)
    ensures var out := GenerateSceneImages(st, sceneId);
      var cfg := st.projects[st.scenes[sceneId].projectId].config;
      var c := Copies(cfg.imagesPerScene);
      out.body.Ok? ==>
        && out.body.value.count == |cfg.imageModels| * c
        && m * c + j < |out.body.value.ids|
        && var id := out.body.value.ids[m * c + j];
           id in out.store.images.rows
           && out.store.images.rows[id] == Fresh(Order(sceneId, None, cfg.imageModels[m], st.scenes[sceneId].imagePrompt.value), st.clock)
  {
    var out := GenerateSceneImages(st, sceneId);
    if out.body.Ok? {
      var cfg := st.projects[st.scenes[sceneId].projectId].config;
      var orders := SceneImageOrders(st, sceneId);
      ModelOrderLayout(cfg.imageModels, cfg.imagesPerScene, m, j);
      FilledAt(st.images, orders, st.clock, out.store.images, out.body.value.ids, m * Copies(cfg.imagesPerScene) + j);
    }
  }

  /** The `k`-th id a fill returns names a fresh record built from the `k`-th order. */
  lemma FilledAt(t: ArtifactTable, orders: seq<Order>, clock: nat, t': ArtifactTable, ids: seq<Id>, k: nat)
    requires t' == Fill(t, orders, clock).table && ids == Fill(t, orders, clock).ids
    requires k < |orders|
    ensures |ids| == |orders|
    ensures ids[k] in t'.rows && t'.rows[ids[k]] == Fresh(orders[k], clock)
  {
    FillFresh(t, orders, clock);
  }

  lemma SceneImagesPreservesConsistency(st: Store, sceneId: Id)
    requires Consistent(st)
    ensures Consistent(GenerateSceneImages(st, sceneId).store)
  {
    var out := GenerateSceneImages(st, sceneId);
    if out.body.Ok? {
      var orders := SceneImageOrders(st, sceneId);
      FillPreservesConsistency(st, ImageKind, orders);
      assert st.WithTable(ImageKind, Fill(st.images, orders, st.clock).table) == out.store;
    }
  }

  /** Where the per-scene routes store what they generate: downloaded, named after the record. */
  const ImageStorage := Download(Fal.MediaDir.ImagesDir, "img-")
  const ClipStorage := Download(Fal.MediaDir.ClipsDir, "clip-")

  /** A record settled with a download is completed only with a URL under `/<dir>/<prefix><id>.`. */
  lemma DownloadedUrl(a0: Artifact, id: Id, o: Outcome, dir: Fal.MediaDir, prefix: string, a: Artifact)
    requires a == Settle(a0, id, o, Download(dir, prefix))
    ensures a.status == Completed ==> StartsWith(a.url.value, "/" + dir.Name() + "/" + prefix + NatToString(id) + ".")
  {
    if a.status == Completed {
      var name := prefix + NatToString(id);
      var u := StoredUrl(Download(dir, prefix), id, o.prediction);
      assert a.url == u && u.Some?;
      assert u.value == Fal.LocalUrl(o.prediction.output.value, dir, name);
      Fal.LocalUrlExtension(o.prediction.output.value, dir, name);
      Reassociate("/" + dir.Name() + "/", prefix, NatToString(id), ".");
    }
  }

  /**
   * The background loop of generate-images: each record is settled in turn
   * from its call, storing the downloaded file's URL. No status is written.
   */
  function FinishSceneImages(st: Store, ids: seq<Id>, outcome: nat -> Outcome): (st': Store)
    ensures st'.projects == st.projects && st'.scenes == st.scenes && st'.clips == st.clips
    ensures st'.images.nextId == st.images.nextId && st'.images.rows.Keys == st.images.rows.Keys
    ensures forall i :: i in st.images.rows && i !in ids ==> st'.images.rows[i] == st.images.rows[i]
  {
    st.(images := st.images.(rows := RunBatch(st.images.rows, ids, outcome, ImageStorage).rows))
  }

  /**
   * Each record reached settles from its own call: completed with
   * `/images/img-<id>.<ext>` when a URL came back, failed otherwise.
   */
  lemma FinishSceneImagesSettles(st: Store, ids: seq<Id>, outcome: nat -> Outcome, j: nat)
    requires Distinct(ids) && j < |ids|
    requires forall m :: 0 <= m <= j ==> ids[m] in st.images.rows
    ensures var a := FinishSceneImages(st, ids, outcome).images.rows[ids[j]];
      && a == Settle(st.images.rows[ids[j]], ids[j], outcome(j), ImageStorage)
      && (a.status == Completed ==>
            StartsWith(a.url.value, "/images/img-" + NatToString(ids[j]) + "."))
  {
    RunBatchSettles(st.images.rows, ids, outcome, ImageStorage, j);
    var a := FinishSceneImages(st, ids, outcome).images.rows[ids[j]];
    DownloadedUrl(st.images.rows[ids[j]], ids[j], outcome(j), Fal.MediaDir.ImagesDir, "img-", a);
    ImagePath(NatToString(ids[j]));
  }

  lemma ImagePath(n: string)
    ensures "/" + Fal.MediaDir.ImagesDir.Name() + "/" + "img-" + n + "." == "/images/img-" + n + "."
  {
    assert Fal.MediaDir.ImagesDir.Name() == "images";
  }

  /**
   * generate-images' background loop as written: the route imports
   * `downloadToLocal` from the Replicate service, so every call that
   * returns a URL throws there, and no image ever ends completed.
   */
  function FinishSceneImagesAsWritten(st: Store, ids: seq<Id>, outcome: nat -> Outcome): (st': Store)
    ensures st'.projects == st.projects && st'.scenes == st.scenes && st'.clips == st.clips
    ensures st'.images.rows.Keys == st.images.rows.Keys
    ensures forall i :: i in st'.images.rows && st'.images.rows[i].status == Completed ==> st.images.rows[i] == st'.images.rows[i]
    ensures forall j :: 0 <= j < |ids| && (forall m :: 0 <= m <= j ==> ids[m] in st.images.rows) ==>
      st'.images.rows[ids[j]].status == Failed
  {
    st.(images := st.images.(rows := RunUnboundFrom(st.images.rows, ids, outcome, 0)))
  }

  /** A generated image with a URL: failed as written, completed once the download is bound. */
  lemma GoodImageFailsAsWritten(st: Store, id: Id, pid: string, url: string)
    requires id in st.images.rows && url != ""
    ensures
      var o := (k: nat) => Returned(pid, Replicate.Prediction(Replicate.Succeeded, Some(url)));
      && FinishSceneImagesAsWritten(st, [id], o).images.rows[id].status == Failed
      && FinishSceneImages(st, [id], o).images.rows[id].status == Completed
  {
    var o := (k: nat) => Returned(pid, Replicate.Prediction(Replicate.Succeeded, Some(url)));
    FinishSceneImagesSettles(st, [id], o, 0);
  }

  lemma FinishSceneImagesPreservesConsistency(st: Store, ids: seq<Id>, outcome: nat -> Outcome)
    requires Consistent(st)
    ensures Consistent(FinishSceneImages(st, ids, outcome))
  {
    RunBatchPreservesConsistency(st, ImageKind, ids, outcome, ImageStorage);
    assert FinishSceneImages(st, ids, outcome)
      == st.WithTable(ImageKind, st.images.(rows := RunBatch(st.images.rows, ids, outcome, ImageStorage).rows));
  }

  // ---------------------------------------------------------------------------
  // Generating one scene's clips
  // ---------------------------------------------------------------------------

  const NoSelectedImageMessage := "No selected image with a URL found for this scene"

  function ClipsMessage(n: nat): string {
    "Started generating " + NatToString(n) + " clips"
  }

  /** The animation prompt the clips get: the scene's own when it has one, the generated one otherwise. */
  function ClipPrompt(scene: Scene, generated: Result<string>): (r: Result<string>)
    ensures Truthy(scene.animationPrompt) ==> r == Ok(scene.animationPrompt.value)
    ensures !Truthy(scene.animationPrompt) ==> r == generated
  {
    if Truthy(scene.animationPrompt) then Ok(scene.animationPrompt.value) else generated
  }

  /** The records of generate-clips: one per animation model, each animating the selected image. */
  function SceneClipOrders(st: Store, sceneId: Id, prompt: string): seq<Order>
    requires sceneId in st.scenes && st.scenes[sceneId].projectId in st.projects
  {
    var cfg := st.projects[st.scenes[sceneId].projectId].config;
    SceneOrders(sceneId, FirstSelected(st.images, sceneId), prompt, cfg.animationModels, 1)
  }

  /** The writes of generate-clips once its prompt is known: the prompt onto the scene, then the records. */
  function StartClips(st: Store, sceneId: Id, prompt: string): (out: Response<Started>)
    requires sceneId in st.scenes && st.scenes[sceneId].projectId in st.projects
    ensures out.body.Ok?
    ensures out.store.projects == st.projects && out.store.images == st.images && out.store.clock == st.clock
    ensures out.store.scenes == st.scenes[sceneId := st.scenes[sceneId].(animationPrompt := Some(prompt))]
    ensures out.store.clips == Fill(st.clips, SceneClipOrders(st, sceneId, prompt), st.clock).table
    ensures out.body.value.ids == Fill(st.clips, SceneClipOrders(st, sceneId, prompt), st.clock).ids
    ensures out.body.value.count == |out.body.value.ids|
  {
    var st1 := st.(scenes := st.scenes[sceneId := st.scenes[sceneId].(animationPrompt := Some(prompt))]);
    var created := Fill(st.clips, SceneClipOrders(st, sceneId, prompt), st.clock);
    Response(st1.(clips := created.table), Ok(Started(ClipsMessage(|created.ids|), |created.ids|, created.ids)))
  }

  /**
   * `POST /scenes/:id/generate-clips`, up to its response. `generated` is
   * what `generateAnimationPrompt` returns if the route has to call it: the
   * prompt, or the error it throws. A generated prompt is written to the
   * scene before any clip record is created.
   */
  function GenerateSceneClips(st: Store, sceneId: Id, generated: Result<string>): (out: Response<Started>)
    ensures sceneId !in st.scenes <==> out.body == Err(NotFound("Scene"))
    ensures sceneId in st.scenes ==>
      (out.body == Err(Invalid(NoSelectedImageMessage)) <==>
        var sel := FirstSelected(st.images, sceneId);
        sel.None? || !Truthy(st.images.rows[sel.value].url))
    ensures out.body.Err? ==> out.store == st
    ensures out.body.Ok? ==>
      && sceneId in st.scenes && st.scenes[sceneId].projectId in st.projects
      && FirstSelected(st.images, sceneId).Some?
      && ClipPrompt(st.scenes[sceneId], generated).Ok?
      && out == StartClips(st, sceneId, ClipPrompt(st.scenes[sceneId], generated).value)
  {
    if sceneId !in st.scenes then Response(st, Err(NotFound("Scene")))
    else
      var scene := st.scenes[sceneId];
      var sel := FirstSelected(st.images, sceneId);
      if sel.None? || !Truthy(st.images.rows[sel.value].url) then Response(st, Err(Invalid(NoSelectedImageMessage)))
      else if scene.projectId !in st.projects then Response(st, Err(Internal(NoProjectMessage)))
      else match ClipPrompt(scene, generated)
        case Err(e) => Response(st, Err(Internal(Message(e))))
        case Ok(prompt) => StartClips(st, sceneId, prompt)
  }

  /**
   * One `processing` clip per animation model, in model order, each
   * animating the selected image with the scene's animation prompt.
   */
  lemma SceneClipsOnePerModel(st: Store, sceneId: Id, generated: Result<string>, m: nat)
    requires sceneId in st.scenes && st.scenes[sceneId].projectId in st.projects
    requires m < |st.projects[st.scenes[sceneId].projectId].config.animationModels|
    ensures var out := GenerateSceneClips(st, sceneId, generated);
      var models := st.projects[st.scenes[sceneId].projectId].config.animationModels;
      out.body.Ok? ==>
        && out.body.value.count == |models|
        && |out.body.value.ids| == |models|
        && var id := out.body.value.ids[m];
           id in out.store.clips.rows
           && out.store.clips.rows[id] == Fresh(Order(sceneId, FirstSelected(st.images, sceneId), models[m], out.store.scenes[sceneId].animationPrompt.value), st.clock)
  {
    var out := GenerateSceneClips(st, sceneId, generated);
    if out.body.Ok? {
      var models := st.projects[st.scenes[sceneId].projectId].config.animationModels;
      var prompt := ClipPrompt(st.scenes[sceneId], generated).value;
      var orders := SceneClipOrders(st, sceneId, prompt);
      ModelOrderLayout(models, 1, m, 0);
      assert Copies(1) == 1;
      assert |orders| == |models| && orders[m] == Order(sceneId, FirstSelected(st.images, sceneId), models[m], prompt);
      FilledAt(st.clips, orders, st.clock, out.store.clips, out.body.value.ids, m);
    }
  }

  /** A scene that already has an animation prompt keeps it, and the generator's answer plays no part. */
  lemma ExistingAnimationPromptReused(st: Store, sceneId: Id, g1: Result<string>, g2: Result<string>)
    requires sceneId in st.scenes && Truthy(st.scenes[sceneId].animationPrompt)
    ensures GenerateSceneClips(st, sceneId, g1) == GenerateSceneClips(st, sceneId, g2)
    ensures var out := GenerateSceneClips(st, sceneId, g1);
      out.body.Ok? ==> out.store.scenes == st.scenes
  {
  }

  /** A failed prompt generation answers 500 and leaves no trace: no prompt written, no record created. */
  lemma FailedPromptLeavesNoTrace(st: Store, sceneId: Id, e: ApiError)
    requires sceneId in st.scenes && !Truthy(st.scenes[sceneId].animationPrompt)
    ensures var out := GenerateSceneClips(st, sceneId, Err(e));
      out.body.Err? && out.store == st
  {
  }

  lemma SceneClipsPreservesConsistency(st: Store, sceneId: Id, generated: Result<string>)
    requires Consistent(st)
    ensures Consistent(GenerateSceneClips(st, sceneId, generated).store)
  {
    var out := GenerateSceneClips(st, sceneId, generated);
    if out.body.Ok? {
      StartClipsConsistent(st, sceneId, ClipPrompt(st.scenes[sceneId], generated).value);
    }
  }

  lemma StartClipsConsistent(st: Store, sceneId: Id, prompt: string)
    requires Consistent(st) && sceneId in st.scenes && st.scenes[sceneId].projectId in st.projects
    ensures Consistent(StartClips(st, sceneId, prompt).store)
  {
    var st1 := st.(scenes := st.scenes[sceneId := st.scenes[sceneId].(animationPrompt := Some(prompt))]);
    assert forall s :: s in st1.scenes ==> st1.scenes[s].Selected(ImageKind) == st.scenes[s].Selected(ImageKind);
    assert forall s :: s in st1.scenes ==> st1.scenes[s].Selected(ClipKind) == st.scenes[s].Selected(ClipKind);
    assert Consistent(st1);
    var orders := SceneClipOrders(st, sceneId, prompt);
    FillPreservesConsistency(st1, ClipKind, orders);
    assert st1.WithTable(ClipKind, Fill(st1.clips, orders, st1.clock).table) == StartClips(st, sceneId, prompt).store;
  }

  /** The background loop of generate-clips: as for images, into the clips directory. No status is written. */
  function FinishSceneClips(st: Store, ids: seq<Id>, outcome: nat -> Outcome): (st': Store)
    ensures st'.projects == st.projects && st'.scenes == st.scenes && st'.images == st.images
    ensures st'.clips.nextId == st.clips.nextId && st'.clips.rows.Keys == st.clips.rows.Keys
    ensures forall i :: i in st.clips.rows && i !in ids ==> st'.clips.rows[i] == st.clips.rows[i]
  {
    st.(clips := st.clips.(rows := RunBatch(st.clips.rows, ids, outcome, ClipStorage).rows))
  }

  lemma FinishSceneClipsSettles(st: Store, ids: seq<Id>, outcome: nat -> Outcome, j: nat)
    requires Distinct(ids) && j < |ids|
    requires forall m :: 0 <= m <= j ==> ids[m] in st.clips.rows
    ensures var a := FinishSceneClips(st, ids, outcome).clips.rows[ids[j]];
      && a == Settle(st.clips.rows[ids[j]], ids[j], outcome(j), ClipStorage)
      && (a.status == Completed ==>
            StartsWith(a.url.value, "/clips/clip-" + NatToString(ids[j]) + "."))
  {
    RunBatchSettles(st.clips.rows, ids, outcome, ClipStorage, j);
    var a := FinishSceneClips(st, ids, outcome).clips.rows[ids[j]];
    DownloadedUrl(st.clips.rows[ids[j]], ids[j], outcome(j), Fal.MediaDir.ClipsDir, "clip-", a);
    ClipPath(NatToString(ids[j]));
  }

  lemma ClipPath(n: string)
    ensures "/" + Fal.MediaDir.ClipsDir.Name() + "/" + "clip-" + n + "." == "/clips/clip-" + n + "."
  {
    assert Fal.MediaDir.ClipsDir.Name() == "clips";
  }

  /** generate-clips' background loop as written: as for images, no clip ever ends completed. */
  function FinishSceneClipsAsWritten(st: Store, ids: seq<Id>, outcome: nat -> Outcome): (st': Store)
    ensures st'.projects == st.projects && st'.scenes == st.scenes && st'.images == st.images
    ensures st'.clips.rows.Keys == st.clips.rows.Keys
    ensures forall i :: i in st'.clips.rows && st'.clips.rows[i].status == Completed ==> st.clips.rows[i] == st'.clips.rows[i]
    ensures forall j :: 0 <= j < |ids| && (forall m :: 0 <= m <= j ==> ids[m] in st.clips.rows) ==>
      st'.clips.rows[ids[j]].status == Failed
  {
    st.(clips := st.clips.(rows := RunUnboundFrom(st.clips.rows, ids, outcome, 0)))
  }

  /** A generated clip with a URL: failed as written, completed once the download is bound. */
  lemma GoodClipFailsAsWritten(st: Store, id: Id, pid: string, url: string)
    requires id in st.clips.rows && url != ""
    ensures
      var o := (k: nat) => Returned(pid, Replicate.Prediction(Replicate.Succeeded, Some(url)));
      && FinishSceneClipsAsWritten(st, [id], o).clips.rows[id].status == Failed
      && FinishSceneClips(st, [id], o).clips.rows[id].status == Completed
  {
    var o := (k: nat) => Returned(pid, Replicate.Prediction(Replicate.Succeeded, Some(url)));
    FinishSceneClipsSettles(st, [id], o, 0);
  }

  lemma FinishSceneClipsPreservesConsistency(st: Store, ids: seq<Id>, outcome: nat -> Outcome)
    requires Consistent(st)
    ensures Consistent(FinishSceneClips(st, ids, outcome))
  {
    RunBatchPreservesConsistency(st, ClipKind, ids, outcome, ClipStorage);
    assert FinishSceneClips(st, ids, outcome)
      == st.WithTable(ClipKind, st.clips.(rows := RunBatch(st.clips.rows, ids, outcome, ClipStorage).rows));
  }
}

=== FILE: selection.dfy ===
/**
 * Choosing the image or clip a scene goes forward with, and listing a scene's
 * images or clips (`PATCH /images/:id/select`, `PATCH /clips/:id/select`,
 * `GET /scenes/:id/images`, `GET /scenes/:id/clips`). The three writes of a
 * selection are taken as one step.
 */
module Selection {
  import opened Outcomes
  import opened Store

  /** Clears the flag on every artifact of the target's scene, then raises it on the target. */
  function SelectRows(t: map<Id, Artifact>, id: Id): (r: map<Id, Artifact>)
    requires id in t
    ensures r.Keys == t.Keys
    ensures r[id] == t[id].(isSelected := true)
    ensures forall i :: i in t && i != id && t[i].sceneId == t[id].sceneId ==> r[i] == t[i].(isSelected := false)
    ensures forall i :: i in t && t[i].sceneId != t[id].sceneId ==> r[i] == t[i]
  {
    var cleared := map i | i in t :: if t[i].sceneId == t[id].sceneId then t[i].(isSelected := false) else t[i];
    cleared[id := t[id].(isSelected := true)]
  }

  function KindName(kind: Kind): string {
    if kind.ImageKind? then "Image" else "Clip"
  }

  /**
   * Selection of one artifact. A missing artifact is `NotFound` and writes
   * nothing. The flag writes happen before the scene write, so if the owning
   * scene were missing the flags would already be changed when the scene
   * update fails; a valid store never reaches that branch.
   */
  function Select(st: Store, kind: Kind, id: Id): (out: Response<Artifact>)
    ensures id !in st.Table(kind).rows <==> out.body == Err(NotFound(KindName(kind)))
    ensures id !in st.Table(kind).rows ==> out.store == st
    ensures id in st.Table(kind).rows ==>
      && out.store.Table(kind) == st.Table(kind).(rows := SelectRows(st.Table(kind).rows, id))
      && out.store.Table(kind.Other()) == st.Table(kind.Other())
      && out.store.projects == st.projects
      && out.store.nextProjectId == st.nextProjectId
      && out.store.nextSceneId == st.nextSceneId
      && out.store.clock == st.clock
    ensures id in st.Table(kind).rows && st.Table(kind).rows[id].sceneId in st.scenes ==>
      var s := st.Table(kind).rows[id].sceneId;
      && out.store.scenes == st.scenes[s := st.scenes[s].WithSelected(kind, id)]
      && out.body == Ok(st.Table(kind).rows[id].(isSelected := true))
    ensures id in st.Table(kind).rows && st.Table(kind).rows[id].sceneId !in st.scenes ==>
      out.body.Err? && out.store.scenes == st.scenes
  {
    var table := st.Table(kind);
    if id !in table.rows then Response(st, Err(NotFound(KindName(kind))))
    else
      var sceneId := table.rows[id].sceneId;
      var rows := SelectRows(table.rows, id);
      var st1 := st.WithTable(kind, table.(rows := rows));
      if sceneId !in st.scenes then Response(st1, Err(Internal("Record to update not found.")))
      else
        var st2 := st1.(scenes := st.scenes[sceneId := st.scenes[sceneId].WithSelected(kind, id)]);
        Response(st2, Ok(rows[id]))
  }

  /**
   * `PATCH /images/:id/select`. The image's status plays no part: a failed
   * or still processing image can be selected.
   */
  function SelectImage(st: Store, id: Id): (out: Response<Artifact>)
    ensures id !in st.images.rows ==> out == Response(st, Err(NotFound("Image")))
    ensures id in st.images.rows && st.images.rows[id].sceneId in st.scenes ==>
      var s := st.images.rows[id].sceneId;
      var t := out.store.images.rows;
      && out.body.Ok? && out.body.value.isSelected
      && t.Keys == st.images.rows.Keys
      && t[id].isSelected
      && (forall i :: (i in t && t[i].sceneId == s && t[i].isSelected) ==> i == id)
      && out.store.scenes.Keys == st.scenes.Keys
      && out.store.scenes[s] == st.scenes[s].(selectedImageId := Some(id))
      && (forall sc :: sc in st.scenes && sc != s ==> out.store.scenes[sc] == st.scenes[sc])
      && (forall i :: i in st.images.rows && st.images.rows[i].sceneId != s ==> t[i] == st.images.rows[i])
      && out.store.clips == st.clips
  {
    Select(st, ImageKind, id)
  }

  /** `PATCH /clips/:id/select`: the same rules over a scene's clips. */
  function SelectClip(st: Store, id: Id): (out: Response<Artifact>)
    ensures id !in st.clips.rows ==> out == Response(st, Err(NotFound("Clip")))
    ensures id in st.clips.rows && st.clips.rows[id].sceneId in st.scenes ==>
      var s := st.clips.rows[id].sceneId;
      var t := out.store.clips.rows;
      && out.body.Ok? && out.body.value.isSelected
      && t.Keys == st.clips.rows.Keys
      && t[id].isSelected
      && (forall i :: (i in t && t[i].sceneId == s && t[i].isSelected) ==> i == id)
      && out.store.scenes.Keys == st.scenes.Keys
      && out.store.scenes[s] == st.scenes[s].(selectedClipId := Some(id))
      && (forall sc :: sc in st.scenes && sc != s ==> out.store.scenes[sc] == st.scenes[sc])
      && (forall i :: i in st.clips.rows && st.clips.rows[i].sceneId != s ==> t[i] == st.clips.rows[i])
      && out.store.images == st.images
  {
    Select(st, ClipKind, id)
  }

  /** Selecting the same artifact a second time changes nothing further. */
  lemma SelectIdempotent(st: Store, kind: Kind, id: Id)
    ensures Select(Select(st, kind, id).store, kind, id) == Select(st, kind, id)
  {
    var once := Select(st, kind, id);
    if id in st.Table(kind).rows {
      var twice := Select(once.store, kind, id);
      var t1 := once.store.Table(kind).rows;
      var t2 := twice.store.Table(kind).rows;
      assert t2 == t1;
      assert twice.store.Table(kind) == once.store.Table(kind);
      assert twice.store == once.store;
    }
  }

  lemma SelectRowsAgree(scenes: map<Id, Scene>, t: map<Id, Artifact>, kind: Kind, id: Id)
    requires SelectionAgrees(scenes, t, kind)
    requires id in t && t[id].sceneId in scenes
    ensures
      var s := t[id].sceneId;
      SelectionAgrees(scenes[s := scenes[s].WithSelected(kind, id)], SelectRows(t, id), kind)
  {
    var s := t[id].sceneId;
    var scenes' := scenes[s := scenes[s].WithSelected(kind, id)];
    var t' := SelectRows(t, id);
    forall sc, i | sc in scenes' && i in t' && t'[i].sceneId == sc
      ensures t'[i].isSelected <==> scenes'[sc].Selected(kind) == Some(i)
    {
      if sc != s {
        assert t'[i] == t[i];
      }
    }
  }

  lemma OtherKindAgrees(scenes: map<Id, Scene>, t: map<Id, Artifact>, kind: Kind, s: Id, id: Id)
    requires SelectionAgrees(scenes, t, kind.Other())
    requires s in scenes
    ensures SelectionAgrees(scenes[s := scenes[s].WithSelected(kind, id)], t, kind.Other())
  {
    var scenes' := scenes[s := scenes[s].WithSelected(kind, id)];
    assert forall sc :: sc in scenes ==> scenes'[sc].Selected(kind.Other()) == scenes[sc].Selected(kind.Other());
  }

  /** Selection keeps the store consistent: one selected artifact per scene, agreeing with its back-reference. */
  lemma SelectPreservesConsistency(st: Store, kind: Kind, id: Id)
    requires Consistent(st)
    ensures Consistent(Select(st, kind, id).store)
  {
    if id in st.Table(kind).rows {
      var t := st.Table(kind).rows;
      var s := t[id].sceneId;
      var rows' := SelectRows(t, id);
      var scenes' := st.scenes[s := st.scenes[s].WithSelected(kind, id)];
      var st' := st.WithTable(kind, st.Table(kind).(rows := rows')).(scenes := scenes');
      assert Select(st, kind, id).store == st';
      if kind.ImageKind? {
        ConsistentAfterFlags(st, st', ImageKind, id);
      } else {
        ConsistentAfterFlags(st, st', ClipKind, id);
      }
    }
  }

  lemma ConsistentAfterFlags(st: Store, st': Store, kind: Kind, id: Id)
    requires Consistent(st) && id in st.Table(kind).rows
    requires var t := st.Table(kind).rows;
      var s := t[id].sceneId;
      st' == st.WithTable(kind, st.Table(kind).(rows := SelectRows(t, id))).(scenes := st.scenes[s := st.scenes[s].WithSelected(kind, id)])
    ensures Consistent(st')
  {
    var t := st.Table(kind).rows;
    var s := t[id].sceneId;
    ValidAfterFlags(st, st', kind, id);
    SelectRowsAgree(st.scenes, t, kind, id);
    OtherKindAgrees(st.scenes, st.Table(kind.Other()).rows, kind, s, id);
    ConsistentByKind(st', kind);
  }

  lemma ValidAfterFlags(st: Store, st': Store, kind: Kind, id: Id)
    requires Valid(st) && id in st.Table(kind).rows
    requires var t := st.Table(kind).rows;
      var s := t[id].sceneId;
      st' == st.WithTable(kind, st.Table(kind).(rows := SelectRows(t, id))).(scenes := st.scenes[s := st.scenes[s].WithSelected(kind, id)])
    ensures Valid(st')
  {
    SelectRowsSkeleton(st.Table(kind), id);
    assert forall s :: s in st.scenes ==> st'.scenes[s].projectId == st.scenes[s].projectId;
    if kind.ImageKind? {
      ValidUnderRewrite(st, st');
    } else {
      ValidUnderRewrite(st, st');
    }
  }

  lemma SelectRowsSkeleton(t: ArtifactTable, id: Id)
    requires id in t.rows
    ensures SameSkeleton(t, t.(rows := SelectRows(t.rows, id)))
  {
  }

  /** Picking A and then B in the same scene leaves only B selected, and the scene names B. */
  lemma SelectSecondReplacesFirst(st: Store, kind: Kind, a: Id, b: Id)
    requires Consistent(st)
    requires a in st.Table(kind).rows && b in st.Table(kind).rows && a != b
    requires st.Table(kind).rows[a].sceneId == st.Table(kind).rows[b].sceneId
    ensures
      var final := Select(Select(st, kind, a).store, kind, b).store;
      var s := st.Table(kind).rows[a].sceneId;
      && !final.Table(kind).rows[a].isSelected
      && final.Table(kind).rows[b].isSelected
      && final.scenes[s].Selected(kind) == Some(b)
  {
  }

  /**
   * `GET /scenes/:id/images` and `GET /scenes/:id/clips`: `NotFound` for a
   * missing scene, otherwise exactly that scene's artifacts in creation order.
   */
  function ListSceneArtifacts(st: Store, kind: Kind, sceneId: Id): (r: Result<seq<Id>>)
    ensures sceneId !in st.scenes <==> r == Err(NotFound("Scene"))
    ensures r.Ok? ==>
      var t := st.Table(kind).rows;
      && (forall k :: 0 <= k < |r.value| ==> r.value[k] in t && t[r.value[k]].sceneId == sceneId)
      && (forall j, k :: 0 <= j < k < |r.value| ==> r.value[j] < r.value[k])
    ensures r.Ok? && Chronological(st.Table(kind), st.clock) ==>
      var t := st.Table(kind).rows;
      && (forall i :: i in t && t[i].sceneId == sceneId ==> i in r.value)
      && (forall j, k :: 0 <= j < k < |r.value| ==> t[r.value[j]].createdAt <= t[r.value[k]].createdAt)
  {
    if sceneId !in st.scenes then Err(NotFound("Scene"))
    else
      var t := st.Table(kind);
      Ok(ArtifactsOf(t.rows, sceneId, t.nextId))
  }

  function ListSceneImages(st: Store, sceneId: Id): (r: Result<seq<Id>>)
    ensures sceneId !in st.scenes <==> r == Err(NotFound("Scene"))
    ensures r.Ok? ==>
      forall k :: 0 <= k < |r.value| ==> r.value[k] in st.images.rows && st.images.rows[r.value[k]].sceneId == sceneId
    ensures r.Ok? && Valid(st) ==>
      && (forall i :: i in st.images.rows && st.images.rows[i].sceneId == sceneId ==> i in r.value)
      && (forall j, k :: 0 <= j < k < |r.value| ==>
            st.images.rows[r.value[j]].createdAt <= st.images.rows[r.value[k]].createdAt)
  {
    ListSceneArtifacts(st, ImageKind, sceneId)
  }

  function ListSceneClips(st: Store, sceneId: Id): (r: Result<seq<Id>>)
    ensures sceneId !in st.scenes <==> r == Err(NotFound("Scene"))
    ensures r.Ok? ==>
      forall k :: 0 <= k < |r.value| ==> r.value[k] in st.clips.rows && st.clips.rows[r.value[k]].sceneId == sceneId
    ensures r.Ok? && Valid(st) ==>
      && (forall i :: i in st.clips.rows && st.clips.rows[i].sceneId == sceneId ==> i in r.value)
      && (forall j, k :: 0 <= j < k < |r.value| ==>
            st.clips.rows[r.value[j]].createdAt <= st.clips.rows[r.value[k]].createdAt)
  {
    ListSceneArtifacts(st, ClipKind, sceneId)
  }
}

=== FILE: store.dfy ===
/**
 * The artifact store: projects, scenes, generated images and generated clips,
 * each table keyed by an auto-incremented identifier, as an immutable value.
 * Images and clips have the same shape and the same selection rules, so one
 * `Artifact` record and one `ArtifactTable` serve both kinds.
 */
module Store {
  import opened Outcomes

  type Id = nat

  datatype ArtifactStatus = Pending | Processing | Completed | Failed

  /** The project life-cycle states, in the order the pipeline normally visits them. */
  datatype ProjectStatus =
    | Draft | Splitting | ScenesReady
    | GeneratingImages | ImagesReady
    | GeneratingClips | ClipsReady
    | GeneratingNarration | NarrationReady
    | Rendering | Rendered
  {
    /** The wire spelling stored in the status column. */
    function Name(): string {
      match this
      case Draft => "draft"
      case Splitting => "splitting"
      case ScenesReady => "scenes_ready"
      case GeneratingImages => "generating_images"
      case ImagesReady => "images_ready"
      case GeneratingClips => "generating_clips"
      case ClipsReady => "clips_ready"
      case GeneratingNarration => "generating_narration"
      case NarrationReady => "narration_ready"
      case Rendering => "rendering"
      case Rendered => "rendered"
    }
  }

  /** The per-project configuration bundle. */
  datatype Config = Config(
    imagesPerScene: int,
    imageModels: seq<string>,
    animationModels: seq<string>,
    stylePromptPrefix: string,
    format: Option<string>,
    voiceId: Option<string>,
    ttsModel: string,
    maxScenes: Option<int>)

  /**
   * A configuration object as a client sends it: every key may be absent.
   * For the nullable keys the inner option is the supplied value, so a key
   * sent as `null` overrides the default with `null`.
   */
  datatype ConfigPatch = ConfigPatch(
    imagesPerScene: Option<int>,
    imageModels: Option<seq<string>>,
    animationModels: Option<seq<string>>,
    stylePromptPrefix: Option<string>,
    format: Option<Option<string>>,
    voiceId: Option<Option<string>>,
    ttsModel: Option<string>,
    maxScenes: Option<Option<int>>)

  const EmptyPatch := ConfigPatch(None, None, None, None, None, None, None, None)

  function Override<T>(default: T, supplied: Option<T>): T {
    if supplied.Some? then supplied.value else default
  }

  datatype Project = Project(title: string, scriptContent: string, status: ProjectStatus, config: Config)

  datatype Scene = Scene(
    projectId: Id,
    sceneNumber: int,
    title: string,
    narrativeText: string,
    startTimestamp: Option<string>,
    endTimestamp: Option<string>,
    tags: seq<string>,
    imagePrompt: Option<string>,
    animationPrompt: Option<string>,
    status: ArtifactStatus,
    audioUrl: Option<string>,
    selectedImageId: Option<Id>,
    selectedClipId: Option<Id>)
  {
    /** The back-reference to the selected artifact of one kind. */
    function Selected(kind: Kind): Option<Id> {
      match kind
      case ImageKind => selectedImageId
      case ClipKind => selectedClipId
    }

    function WithSelected(kind: Kind, id: Id): (s: Scene)
      ensures s.Selected(kind) == Some(id)
      ensures s.Selected(kind.Other()) == Selected(kind.Other())
      ensures s.projectId == projectId
    {
      match kind
      case ImageKind => this.(selectedImageId := Some(id))
      case ClipKind => this.(selectedClipId := Some(id))
    }
  }

  datatype Kind = ImageKind | ClipKind {
    function Other(): Kind {
      if ImageKind? then ClipKind else ImageKind
    }
  }

  /**
   * A generated image or clip. `url` is the image or clip locator,
   * `prompt` the image prompt or the animation prompt, and `sourceImageId`
   * is set only on clips (the image they animate).
   */
  datatype Artifact = Artifact(
    sceneId: Id,
    sourceImageId: Option<Id>,
    model: string,
    prompt: string,
    url: Option<string>,
    predictionId: Option<string>,
    status: ArtifactStatus,
    isSelected: bool,
    createdAt: nat)

  datatype ArtifactTable = ArtifactTable(rows: map<Id, Artifact>, nextId: Id)

  datatype Store = Store(
    projects: map<Id, Project>,
    nextProjectId: Id,
    scenes: map<Id, Scene>,
    nextSceneId: Id,
    images: ArtifactTable,
    clips: ArtifactTable,
    clock: nat)
  {
    function Table(kind: Kind): ArtifactTable {
      match kind
      case ImageKind => images
      case ClipKind => clips
    }

    function WithTable(kind: Kind, t: ArtifactTable): (st: Store)
      ensures st.Table(kind) == t && st.Table(kind.Other()) == Table(kind.Other())
      ensures st.projects == projects && st.scenes == scenes && st.clock == clock
      ensures st.nextProjectId == nextProjectId && st.nextSceneId == nextSceneId
    {
      match kind
      case ImageKind => this.(images := t)
      case ClipKind => this.(clips := t)
    }

    function WithStatus(pid: Id, status: ProjectStatus): (st: Store)
      requires pid in projects
      ensures st.projects.Keys == projects.Keys
      ensures st.projects[pid].status == status
      ensures st.projects[pid] == projects[pid].(status := status)
      ensures forall p :: p in projects && p != pid ==> st.projects[p] == projects[p]
      ensures st.scenes == scenes && st.images == images && st.clips == clips
    {
      this.(projects := projects[pid := projects[pid].(status := status)])
    }
  }

  /** What a route answers, together with the store as the route leaves it. */
  datatype Response<+T> = Response(store: Store, body: Result<T>)

  const EmptyStore := Store(map[], 1, map[], 1, ArtifactTable(map[], 1), ArtifactTable(map[], 1), 0)

  // ---------------------------------------------------------------------------
  // Well-formedness: what the database's keys, foreign keys and clocks guarantee
  // ---------------------------------------------------------------------------

  ghost predicate FreshBelow<T>(m: map<Id, T>, next: Id) {
    forall k :: k in m ==> k < next
  }

  /** Records are stamped with a non-decreasing clock, so creation order is id order. */
  ghost predicate Chronological(t: ArtifactTable, clock: nat) {
    && FreshBelow(t.rows, t.nextId)
    && (forall i :: i in t.rows ==> t.rows[i].createdAt <= clock)
    && (forall i, j :: i in t.rows && j in t.rows && i < j ==> t.rows[i].createdAt <= t.rows[j].createdAt)
  }

  ghost predicate Valid(st: Store) {
    && FreshBelow(st.projects, st.nextProjectId)
    && FreshBelow(st.scenes, st.nextSceneId)
    && Chronological(st.images, st.clock)
    && Chronological(st.clips, st.clock)
    && (forall s :: s in st.scenes ==> st.scenes[s].projectId in st.projects)
    && (forall i :: i in st.images.rows ==> st.images.rows[i].sceneId in st.scenes)
    && (forall i :: i in st.clips.rows ==> st.clips.rows[i].sceneId in st.scenes)
  }

  /**
   * The selection invariant for one artifact kind: within every scene an
   * artifact carries `isSelected` exactly when the scene's back-reference
   * names it, and a back-reference always names an artifact of that scene.
   */
  ghost predicate SelectionAgrees(scenes: map<Id, Scene>, t: map<Id, Artifact>, kind: Kind) {
    && (forall s, i :: s in scenes && i in t && t[i].sceneId == s ==>
          (t[i].isSelected <==> scenes[s].Selected(kind) == Some(i)))
    && (forall s :: s in scenes && scenes[s].Selected(kind).Some? ==>
          scenes[s].Selected(kind).value in t && t[scenes[s].Selected(kind).value].sceneId == s)
  }

  ghost predicate Consistent(st: Store) {
    && Valid(st)
    && SelectionAgrees(st.scenes, st.images.rows, ImageKind)
    && SelectionAgrees(st.scenes, st.clips.rows, ClipKind)
  }

  ghost predicate AtMostOneSelectedPerScene(t: map<Id, Artifact>) {
    forall i, j :: i in t && j in t && t[i].sceneId == t[j].sceneId && t[i].isSelected && t[j].isSelected ==> i == j
  }

  /** Two tables with the same ids, owners and creation stamps. */
  ghost predicate SameSkeleton(t: ArtifactTable, t': ArtifactTable) {
    && t'.nextId == t.nextId
    && t'.rows.Keys == t.rows.Keys
    && (forall i :: i in t.rows ==> t'.rows[i].sceneId == t.rows[i].sceneId && t'.rows[i].createdAt == t.rows[i].createdAt)
  }

  /** Rewriting fields that no key, foreign key or stamp depends on keeps a store valid. */
  lemma ValidUnderRewrite(st: Store, st': Store)
    requires Valid(st)
    requires st'.projects.Keys == st.projects.Keys && st'.nextProjectId == st.nextProjectId
    requires st'.scenes.Keys == st.scenes.Keys && st'.nextSceneId == st.nextSceneId
    requires forall s :: s in st.scenes ==> st'.scenes[s].projectId == st.scenes[s].projectId
    requires SameSkeleton(st.images, st'.images) && SameSkeleton(st.clips, st'.clips)
    requires st'.clock == st.clock
    ensures Valid(st')
  {
    assert Chronological(st'.images, st'.clock);
    assert Chronological(st'.clips, st'.clock);
  }

  /**
   * Rewriting scene or project fields that neither a foreign key nor a
   * selection depends on (prompts, audio, status) keeps a store consistent.
   */
  lemma SceneRewriteConsistent(st: Store, st': Store)
    requires Consistent(st)
    requires st'.projects.Keys == st.projects.Keys && st'.nextProjectId == st.nextProjectId
    requires st'.scenes.Keys == st.scenes.Keys && st'.nextSceneId == st.nextSceneId
    requires forall s :: s in st.scenes ==> st'.scenes[s].projectId == st.scenes[s].projectId
    requires forall s :: s in st.scenes ==> st'.scenes[s].selectedImageId == st.scenes[s].selectedImageId
    requires forall s :: s in st.scenes ==> st'.scenes[s].selectedClipId == st.scenes[s].selectedClipId
    requires st'.images == st.images && st'.clips == st.clips && st'.clock == st.clock
    ensures Consistent(st')
  {
    ValidUnderRewrite(st, st');
    assert forall s :: s in st'.scenes ==> st'.scenes[s].Selected(ImageKind) == st.scenes[s].Selected(ImageKind);
    assert forall s :: s in st'.scenes ==> st'.scenes[s].Selected(ClipKind) == st.scenes[s].Selected(ClipKind);
  }

  /** Dropping rows from a table, leaving the others as they were, keeps it chronological. */
  lemma ChronologicalSubset(t: ArtifactTable, t': ArtifactTable, clock: nat)
    requires Chronological(t, clock) && t'.nextId == t.nextId
    requires forall i :: i in t'.rows ==> i in t.rows && t'.rows[i] == t.rows[i]
    ensures Chronological(t', clock)
  {
  }

  /** Consistency stated for one kind and its counterpart. */
  lemma ConsistentByKind(st: Store, kind: Kind)
    requires Valid(st)
    requires SelectionAgrees(st.scenes, st.Table(kind).rows, kind)
    requires SelectionAgrees(st.scenes, st.Table(kind.Other()).rows, kind.Other())
    ensures Consistent(st)
  {
    if kind.ClipKind? {
      assert kind.Other() == ImageKind;
    }
  }

  /** In a consistent store no scene has two selected images or two selected clips. */
  lemma ConsistentAtMostOne(st: Store, kind: Kind)
    requires Consistent(st)
    ensures AtMostOneSelectedPerScene(st.Table(kind).rows)
  {
    var t := st.Table(kind).rows;
    forall i, j | i in t && j in t && t[i].sceneId == t[j].sceneId && t[i].isSelected && t[j].isSelected
      ensures i == j
    {
      var s := t[i].sceneId;
      assert s in st.scenes;
      assert st.scenes[s].Selected(kind) == Some(i);
      assert st.scenes[s].Selected(kind) == Some(j);
    }
  }

  lemma EmptyStoreConsistent()
    ensures Consistent(EmptyStore)
  {
  }

  // ---------------------------------------------------------------------------
  // Record creation
  // ---------------------------------------------------------------------------

  /** Inserts `rows` under the consecutive ids `next`, `next + 1`, and so on. */
  function InsertAll<T>(m: map<Id, T>, next: Id, rows: seq<T>): (r: map<Id, T>)
    ensures forall i :: i in r <==> i in m || next <= i < next + |rows|
    ensures forall i :: i in m && !(next <= i < next + |rows|) ==> r[i] == m[i]
    ensures forall i :: next <= i < next + |rows| ==> r[i] == rows[i - next]
    decreases |rows|
  {
    if rows == [] then m
    else
      var r := InsertAll(m[next := rows[0]], next + 1, rows[1..]);
      assert forall k :: 0 <= k < |rows| - 1 ==> rows[1..][k] == rows[k + 1];
      r
  }

  /** Inserts a record under the next auto-increment id. */
  function Insert(t: ArtifactTable, a: Artifact): (r: (ArtifactTable, Id))
    ensures r.1 == t.nextId && r.0.nextId == t.nextId + 1
    ensures r.0.rows == t.rows[t.nextId := a]
  {
    (ArtifactTable(t.rows[t.nextId := a], t.nextId + 1), t.nextId)
  }

  // ---------------------------------------------------------------------------
  // Ordered reads
  // ---------------------------------------------------------------------------

  ghost predicate StrictlyIncreasing(s: seq<Id>) {
    forall i, j :: 0 <= i < j < |s| ==> s[i] < s[j]
  }

  /** The ids below `n` of the artifacts that belong to `sceneId`, ascending. */
  function ArtifactsOf(t: map<Id, Artifact>, sceneId: Id, n: nat): (r: seq<Id>)
    ensures StrictlyIncreasing(r)
    ensures forall k :: 0 <= k < |r| ==> r[k] < n && r[k] in t && t[r[k]].sceneId == sceneId
    ensures forall i :: i < n && i in t && t[i].sceneId == sceneId ==> i in r
  {
    if n == 0 then []
    else
      var prefix := ArtifactsOf(t, sceneId, n - 1);
      if n - 1 in t && t[n - 1].sceneId == sceneId then prefix + [n - 1] else prefix
  }

  /** The ids below `n` of the scene's artifacts flagged selected, ascending. */
  function SelectedOf(t: map<Id, Artifact>, sceneId: Id, n: nat): (r: seq<Id>)
    ensures StrictlyIncreasing(r)
    ensures forall k :: 0 <= k < |r| ==> r[k] < n && r[k] in t && t[r[k]].sceneId == sceneId && t[r[k]].isSelected
    ensures forall i :: i < n && i in t && t[i].sceneId == sceneId && t[i].isSelected ==> i in r
  {
    if n == 0 then []
    else
      var prefix := SelectedOf(t, sceneId, n - 1);
      if n - 1 in t && t[n - 1].sceneId == sceneId && t[n - 1].isSelected then prefix + [n - 1] else prefix
  }

  /**
   * `scene.images[0]` (or `scene.clips[0]`) of a query that includes only
   * the selected artifacts; the query gives no order, so the model takes
   * the oldest.
   */
  function FirstSelected(t: ArtifactTable, sceneId: Id): (r: Option<Id>)
    ensures r.Some? ==> r.value in t.rows && t.rows[r.value].sceneId == sceneId && t.rows[r.value].isSelected
    ensures r.Some? ==> forall i :: i < r.value && i in t.rows && t.rows[i].sceneId == sceneId ==> !t.rows[i].isSelected
    ensures r.None? ==> forall i :: i < t.nextId && i in t.rows && t.rows[i].sceneId == sceneId ==> !t.rows[i].isSelected
  {
    var sel := SelectedOf(t.rows, sceneId, t.nextId);
    if sel == [] then None
    else
      assert forall i :: i < sel[0] && i in t.rows && t.rows[i].sceneId == sceneId && t.rows[i].isSelected ==> i in sel;
      Some(sel[0])
  }

  /** In a consistent store the selected artifact a query finds is the one the scene's back-reference names. */
  lemma FirstSelectedIsBackRef(st: Store, kind: Kind, sceneId: Id)
    requires Consistent(st) && sceneId in st.scenes
    ensures FirstSelected(st.Table(kind), sceneId) == st.scenes[sceneId].Selected(kind)
  {
    var t := st.Table(kind);
    assert SelectionAgrees(st.scenes, t.rows, kind) && Chronological(t, st.clock) by {
      if kind.ImageKind? {} else {}
    }
    var r := FirstSelected(t, sceneId);
    var back := st.scenes[sceneId].Selected(kind);
    if back.Some? {
      assert back.value in t.rows && t.rows[back.value].sceneId == sceneId;
      assert t.rows[back.value].isSelected;
      assert back.value < t.nextId;
    }
    if r.Some? {
      assert st.scenes[sceneId].Selected(kind) == Some(r.value);
    }
  }

  /** The ids below `n` of the scenes that belong to `projectId`, ascending. */
  function ScenesOf(scenes: map<Id, Scene>, projectId: Id, n: nat): (r: seq<Id>)
    ensures StrictlyIncreasing(r)
    ensures forall k :: 0 <= k < |r| ==> r[k] < n && r[k] in scenes && scenes[r[k]].projectId == projectId
    ensures forall s :: s < n && s in scenes && scenes[s].projectId == projectId ==> s in r
  {
    if n == 0 then []
    else
      var prefix := ScenesOf(scenes, projectId, n - 1);
      if n - 1 in scenes && scenes[n - 1].projectId == projectId then prefix + [n - 1] else prefix
  }

  /** The scene number used for ordering; a missing scene sorts as number 0. */
  function NumberOf(scenes: map<Id, Scene>, s: Id): int {
    if s in scenes then scenes[s].sceneNumber else 0
  }

  /** Scene order: by scene number, ties broken by id. */
  predicate SceneLe(scenes: map<Id, Scene>, a: Id, b: Id) {
    NumberOf(scenes, a) < NumberOf(scenes, b) || (NumberOf(scenes, a) == NumberOf(scenes, b) && a <= b)
  }

  ghost predicate SortedScenes(scenes: map<Id, Scene>, s: seq<Id>) {
    forall i, j :: 0 <= i < j < |s| ==> SceneLe(scenes, s[i], s[j])
  }

  function InsertScene(scenes: map<Id, Scene>, x: Id, s: seq<Id>): (r: seq<Id>)
    requires SortedScenes(scenes, s)
    ensures SortedScenes(scenes, r)
    ensures multiset(r) == multiset(s) + multiset{x}
  {
    if s == [] then [x]
    else if SceneLe(scenes, x, s[0]) then
      SortedCons(scenes, x, s);
      [x] + s
    else
      var rest := InsertScene(scenes, x, s[1..]);
      assert s == [s[0]] + s[1..];
      HeadBelowInserted(scenes, s, x, rest);
      SortedCons(scenes, s[0], rest);
      [s[0]] + rest
  }

  lemma SortedCons(scenes: map<Id, Scene>, h: Id, t: seq<Id>)
    requires SortedScenes(scenes, t)
    requires t == [] || SceneLe(scenes, h, t[0])
    ensures SortedScenes(scenes, [h] + t)
  {
    var r := [h] + t;
    forall i, j | 0 <= i < j < |r|
      ensures SceneLe(scenes, r[i], r[j])
    {
      if i == 0 {
        assert r[j] == t[j - 1];
        assert SceneLe(scenes, t[0], t[j - 1]) || j == 1;
      } else {
        assert r[i] == t[i - 1] && r[j] == t[j - 1];
      }
    }
  }

  /** Inserting `x` behind the head keeps the head first, since it precedes `x` and the old tail. */
  lemma HeadBelowInserted(scenes: map<Id, Scene>, s: seq<Id>, x: Id, rest: seq<Id>)
    requires SortedScenes(scenes, s) && s != [] && !SceneLe(scenes, x, s[0])
    requires multiset(rest) == multiset(s[1..]) + multiset{x}
    ensures rest == [] || SceneLe(scenes, s[0], rest[0])
  {
    if rest != [] {
      var y := rest[0];
      assert y in multiset(rest);
      if y != x {
        assert y in multiset(s[1..]);
        var k :| 0 <= k < |s[1..]| && s[1..][k] == y;
        assert s[k + 1] == y;
      }
    }
  }

  /** Insertion sort into scene order (`orderBy: { sceneNumber: "asc" }`). */
  function SortScenes(scenes: map<Id, Scene>, s: seq<Id>): (r: seq<Id>)
    ensures SortedScenes(scenes, r)
    ensures multiset(r) == multiset(s)
  {
    if s == [] then []
    else
      assert s == [s[0]] + s[1..];
      InsertScene(scenes, s[0], SortScenes(scenes, s[1..]))
  }

  /** A project's scene ids in scene order. */
  function ProjectScenes(st: Store, pid: Id): (r: seq<Id>)
    ensures SortedScenes(st.scenes, r)
    ensures forall k :: 0 <= k < |r| ==> r[k] in st.scenes && st.scenes[r[k]].projectId == pid
    ensures forall s :: s in st.scenes && s < st.nextSceneId && st.scenes[s].projectId == pid ==> s in r
    ensures forall i, j :: 0 <= i < j < |r| ==> r[i] != r[j]
  {
    var ids := ScenesOf(st.scenes, pid, st.nextSceneId);
    var r := SortScenes(st.scenes, ids);
    PermutationOfDistinct(ids, r);
    assert forall k :: 0 <= k < |r| ==> r[k] in st.scenes && st.scenes[r[k]].projectId == pid by {
      forall k | 0 <= k < |r| ensures r[k] in st.scenes && st.scenes[r[k]].projectId == pid {
        assert r[k] in ids;
        var m :| 0 <= m < |ids| && ids[m] == r[k];
      }
    }
    r
  }

  /** In a valid store the ordered list holds every scene of the project. */
  lemma ProjectScenesComplete(st: Store, pid: Id, s: Id)
    requires Valid(st)
    requires s in st.scenes && st.scenes[s].projectId == pid
    ensures s in ProjectScenes(st, pid)
  {
  }

  /** A permutation of a strictly increasing sequence has the same elements and no repeats. */
  lemma PermutationOfDistinct(ids: seq<Id>, r: seq<Id>)
    requires StrictlyIncreasing(ids)
    requires multiset(r) == multiset(ids)
    ensures forall x :: x in r <==> x in ids
    ensures forall i, j :: 0 <= i < j < |r| ==> r[i] != r[j]
  {
    forall x ensures x in r <==> x in ids {
      assert x in r <==> x in multiset(r);
      assert x in ids <==> x in multiset(ids);
    }
    forall i, j | 0 <= i < j < |r| ensures r[i] != r[j] {
      if r[i] == r[j] {
        TwoPositions(r, i, j);
        DistinctCount(ids, r[i]);
        assert false;
      }
    }
  }

  lemma {:induction false} DistinctCount(s: seq<Id>, x: Id)
    requires StrictlyIncreasing(s)
    requires x in multiset(s)
    ensures multiset(s)[x] == 1
  {
    var last := s[|s| - 1];
    assert s == s[..|s| - 1] + [last];
    if x == last {
      assert x !in s[..|s| - 1];
      assert x !in multiset(s[..|s| - 1]);
    } else {
      DistinctCount(s[..|s| - 1], x);
    }
  }

  lemma {:induction false} TwoPositions(s: seq<Id>, i: int, j: int)
    requires 0 <= i < j < |s| && s[i] == s[j]
    ensures multiset(s)[s[i]] >= 2
  {
    assert s == s[..i] + [s[i]] + s[i + 1..j] + [s[j]] + s[j + 1..];
  }
}

=== FILE: views.dfy ===
/**
 * The display rules of the scene components of the web client: the status
 * badges of the scene overview, the truncated prompt of the scene detail,
 * the progress bar, counter and arrow buttons of the scene navigation, and
 * the clip card. Each component receives the rows the API returns; here
 * they are the store's `Artifact` and `Scene` records.
 */
module Views {
  import opened Outcomes
  import opened Text
  import opened Store

  /** `rows.filter(p).length`. */
  function Count<T>(rows: seq<T>, p: T -> bool): (n: nat)
    ensures n <= |rows|
    ensures n == |rows| <==> forall k :: 0 <= k < |rows| ==> p(rows[k])
    ensures n > 0 <==> exists k :: 0 <= k < |rows| && p(rows[k])
  {
    if rows == [] then 0
    else
      var rest := Count(rows[1..], p);
      assert forall k :: 1 <= k < |rows| ==> rows[k] == rows[1..][k - 1];
      if p(rows[0]) then rest + 1 else rest
  }

  // ---------------------------------------------------------------------------
  // Scene overview
  // ---------------------------------------------------------------------------

  /** The four badge colours. */
  datatype Tone = Grey | Red | Green | Yellow {
    function ClassName(): string {
      match this
      case Grey => "bg-gray-700 text-gray-400"
      case Red => "bg-red-900/50 text-red-400"
      case Green => "bg-green-900/50 text-green-400"
      case Yellow => "bg-yellow-900/50 text-yellow-400"
    }
  }

  datatype Badge = Badge(caption: string, tone: Tone)

  /** `completed/total`. */
  function Fraction(completed: nat, total: nat): string {
    NatToString(completed) + "/" + NatToString(total)
  }

  /**
   * The badge for `completed` and `failed` out of `total` artifacts. With
   * any artifact at all the label is always `completed/total`, whichever
   * branch writes it; a failure makes the badge red whatever else holds.
   */
  function StatusBadge(completed: nat, total: nat, failed: nat): (b: Badge)
    ensures total == 0 ==> b == Badge("0", Grey)
    ensures total > 0 ==> b.caption == Fraction(completed, total)
    ensures b.tone == Red <==> total > 0 && failed > 0
  {
    if total == 0 then Badge("0", Grey)
    else if failed > 0 then Badge(Fraction(completed, total), Red)
    else if completed == total then Badge(Fraction(completed, total), Green)
    else if completed > 0 then Badge(Fraction(completed, total), Yellow)
    else Badge("0/" + NatToString(total), Grey)
  }

  predicate Waiting(a: Artifact) {
    a.status == Pending || a.status == Processing
  }

  /** The badge of a list of images or clips: counts of completed and failed rows. */
  function ArtifactBadge(rows: seq<Artifact>): Badge {
    StatusBadge(Count(rows, (a: Artifact) => a.status == Completed), |rows|, Count(rows, (a: Artifact) => a.status == Failed))
  }

  /**
   * What a badge colour says about the rows: red when one failed, green
   * when all (and at least one) completed, grey when none has finished
   * (or there are none), yellow when some completed and the rest are still
   * waiting.
   */
  lemma {:induction false} BadgeMeaning(rows: seq<Artifact>)
    ensures ArtifactBadge(rows).tone == Red <==> exists k :: 0 <= k < |rows| && rows[k].status == Failed
    ensures ArtifactBadge(rows).tone == Green <==> rows != [] && forall k :: 0 <= k < |rows| ==> rows[k].status == Completed
    ensures ArtifactBadge(rows).tone == Grey <==> forall k :: 0 <= k < |rows| ==> Waiting(rows[k])
    ensures ArtifactBadge(rows).tone == Yellow <==>
      && (forall k :: 0 <= k < |rows| ==> rows[k].status != Failed)
      && (exists k :: 0 <= k < |rows| && rows[k].status == Completed)
      && (exists k :: 0 <= k < |rows| && Waiting(rows[k]))
  {
    var completed := Count(rows, (a: Artifact) => a.status == Completed);
    var failed := Count(rows, (a: Artifact) => a.status == Failed);
    assert ArtifactBadge(rows) == StatusBadge(completed, |rows|, failed);
    ToneMeaning(completed, |rows|, failed);
    assert (forall k :: 0 <= k < |rows| ==> Waiting(rows[k])) <==> completed == 0 && failed == 0 by {
      if completed == 0 && failed == 0 {
        forall k | 0 <= k < |rows|
          ensures Waiting(rows[k])
        {
          assert rows[k].status != Failed && rows[k].status != Completed;
        }
      }
    }
    if failed == 0 && completed != |rows| {
      var k :| 0 <= k < |rows| && rows[k].status != Completed;
      assert Waiting(rows[k]);
    }
  }

  /** What each tone says about the counts it was computed from. */
  lemma ToneMeaning(completed: nat, total: nat, failed: nat)
    ensures StatusBadge(completed, total, failed).tone == Red <==> total > 0 && failed > 0
    ensures StatusBadge(completed, total, failed).tone == Green <==> total > 0 && failed == 0 && completed == total
    ensures StatusBadge(completed, total, failed).tone == Grey <==> total == 0 || (failed == 0 && completed == 0)
    ensures StatusBadge(completed, total, failed).tone == Yellow <==> total > 0 && failed == 0 && 0 < completed != total
  {
  }

  /** `rows.some(r => r.isSelected)`: the overview's check mark. */
  predicate HasSelected(rows: seq<Artifact>) {
    exists k :: 0 <= k < |rows| && rows[k].isSelected
  }

  /** The records behind a list of ids. */
  function RowsOf(t: ArtifactTable, ids: seq<Id>): (r: seq<Artifact>)
    requires forall k :: 0 <= k < |ids| ==> ids[k] in t.rows
    ensures |r| == |ids|
    ensures forall k :: 0 <= k < |ids| ==> r[k] == t.rows[ids[k]]
  {
    seq(|ids|, k requires 0 <= k < |ids| => t.rows[ids[k]])
  }

  /**
   * In a consistent store the check mark the overview computes from a
   * scene's own artifacts agrees with the scene's back-reference: it shows
   * exactly when the scene has a selected artifact of that kind.
   */
  lemma CheckMarkAgreesWithScene(st: Store, kind: Kind, s: Id, ids: seq<Id>)
    requires Consistent(st) && s in st.scenes
    requires forall k :: 0 <= k < |ids| ==> ids[k] in st.Table(kind).rows && st.Table(kind).rows[ids[k]].sceneId == s
    requires forall i :: i in st.Table(kind).rows && st.Table(kind).rows[i].sceneId == s ==> i in ids
    ensures HasSelected(RowsOf(st.Table(kind), ids)) <==> st.scenes[s].Selected(kind).Some?
  {
    assert SelectionAgrees(st.scenes, st.Table(kind).rows, kind) by {
      if kind.ImageKind? {} else {}
    }
    CheckMarkAgrees(st.scenes, st.Table(kind), kind, s, ids);
  }

  /** The same agreement for any table that agrees with the scenes' back-references. */
  lemma CheckMarkAgrees(scenes: map<Id, Scene>, t: ArtifactTable, kind: Kind, s: Id, ids: seq<Id>)
    requires SelectionAgrees(scenes, t.rows, kind) && s in scenes
    requires forall k :: 0 <= k < |ids| ==> ids[k] in t.rows && t.rows[ids[k]].sceneId == s
    requires forall i :: i in t.rows && t.rows[i].sceneId == s ==> i in ids
    ensures HasSelected(RowsOf(t, ids)) <==> scenes[s].Selected(kind).Some?
  {
    var rows := RowsOf(t, ids);
    if HasSelected(rows) {
      var k :| 0 <= k < |rows| && rows[k].isSelected;
      assert t.rows[ids[k]].isSelected && t.rows[ids[k]].sceneId == s;
    }
    if scenes[s].Selected(kind).Some? {
      var i := scenes[s].Selected(kind).value;
      assert i in t.rows && t.rows[i].sceneId == s;
      var k :| 0 <= k < |ids| && ids[k] == i;
      assert rows[k].isSelected;
    }
  }

  // ---------------------------------------------------------------------------
  // Scene detail
  // ---------------------------------------------------------------------------

  const PromptLimit := 150

  /** `scene.imagePrompt || ""`. */
  function PromptText(imagePrompt: Option<string>): (p: string)
    ensures p == "" <==> !Truthy(imagePrompt)
    ensures p != "" ==> p == imagePrompt.value
  {
    if Truthy(imagePrompt) then imagePrompt.value else ""
  }

  /**
   * The collapsed prompt: a prompt of at most 150 characters is shown
   * whole; a longer one keeps its first 150 characters and gains `...`.
   */
  function Truncate(p: string): (r: string)
    ensures |r| == if |p| <= PromptLimit then |p| else PromptLimit + 3
    ensures |r| <= PromptLimit + 3
    ensures |p| <= PromptLimit ==> r == p
    ensures |p| > PromptLimit ==> r[..PromptLimit] == p[..PromptLimit] && r[PromptLimit..] == "..."
  {
    if |p| > PromptLimit then p[..PromptLimit] + "..." else p
  }

  /** The prompt paragraph: its text and, when the prompt is long, the toggle's label. */
  datatype PromptParagraph = PromptParagraph(text: string, toggle: Option<string>)

  /**
   * The paragraph for a scene's image prompt with the toggle in state
   * `expanded`. There is no paragraph without a prompt, the expanded view
   * shows the whole prompt, and the toggle exists only for a long prompt.
   */
  function PromptView(imagePrompt: Option<string>, expanded: bool): (v: Option<PromptParagraph>)
    ensures v.None? <==> !Truthy(imagePrompt)
    ensures v.Some? && expanded ==> v.value.text == imagePrompt.value
    ensures v.Some? && !expanded ==> v.value.text == Truncate(imagePrompt.value)
    ensures v.Some? ==> (v.value.toggle.Some? <==> |imagePrompt.value| > PromptLimit)
  {
    var p := PromptText(imagePrompt);
    if p == "" then None
    else
      var text := if expanded then p else Truncate(p);
      var toggle := if |p| > PromptLimit then Some(if expanded then "Show less" else "Show more") else None;
      Some(PromptParagraph(text, toggle))
  }

  /**
   * Flipping the toggle changes what is shown exactly when there is a
   * toggle to flip: a short prompt looks the same either way.
   */
  lemma ToggleMatters(imagePrompt: Option<string>)
    ensures PromptView(imagePrompt, true) != PromptView(imagePrompt, false) <==>
      PromptView(imagePrompt, false).Some? && PromptView(imagePrompt, false).value.toggle.Some?
  {
  }

  // ---------------------------------------------------------------------------
  // Scene navigation
  // ---------------------------------------------------------------------------

  /** `scenes.filter(s => s.selectedImageId !== null).length`. */
  function SelectedImageCount(scenes: seq<Scene>): (n: nat)
    ensures n <= |scenes|
  {
    Count(scenes, (s: Scene) => s.selectedImageId.Some?)
  }

  /** The progress bar's width in percent; no scenes gives 0. */
  function Progress(scenes: seq<Scene>): (p: real)
    ensures 0.0 <= p <= 100.0
  {
    if |scenes| > 0 then
      RatioBounds(SelectedImageCount(scenes) as real, |scenes| as real);
      (SelectedImageCount(scenes) as real / |scenes| as real) * 100.0
    else 0.0
  }

  lemma RatioBounds(a: real, b: real)
    requires 0.0 <= a <= b && b > 0.0
    ensures 0.0 <= a / b <= 1.0
  {
  }

  /** The bar is empty exactly when no scene has a chosen image, and full exactly when every scene (of at least one) has. */
  lemma ProgressExtremes(scenes: seq<Scene>)
    ensures Progress(scenes) == 0.0 <==> forall k :: 0 <= k < |scenes| ==> scenes[k].selectedImageId.None?
    ensures Progress(scenes) == 100.0 <==> scenes != [] && forall k :: 0 <= k < |scenes| ==> scenes[k].selectedImageId.Some?
  {
    var n := SelectedImageCount(scenes);
    assert n == Count(scenes, (s: Scene) => s.selectedImageId.Some?);
    if |scenes| > 0 {
      RatioExtremes(n as real, |scenes| as real);
    }
  }

  lemma RatioExtremes(a: real, b: real)
    requires 0.0 <= a <= b && b > 0.0
    ensures (a / b) * 100.0 == 0.0 <==> a == 0.0
    ensures (a / b) * 100.0 == 100.0 <==> a == b
  {
    if a < b {
      assert a / b < 1.0;
    }
  }

  /** `Scene <index+1>/<total>`. */
  function Counter(index: nat, total: nat): (c: string)
    ensures StartsWith(c, "Scene ")
  {
    "Scene " + NatToString(index + 1) + "/" + NatToString(total)
  }

  predicate PrevDisabled(index: int) {
    index == 0
  }

  predicate NextDisabled(index: int, total: int) {
    index == total - 1
  }

  /**
   * The arrows are disabled exactly when the counter shows the first or
   * the last scene.
   */
  lemma ArrowsFollowCounter(index: nat, total: nat)
    ensures PrevDisabled(index) <==> Counter(index, total) == "Scene 1/" + NatToString(total)
    ensures total > 0 ==> (NextDisabled(index, total) <==> Counter(index, total) == Counter(total - 1, total))
  {
    assert NatToString(1) == "1";
    assert Counter(0, total) == "Scene 1/" + NatToString(total);
    if Counter(index, total) == Counter(0, total) {
      CounterInjective(index, 0, total);
    }
    if total > 0 && Counter(index, total) == Counter(total - 1, total) {
      CounterInjective(index, total - 1, total);
    }
  }

  /** Different positions give different counters. */
  lemma CounterInjective(a: nat, b: nat, total: nat)
    requires Counter(a, total) == Counter(b, total)
    ensures a == b
  {
    var t := "/" + NatToString(total);
    var da := NatToString(a + 1);
    var db := NatToString(b + 1);
    assert Counter(a, total) == "Scene " + da + t;
    assert Counter(b, total) == "Scene " + db + t;
    assert |da| == |db|;
    Middle("Scene ", da, t);
    Middle("Scene ", db, t);
    NatToStringInjective(a + 1, b + 1);
  }

  lemma Middle(pre: string, mid: string, post: string)
    ensures (pre + mid + post)[|pre|..|pre| + |mid|] == mid
  {
  }

  // ---------------------------------------------------------------------------
  // Clip card
  // ---------------------------------------------------------------------------

  /** The three shapes of a clip card. */
  datatype CardKind = SpinnerCard | ErrorCard | ReadyCard

  function CardOf(status: ArtifactStatus): (k: CardKind)
    ensures k == SpinnerCard <==> status == Pending || status == Processing
    ensures k == ErrorCard <==> status == Failed
  {
    if status == Processing || status == Pending then SpinnerCard
    else if status == Failed then ErrorCard
    else ReadyCard
  }

  /** The card as rendered: what a click selects, and whether the video and the check mark show. */
  datatype ClipCardView = ClipCardView(kind: CardKind, onClick: Option<Id>, video: Option<string>, checkMark: bool)

  /**
   * The card for clip `id`, with `isSelected` as the grid passes it. Only
   * the ready card has a click handler, a video or a check mark; the video
   * needs a URL, and without one the card reads "No clip".
   */
  function ClipCard(id: Id, clip: Artifact, isSelected: bool): (v: ClipCardView)
    ensures v.onClick.Some? <==> clip.status == Completed
    ensures v.onClick.Some? ==> v.onClick.value == id
    ensures v.video.Some? <==> clip.status == Completed && Truthy(clip.url)
    ensures v.video.Some? ==> v.video.value == clip.url.value
    ensures v.checkMark <==> clip.status == Completed && isSelected
  {
    match CardOf(clip.status)
    case SpinnerCard => ClipCardView(SpinnerCard, None, None, false)
    case ErrorCard => ClipCardView(ErrorCard, None, None, false)
    case ReadyCard => ClipCardView(ReadyCard, Some(id), if Truthy(clip.url) then Some(clip.url.value) else None, isSelected)
  }

  /**
   * A clip that was selected before it finished shows no check mark: the
   * mark hides with the card while the clip is pending, processing or
   * failed, even though the record carries the flag.
   */
  lemma SelectedButUnfinishedShowsNoMark(id: Id, clip: Artifact)
    requires clip.isSelected && clip.status != Completed
    ensures !ClipCard(id, clip, clip.isSelected).checkMark
    ensures ClipCard(id, clip, clip.isSelected).onClick.None?
  {
  }
}
